=== FILE: README.md ===
# CartPole experiment harness, modelled in Dafny

The harness runs reinforcement-learning experiments: an `ExperimentRunner`
drives an `Agent` against an `Environment` for a number of episodes, collects
per-episode statistics, reports a moving average on a cadence, summarises
and logs the run. Configuration comes from a typed key/value `Config` store
read from (and written to) a small JSON-like text format. Environments and
agents are created by name through two registries (`EnvironmentFactory`,
`AgentFactory`). The concrete environment is CartPole (MuJoCo physics) and the
concrete agent a rule-based controller that pushes towards the side the pole
leans to.

The model is functional. Objects become immutable records. The virtual
`Agent` and `Environment` interfaces become records of functions over an
implementation state (`Agents.AgentImpl`, `Agents.EnvImpl`). The side
effects the runner observes (`act`, `step`, `learn`, `render`, the resets,
`getStats`) are recorded as a call trace. Undefined behaviour and exceptions in
the C++ are explicit error outcomes:

- `front()` on an empty string in the config scanner;
- `%` by zero in the experiment loop;
- `reserve` of a negative episode count, which throws `length_error`.

Modules, one per component:

- `Results`, `CInt`, `Text`, `Ordering`: shared definitions.
  - `CInt` covers 32-bit `int` and C++ truncating `%`.
  - `Text` covers decimal text, splitting at a separator, and `getline`.
  - `Ordering` covers `std::string` order and `std::map` key iteration.
- `ConfigStore`: the `Config` value store.
- `ConfigText`: `trim`, `parseValue`, the line scanner of `fromJsonFile`, and `toJsonFile`.
- `ConfigRoundTrip` and `ConfigExamples`: what reading back written text gives.
- `Registry` and `Factories`: the two name registries.
- `Agents`: the agent contract and its defaults.
- `RuleBasedAgent`: the rule-based agent.
- `CartPoleEnv`: CartPole bookkeeping, with the physics step and the initial draw as parameters.
- `Episode`: `runEpisode`.
- `ExperimentStats`: the moving average, the summary and the CSV log.
- `Experiment`: `runExperiment` and `runExperimentFromConfig`.
- `CartPoleEpisodes` and `ExperimentScenarios`: the pieces put together.

## Model

| member | source | states |
|---|---|---|
| CInt.CRem | src/experiment_runner.cpp:29 | C++ `%` truncates toward zero. The remainder is smaller in magnitude than the divisor and has the sign of the dividend. |
| CInt.CDivision | src/experiment_runner.cpp:36 | The C++ identity `(a / b) * b + a % b == a` holds for the truncating quotient and remainder. |
| CInt.CRemZeroIffDivides | src/experiment_runner.cpp:29-36 | For a non-negative episode number, the C++ test `% f == 0` holds exactly when the magnitude of `f` divides it, whatever the sign of `f`. |
| Ordering.StrLtTransitive | src/environment_factory.cpp:27-35 | The lexicographic `std::string` order used by `std::map` is transitive. |
| Ordering.StrLtTotal | src/environment_factory.cpp:27-35 | Any two distinct strings are ordered one way or the other. |
| Ordering.SortedKeys | src/environment_factory.cpp:27-35 | The listing of a key set holds every key once, nothing else, in strictly ascending order. |
| Text.Lines | src/config.cpp:53 | `getline` yields no line exactly for empty text, and no line holds a line end. |
| Text.LinesUnsplit | src/config.cpp:53 | The lines joined by line ends give back the text, less one final line end. |
| ConfigStore.Empty | include/config.h:21 | A default-constructed config has no value and no section. |
| ConfigStore.Create | include/config.h:70-72 | `create(vals)` holds exactly the keys of `vals` and no sections. Each key reads back its value with that value's own alternative. |
| ConfigStore.Get | include/config.h:25-36 | `get<T>` returns the stored value when it holds alternative `T`. It returns the default when the key is absent or holds another alternative. The result always has the default's alternative. |
| ConfigStore.GetSection | include/config.h:38-42 | A stored section is returned as stored. A missing one is an empty config. |
| ConfigStore.SetThenGet | include/config.h:45-48 | After `set(key, v)`, `key` is present and reads `v` with `v`'s alternative and the default with any other. Every other key reads, and is present, exactly as before. |
| ConfigStore.Set | include/config.h:45-48 | After `set(key, v)` the key is present. Every other key is present exactly as before, and the sections are unchanged. |
| ConfigStore.HasIsReadable | include/config.h:55-57 | `has(key)` holds exactly when some `get` of the key does not return its default. |
| ConfigStore.PresenceAfterSetters | include/config.h:45-61 | `has` reports exactly the keys set so far, and `hasSection` exactly the sections set so far. Neither setter changes the other's answer. |
| ConfigStore.SetSection | include/config.h:50-52 | `setSection` makes the section present with the given content. Other sections and all values are unchanged. |
| ConfigStore.GetAbsentIsDefault | include/config.h:35 | Reading an absent key gives the default, for each of int, double, string and bool. |
| ConfigStore.GetMismatchIsDefault | include/config.h:29-33 | Reading a key through an alternative other than the stored one gives the default; there is no conversion. |
| ConfigStore.IntFiveReadAsRealIsDefault | include/config.h:29-33 | A stored int 5 reads as 5 through `get<int>` and as the default through `get<double>`. |
| ConfigStore.ValuesAndSectionsIndependent | include/config.h:55-61 | Values and sections are separate namespaces: a name may be a value, a section, both or neither. |
| ConfigText.LeadingSpaces | src/config.cpp:11 | `find_first_not_of(' ')` is the length of the maximal run of leading spaces. |
| ConfigText.TrailingSpaces | src/config.cpp:13 | The count after `find_last_not_of(' ')` is the length of the maximal run of trailing spaces. |
| ConfigText.Trim | src/config.cpp:10-15 | The result starts and ends with a non-space. It is empty exactly when the text is all spaces. |
| ConfigText.TrimDecomposes | src/config.cpp:10-15 | Trimming removes only spaces: the text is its trimmed form between two runs of spaces. |
| ConfigText.TrimOfPadded | src/config.cpp:10-15 | A trimmed text padded with any spaces on both sides trims back to itself. |
| ConfigText.TrimIdempotent | src/config.cpp:10-15 | Trimming twice is trimming once. |
| ConfigText.TrimKeepsTabs | src/config.cpp:11-13 | Only ' ' is stripped: a tab inside spaces survives, and all-space text becomes empty. |
| ConfigText.TrimKeepsChar | src/config.cpp:10-15 | Trimming loses no character other than spaces. |
| ConfigText.SignedBody | src/config.cpp:30-35 | The text `strtol`/`strtod` read digits from is a suffix after leading white space and one optional sign. |
| ConfigText.Stoi | src/config.cpp:34 | `stoi` skips white space, reads one optional sign and the digits after it, and ignores the rest. It succeeds exactly when there is at least one digit and the signed value of the digits lies in the 32-bit range, and then returns that signed value. |
| ConfigText.Stod | src/config.cpp:32 | `stod` skips white space and reads one optional sign, the digits, and after a '.' more digits. It succeeds exactly when there is at least one digit before or after the '.', and then returns their decimal value, negated after a '-'. |
| ConfigText.NoDigitsNoNumber | src/config.cpp:30-39 | Text without a digit converts neither with `stoi` nor with `stod`, so `parseValue` keeps it as a string. |
| ConfigText.StoiOfIntText | src/config.cpp:34 | `stoi` reads the decimal text of an integer back, whatever non-digit text follows. It fails (throws) outside the 32-bit range. |
| ConfigText.Unquote | src/config.cpp:21-23 | Unquoted text is kept. Quoted text of two or more characters is exactly its inner text wrapped in the two quotes, so the result is the inner text. A lone quote becomes empty text. |
| ConfigText.ParseValue | src/config.cpp:17-40 | Quoted text is a string. Exactly the bare words `true`/`false` are booleans. An int or double result is what `stoi`/`stod` read from unquoted text without or with a '.'. Conversely, unquoted text other than the two words is an int whenever `stoi` reads it (no '.') and a double whenever `stod` reads it (with '.'). It stays a string, trimmed, exactly when that conversion throws. |
| ConfigText.QuotedIsString | src/config.cpp:21-23 | Quoting wins over every other reading: `"true"` and `"12"` in quotes are strings. |
| ConfigText.ParseValueIntPrefix | src/config.cpp:30-35 | The text of a 32-bit int followed by text that starts with a non-digit and has no '.' is read as that int: `stoi` stops at the first non-digit. |
| ConfigText.StodOfDecimal | src/config.cpp:32 | `stod` reads digits, a '.' and more digits as their decimal value. |
| ConfigText.ParseValueDecimal | src/config.cpp:30-32 | Digits, a '.' and more digits are read as the double they denote. |
| ConfigText.SignExamples | src/config.cpp:32-34 | "-5" is -5 for both `stoi` and `stod`. The text of the least 32-bit int is read, and the text of one past the greatest is out of range. |
| ConfigText.IntPrefixExample | src/config.cpp:34 | "12ab" is read as the int 12. |
| ConfigText.DecimalExample | src/config.cpp:32 | "1.5" is read as the double 1.5. |
| ConfigText.DropComma | src/config.cpp:72-76 | A value without a trailing ',' is kept. Otherwise the ',' and the spaces before it are removed. The result is trimmed. |
| ConfigText.ScanLine | src/config.cpp:53-84 | A line is skipped exactly when, once trimmed, it is empty, starts with '#' or "//", is a lone brace, or has no ':'. Every other line binds or is malformed. A binding line contains ':'. |
| ConfigText.ScanPair | src/config.cpp:67-83 | A line with a ':' always binds or is undefined. It is undefined (`front()` on an empty string) exactly when the trimmed key is empty, or the value is empty once trimmed and stripped of one trailing ','. Otherwise it binds the trimmed key, stripped of one pair of surrounding quotes, to what `parseValue` makes of that value. |
| ConfigText.ScanLineSplit | src/config.cpp:57-81 | A trimmed line `q:w`, where `q` has no ':' and neither starts with '#' nor with "//", is scanned as key text `q` and value text `w`. This includes a blank `q` and a `q` that starts with a single '/'. |
| ConfigText.ParseLines | src/config.cpp:53-85 | A successful scan leaves the sections as they were. |
| ConfigText.ParseLinesFails | src/config.cpp:53-85 | The scanner fails exactly when some line has a blank key or value. |
| ConfigText.ParseLinesMeaning | src/config.cpp:53-85 | On success each key holds the value of the last line binding it, or its earlier value when no line binds it. Sections are untouched. |
| ConfigText.Parse | src/config.cpp:43-88 | Text read by `fromJsonFile` never yields sections. |
| ConfigText.Serialize | src/config.cpp:90-118 | The text opens with `{` and a line end and closes with a line end, `}` and a line end. A config with no values writes the two braces with one empty line between them. |
| ConfigRoundTrip.ParseValueOfText | src/config.cpp:17-40 | `parseValue` inverts the written text of an int, a bool and a string. |
| ConfigRoundTrip.ScanEntry | src/config.cpp:53-84 | A written entry line, with or without its trailing ',', binds its key to what `parseValue` makes of its value text. |
| ConfigRoundTrip.EntriesScan | src/config.cpp:99-117 | Scanning the written entry lines of some keys and the closing brace sets exactly those entries over what was there. |
| ConfigRoundTrip.RoundTrip | src/config.cpp:43-118 | Reading back what `toJsonFile` writes restores every int, bool and string value with its alternative. Sections are not written, so none come back. |
| ConfigRoundTrip.RealMayReturnAsInt | src/config.cpp:30-35 | A double written as "2" (no '.') comes back as the int 2, not as a double. |
| ConfigExamples.LayoutReading | src/config.cpp:43-88 | A file with one entry per line, comments and braces on their own lines, reads back the settings int 5, string "hi", bool true. |
| ConfigExamples.SettingsReads | include/config.h:25-36 | Those settings read back through their own alternatives, and the int reads as the default double. |
| ConfigExamples.SlashKeyBinds | src/config.cpp:57-81 | `/a: 5` binds the key `/a` to int 5, since only '#' and "//" start a comment. `: 5` is malformed, not skipped. |
| ConfigExamples.OneLineReading | src/config.cpp:53-84 | The same settings on one line `{"k": 5, ...}` split at the first ':': the only key is `{"k"` bound to 5, so `k` itself is missing. |
| Registry.Fresh | src/environment_factory.cpp:5-8 | A new registry binds no name. |
| Registry.Register | src/environment_factory.cpp:10-16 | A new name is bound to its creator and nothing else changes. A bound name throws "… is already registered" and leaves the registry as it was. |
| Registry.Create | src/environment_factory.cpp:18-25 | A bound name yields its creator applied to the config. An unbound name throws "… is not registered". |
| Registry.RegisteredListedCreatable | src/environment_factory.cpp:18-40 | `isEnvironmentRegistered` holds exactly when the name is listed, and exactly when `create` of it succeeds. |
| Registry.Available | src/environment_factory.cpp:27-35 | The listing holds each bound name once, and nothing else, in ascending order. |
| Registry.Clear | src/environment_factory.cpp:42-44 | After `clear` no name is bound. |
| Registry.RegisterThenCreate | src/environment_factory.cpp:10-25 | A name just registered creates with the creator it was registered with. |
| Registry.RegisterTwiceFails | src/environment_factory.cpp:10-16 | Registration is not idempotent: the second registration throws and keeps the first binding. |
| Registry.RegisterGrowsListing | src/environment_factory.cpp:10-35 | Registering a new name adds exactly that name to the listing. |
| Registry.ClearedCreatesNothing | src/environment_factory.cpp:18-44 | After `clear` nothing is listed and every `create` throws. |
| Factories.UnknownEnvironment | src/environment_factory.cpp:18-25 | The environment factory rejects an unknown name with "Environment '<name>' is not registered". |
| Factories.DuplicateAgent | src/agent_factory.cpp:10-16 | The agent factory rejects a second registration with "Agent '<name>' is already registered". |
| Factories.FactoriesIndependent | src/agent_factory.cpp:18-25 | A name registered with the environment factory is unknown to the agent factory. |
| Agents.NewAgent | include/agent.h:50 | A new agent is in training mode. |
| Agents.TrainingModeRoundTrip | include/agent.h:30-31 | `isTraining` reads back what `setTrainingMode` set, and setting the mode just read changes nothing. |
| Agents.SetTrainingMode | include/agent.h:30-31 | `isTraining` reports the flag just set, and nothing else changes. |
| Agents.LastTrainingModeWins | include/agent.h:30-31 | Of two `setTrainingMode` calls the last decides. |
| Agents.WithDefaults | include/agent.h:34-47 | An agent that overrides only `act` and `learn` has the base class's `reset`, `saveModel` and `loadModel` (state unchanged) and an empty `getStats`. |
| Agents.BatchLearnAppend | include/agent.h:22-27 | Batch learning from two trajectories in turn is batch learning from their concatenation. |
| Agents.BatchLearnSnoc | include/agent.h:22-27 | The last experience of a trajectory is learnt last. |
| Agents.BatchLearnIgnored | include/agent.h:22-27 | An agent whose single-step `learn` does nothing is unchanged by any trajectory. |
| RuleBasedAgent.New | src/agents/rule_based_agent.cpp:3-6 | A new agent has the given force, zero counters and a zero last action, and its counters balance. |
| RuleBasedAgent.Act | src/agents/rule_based_agent.cpp:9-34 | A state shorter than four gives 0 and counts nothing. Otherwise the pole angle picks full force right (positive) or left (zero or negative), counted on that side and in the total. The returned action is the stored last action. |
| RuleBasedAgent.Learn | src/agents/rule_based_agent.cpp:36-39 | Learning leaves the agent unchanged. |
| RuleBasedAgent.GetStats | src/agents/rule_based_agent.cpp:41-49 | Five named figures in order: the total, last action, left and right counters and the force, each the field it names. The total equals left plus right for a balanced agent. |
| RuleBasedAgent.Impl | src/agents/rule_based_agent.cpp:3-49 | As an agent implementation, `reset` is the base class's, so the counters carry over between episodes. |
| RuleBasedAgent.RunCounts | src/agents/rule_based_agent.cpp:9-34 | Acting on any sequence of states adds the reference counts of right, left and valid states to the counters. The force never changes. |
| RuleBasedAgent.CountsSplit | src/agents/rule_based_agent.cpp:24-32 | Valid states split into left and right pushes, and no state is counted twice. |
| RuleBasedAgent.CountersBalanced | src/agents/rule_based_agent.cpp:3-34 | From construction, `total == left + right` after any states, and the counters equal the reference counts. |
| RuleBasedAgent.ReportedCounts | src/agents/rule_based_agent.cpp:9-49 | After a run from construction, `getStats` reports the reference counts of the states seen, with the total equal to left plus right, and the constructor's force. |
| RuleBasedAgent.RunActions | src/agents/rule_based_agent.cpp:9-34 | Every action is 0, `+max_force` or `-max_force`, and `last_action` holds the last one returned. |
| RuleBasedAgent.LearnsNothing | src/agents/rule_based_agent.cpp:36-39 | Batch learning from any trajectory leaves the agent as it was. |
| CartPoleEnv.New | src/cartpole_env.cpp:7-29 | Construction sets the default force (10) and episode limit (500), counter 0, model and data held, and a window held exactly when rendering. The starting pose of the model file is not modelled. |
| CartPoleEnv.GetState | src/cartpole_env.cpp:147-154 | The observation has four entries: position, velocity, angle, angular velocity. |
| CartPoleEnv.IsDone | src/cartpole_env.cpp:156-162 | The step fails exactly when the magnitude of the position or of the angle exceeds its threshold. |
| CartPoleEnv.Clip | src/cartpole_env.cpp:124 | The clamp lies in `[-max_force, max_force]`, keeps an action inside it and saturates outside it. |
| CartPoleEnv.ClipIdempotent | src/cartpole_env.cpp:124 | Clamping twice is clamping once. |
| CartPoleEnv.ActionLow | include/cartpole_env.h:33 | The low action bound is the negated high bound. No clamped action lies below it, and with a non-negative force the clamp keeps it. |
| CartPoleEnv.ActionHigh | include/cartpole_env.h:34 | With a non-negative force, no clamped action lies above the high bound, and the clamp keeps it. |
| CartPoleEnv.SpaceSizes | include/cartpole_env.h:29-32 | The observation space size 4 is the length of every observation and of both bounds of the observation space. The action space size is 1, the single force `step` takes. |
| CartPoleEnv.ClipIsActionSpace | include/cartpole_env.h:33-34 | The clamp range is the declared action space, and its bounds are fixed points. |
| CartPoleEnv.Reset | src/cartpole_env.cpp:103-120 | Reset installs the drawn pose, zeroes the counter, changes nothing else and observes the new pose. |
| CartPoleEnv.ComputeReward | src/cartpole_env.cpp:164-175 | The reward is 0 or 1. It is 0 exactly for a done step before the step limit. |
| CartPoleEnv.Step | src/cartpole_env.cpp:122-145 | The physics runs on the clamped action. The counter advances only when the failure test fails (the `or` short-circuits). The step is done when the test holds or the counter reaches the limit. |
| CartPoleEnv.StepOutcome | src/cartpole_env.cpp:136-142 | A step that is not done advanced the counter, which stays below the limit. The reward is 0 exactly on a failure, and the info is non-empty exactly when done. |
| CartPoleEnv.DoneWithinRemaining | src/cartpole_env.cpp:117-136 | From a counter below the limit, one of the remaining steps is done, whatever the physics and the actions. |
| CartPoleEnv.DoneWithinLimit | src/cartpole_env.cpp:103-145 | After a reset the episode is done within `max_episode_steps` steps. |
| CartPoleEnv.ObservationLow | src/cartpole_env.cpp:229-231 | The space is symmetric: each low bound is the negated high bound. |
| CartPoleEnv.ObservationHigh | src/cartpole_env.cpp:233-235 | The high bounds are twice the position and angle thresholds; the two velocities are unbounded. |
| CartPoleEnv.RunningObservationInSpace | src/cartpole_env.cpp:229-235 | An observation whose episode goes on lies inside the declared observation space. |
| CartPoleEnv.SetRenderMode | include/cartpole_env.h:46 | Only the flag changes, not the window. |
| CartPoleEnv.CloseAsWritten | src/cartpole_env.cpp:212-227 | Data and model are released whenever held. The window is released only when rendering is currently enabled. |
| CartPoleEnv.CloseAsWrittenIdempotent | src/cartpole_env.cpp:212-227 | A second `close` (the destructor's) releases nothing more. |
| CartPoleEnv.CloseAsWrittenLeaksWindow | src/cartpole_env.cpp:212-216 | Constructed with rendering and then switched off, the environment keeps its window through both `close` calls. |
| CartPoleEnv.Close | src/cartpole_env.cpp:78-101 | The corrected close releases everything held, whatever the render flag. |
| CartPoleEnv.CloseReleasesAll | src/cartpole_env.cpp:78-101 | The corrected close is idempotent, agrees with the written one whenever rendering is on or no window is held, and leaves no window in the leaking case. |
| CartPoleEnv.Impl | src/cartpole_env.cpp:103-145 | As an environment implementation, reset, step and render are the modelled operations. |
| Episode.StepOnce | src/experiment_runner.cpp:102-114 | One iteration draws when rendering, then steps that environment with the action `act` chose; the next environment and the step result are exactly that step's. It acts on the latest observation, learns from the experience made of that observation, the chosen action and the step's result, and adds the reward to the total with `steps` one past the iteration. |
| Episode.Loop | src/experiment_runner.cpp:95-123 | Each step taken yields one experience and one info. The loop leaves the episode number and the agent statistics to its caller. |
| Episode.LoopCounts | src/experiment_runner.cpp:95-123 | The loop takes at most `max_steps` steps, all of them when it does not terminate, and `steps` counts them. |
| Episode.LoopEnds | src/experiment_runner.cpp:118-122 | Only the last step of an episode may be done. |
| Episode.LoopTerminates | src/experiment_runner.cpp:118-122 | The episode is terminated exactly when its last step is done. |
| Episode.LoopReason | src/experiment_runner.cpp:118-122 | The termination reason is the last step's info when terminated, and empty otherwise. |
| Episode.LoopRewards | src/experiment_runner.cpp:113 | The total reward is the sum of the steps' rewards. |
| Episode.LoopChains | src/experiment_runner.cpp:103-115 | Each experience starts where the previous one ended, the first at the reset observation. |
| Episode.LoopCalls | src/experiment_runner.cpp:95-123 | Each step calls render (when rendering), act, step and learn, in that order, and nothing else. |
| Episode.LoopEndsWithinBudget | src/experiment_runner.cpp:95-123 | Against an environment that finishes within a budget, a loop whose cap leaves room for the budget ends terminated within it. |
| Episode.RunEpisode | src/experiment_runner.cpp:85-129 | An episode's statistics carry the agent's `getStats` after the loop. |
| Episode.EpisodeOutcome | src/experiment_runner.cpp:85-129 | An episode has at most `max(max_steps, 0)` steps, reward equal to the sum of its steps' rewards, and experiences chained from the reset. It is terminated exactly when its last step is done, with that step's info as reason. |
| Episode.NoStepsWithoutCap | src/experiment_runner.cpp:86-95 | With a non-positive cap, only the reset and `getStats` happen: zero steps, zero reward, not terminated. |
| Episode.CallCounts | src/experiment_runner.cpp:93-126 | `act`, `step` and `learn` are each called once per step. `render` is called once per step when rendering and never otherwise. The environment is reset once. |
| Episode.EpisodeLearnsTrajectory | src/experiment_runner.cpp:103-110 | For an agent whose `act` keeps its state, the episode leaves it as the default batch `learn` over the episode's experiences would. |
| ExperimentStats.CalculateMovingAverage | src/experiment_runner.cpp:199-212 | The loop computes the mean reward of the last `window` episodes (all when fewer), 0 for none. |
| ExperimentStats.MovingAverageBounds | src/experiment_runner.cpp:199-212 | When all rewards lie between two bounds, so does any moving average over them. |
| ExperimentStats.MovingAverageWholeRun | src/experiment_runner.cpp:199-212 | With a window covering the run, the moving average is the mean of every reward. |
| ExperimentStats.Summarize | src/experiment_runner.cpp:166-190 | There is no summary exactly for an empty run. Otherwise it counts the episodes and gives the mean reward, the mean steps (total steps over the count) and the share of terminated episodes. |
| ExperimentStats.StepsSumBounds | src/experiment_runner.cpp:174-178 | Step counts between 0 and a cap add up to between 0 and the count times the cap, and to the top exactly when every episode ran to the cap. |
| ExperimentStats.AverageStepsBounds | src/experiment_runner.cpp:181 | When every episode keeps to a cap, the mean steps lie between 0 and the cap, and equal it exactly when every episode ran to it. |
| ExperimentStats.TerminatedCountRange | src/experiment_runner.cpp:174-182 | Terminated episodes are counted once each: all exactly when every one terminated, none exactly when none did. |
| ExperimentStats.TerminationRate | src/experiment_runner.cpp:174-186 | The termination rate lies in [0, 1]. It is 1 exactly when every episode terminated and 0 exactly when none did. |
| ExperimentStats.LogRowFields | src/experiment_runner.cpp:142-148 | A row whose reward text and reason hold no ',' or line break splits back into its five fields. |
| ExperimentStats.LogEpisodeReadsBack | src/experiment_runner.cpp:143 | The episode number in a row reads back with `stoi`. |
| ExperimentStats.LogLines | src/experiment_runner.cpp:131-151 | The log reads back as the header line and one line per episode, in order. |
| ExperimentStats.LogShape | src/experiment_runner.cpp:139-148 | The first line of the log splits into the column names, and each later line into its episode's fields. |
| ExperimentStats.LogText | src/experiment_runner.cpp:131-151 | The log starts with the header line and is that line alone exactly when there are no episodes. |
| Experiment.RunEpisodes | src/experiment_runner.cpp:27-49 | The loop ends with one statistics record per configured episode, and makes one render decision and one report decision per episode it runs. |
| Experiment.EpisodesNumbered | src/experiment_runner.cpp:27-33 | The loop keeps earlier statistics and numbers episode `j` as `j + 1`. |
| Experiment.EpisodesRendered | src/experiment_runner.cpp:29-30 | An episode is rendered exactly when rendering is on and its index is a multiple of the render frequency. |
| Experiment.EpisodesReported | src/experiment_runner.cpp:36-45 | An episode is reported exactly when its number is a multiple of the log frequency. The report carries window `min(100, n)` and the moving average over the first `n` episodes. |
| Experiment.EpisodesResets | src/experiment_runner.cpp:27-49 | Each episode resets the environment once and the agent once. |
| Experiment.EpisodesAgent | src/experiment_runner.cpp:27-49 | The agent is reset after each episode and the next episode starts from it. A run that played an episode leaves an agent that `reset` returned. An agent whose `act` keeps its state and whose `learn` does nothing ends the run with `reset` applied once per episode. |
| Experiment.EpisodesCapped | src/experiment_runner.cpp:30 | Every episode keeps to the step cap, and runs to it when it does not terminate. |
| Experiment.RunExperiment | src/experiment_runner.cpp:18-66 | A negative episode count is a `length_error`. With episodes to run, a zero log frequency, or a zero render frequency while rendering is on, is a division by zero. Otherwise there is one statistics record per episode, a summary exactly when there were episodes, a log exactly when a log file is named, and a model save exactly when saving is on and a path is given. |
| Experiment.ExperimentEpisodes | src/experiment_runner.cpp:27-57 | A run numbers its episodes from 1, keeps each to the cap, and logs exactly their statistics. |
| Experiment.ExperimentAverageSteps | src/experiment_runner.cpp:166-190 | A run with episodes reports mean steps between 0 and the step cap. |
| Experiment.ExperimentCadence | src/experiment_runner.cpp:29-45 | A run renders and reports on the configured cadence, with moving averages over the episodes so far. |
| Experiment.ExperimentResets | src/experiment_runner.cpp:27-62 | A run resets the environment and the agent once per episode. Unsaved, a run with episodes returns an agent that `reset` returned. An agent whose `act` keeps its state and whose `learn` does nothing is returned, or handed to `saveModel`, with `reset` applied once per episode. |
| Experiment.FromConfig | src/experiment_runner.cpp:71-80 | Each key present with the right alternative overrides its default; anything else keeps the default. |
| Experiment.EmptyConfigGivesDefaults | src/experiment_runner.cpp:73-80 | An empty configuration gives the member initialisers of `ExperimentConfig`. |
| Experiment.RunFromText | src/experiment_runner.cpp:68-83 | Text the scanner cannot read has no defined outcome. Otherwise the experiment runs on the settings read. |
| CartPoleEpisodes.EpisodeEndsByEnvironment | src/cartpole_env.cpp:117-136 | On CartPole, with a step cap at least the episode limit, every episode ends terminated within `max_episode_steps` steps. |
| CartPoleEpisodes.DefaultEpisodeTerminates | src/experiment_runner.cpp:74 | The default CartPole episode under the default cap of 1000 always terminates within 500 steps. |
| CartPoleEpisodes.RulePushesTowardsLean | src/agents/rule_based_agent.cpp:24-30 | On a CartPole observation the agent pushes right exactly when the pole leans right, and left otherwise. |
| CartPoleEpisodes.RuleActionsNeedNoClipping | src/cartpole_env.cpp:124 | The default agent's actions lie in the default action space, so clamping keeps them. |
| ExperimentScenarios.OneStepEpisodes | src/experiment_runner.cpp:27-33 | Against an environment whose first step ends the episode with reward 1, every episode is one terminated step worth 1. |
| ExperimentScenarios.ThreeOneStepEpisodes | src/experiment_runner.cpp:18-66 | Three such episodes under a cap of 10 give three records numbered 1 to 3, each one terminated step worth 1, and a termination rate of 1. |

## Left out

- **File and console I/O.**
  - Opening and reading or writing files, and the exceptions when a file cannot be opened, are not modelled. `fromJsonFile` and `toJsonFile` work on the file's text, and the log is the text `logStats` would write.
  - `logToFile` (appending a line to a file) is not modelled.
  - Console output is not modelled: `printStats`, `printSummary`'s printing, the banners, and the rendering hint of `render`.
- **Physics and graphics.**
  - The MuJoCo physics step (`mj_step` and the control write) is the `physics` parameter.
  - The random initial draw of `reset` is the `draw` parameter.
  - The real-time `sleep` is left out.
  - GLFW/MuJoCo rendering internals are left out; `render` leaves the modelled state as it is.
  - Model-load and window-creation failures in the constructor are left out.
- **Floating point.**
  - Doubles are exact reals. IEEE rounding is not modelled, and the 12° threshold is an exact real.
  - The stream formatting of doubles is the `fmt` parameter.
  - `stod` is modelled for decimal text without exponent, hexadecimal, `inf` or `nan`.
- **Integer widths.**
  - Counters (`current_step_`, the agent's counters, `steps`) are unbounded integers; their 32-bit overflow is not modelled.
  - `calculateMovingAverage` casts `stats.size()` to `int`. The model uses the unbounded length, so it does not model that narrowing. The narrowing would only matter beyond 2^31 - 1 episodes, and `num_episodes` is a 32-bit `int`.
  - Configuration ints are 32-bit, as `stoi` requires.
- **Not modelled at all.**
  - `main`, the test drivers and the random agent.
  - The static self-registration and the singleton instances, which become explicit registry values.
  - Names and descriptions.
- **Declared but never defined in the source.**
  - The `RuleBasedAgent(Config)` and `CartPoleEnv(Config)` constructors, `shouldClose` and `getCurrentState`.
- **Behaviour the model does not give.**
  - Use of the environment after `close` is undefined behaviour in the source and is not modelled.
  - `runEpisode` leaves `stats.episode` uninitialised; the model uses 0, and the caller overwrites it.
- Experiment.RunFromText: the `front()` on an empty key or value is undefined behaviour. The model gives no outcome for such text (`None`) rather than guessing one.
- **Where the model follows the code over its own description.**
  - A double need not read back as a double (see `ConfigRoundTrip.RealMayReturnAsInt`).
  - The registry listing is in ascending name order.
  - The one-line form `{"x": 5, ...}` yields the single key `{"x"` (see `ConfigExamples.OneLineReading`).
- Experiment.EpisodesAgent: the agent's values are stated for agent state types without heap references, `S(!new)`. This is so the existential over states does not depend on allocation; every agent state in the model is a plain value.
- Experiment.ExperimentResets: the same restriction to agent state types without heap references.
- ConfigRoundTrip.RoundTrip: stated only for ints, bools, and strings without line breaks, under keys without ':' or line breaks. Doubles depend on `fmt` and may come back as ints. Line breaks are written without escaping and split the entry; a ':' in a key moves the split.
- ConfigText.Stod: decimal text whose value overflows or underflows a double makes `stod` throw `out_of_range`, so `parseValue` keeps the text as a string. The model has no double range and reads such text as its exact value.
- ExperimentStats.Summarize: `total_steps` is a 32-bit `int`; its overflow on very long runs is not modelled.

## Findings

| source | as written | input that shows it | evidently intended | confidence | as-written member | corrected member |
|---|---|---|---|---|---|---|
| src/cartpole_env.cpp:212-216 | `close` calls `cleanupRendering` only when `render_enabled_` is set, although `cleanupRendering` itself guards on the window being held | `CartPoleEnv(path, true)`, then `setRenderMode(false)`, then `close()` and the destructor's `close()`: the window and rendering context are never released | release the rendering structures whenever they are held | not executed | CartPoleEnv.CloseAsWrittenLeaksWindow | CartPoleEnv.CloseReleasesAll |

=== FILE: agent.dfy ===
/** The agent and environment interfaces of the harness, as values: an agent
    is a state `S` with transition functions, an environment a state `E`
    with transition functions. The C++ virtual methods become fields of a
    record of functions; the defaults the base class provides are given
    here once. */
module Agents {

  /** An observation (`std::vector<double>`). */
  type State = seq<real>

  /** The name/value pairs `getStats` returns. */
  type Stats = seq<(string, real)>

  /** One transition `(state, action, reward, next_state, done)`. */
  datatype Experience = Experience(state: State, action: real, reward: real, next: State, done: bool)

  /** What `Environment::step` returns: `(next_state, reward, done, info)`. */
  datatype StepResult = StepResult(next: State, reward: real, done: bool, info: string)

  /** An agent implementation over its own state `S`: `act` may change the
      state (counters, exploration) as well as choosing the action. */
  datatype AgentImpl<!S> = AgentImpl(
    act: (S, State) -> (S, real),
    learn: (S, Experience) -> S,
    reset: S -> S,
    stats: S -> Stats,
    save: (S, string) -> S,
    load: (S, string) -> S)

  /** An environment implementation over its own state `E`; `reset` and
      `step` return the observation along with the new state. */
  datatype EnvImpl<!E> = EnvImpl(
    reset: E -> (E, State),
    step: (E, real) -> (E, StepResult),
    render: E -> E)

  /** The base class's own state: the implementation's state and the
      protected `training_mode_` flag. */
  datatype Agent<S> = Agent(core: S, training: bool)

  /** A newly constructed agent is in training mode. */
  function NewAgent<S>(core: S): (a: Agent<S>)
    ensures IsTraining(a) && a.core == core
  {
    Agent(core, true)
  }

  /** `isTraining`. */
  predicate IsTraining<S>(a: Agent<S>)
  {
    a.training
  }

  /** `setTrainingMode`: the flag is whatever was set last; nothing else
      changes. */
  function SetTrainingMode<S>(a: Agent<S>, training: bool): (r: Agent<S>)
    ensures IsTraining(r) == training && r.core == a.core
  {
    a.(training := training)
  }

  /** `isTraining` and `setTrainingMode` are a getter and setter pair:
      setting the mode just read changes nothing. */
  lemma TrainingModeRoundTrip<S>(a: Agent<S>, training: bool)
    ensures SetTrainingMode(a, IsTraining(a)) == a
    ensures IsTraining(SetTrainingMode(a, training)) == training
  {
  }

  /** The last call of `setTrainingMode` decides `isTraining`. */
  lemma LastTrainingModeWins<S>(a: Agent<S>, first: bool, second: bool)
    ensures IsTraining(SetTrainingMode(SetTrainingMode(a, first), second)) == second
    ensures SetTrainingMode(SetTrainingMode(a, first), second) == SetTrainingMode(a, second)
  {
  }

  /** An implementation that overrides only `act` and `learn`: `reset`,
      `saveModel` and `loadModel` keep the state and `getStats` is empty. */
  function WithDefaults<S(!new)>(act: (S, State) -> (S, real), learn: (S, Experience) -> S): (impl: AgentImpl<S>)
    ensures impl.act == act && impl.learn == learn
    ensures forall s :: impl.reset(s) == s && impl.stats(s) == []
    ensures forall s, path :: impl.save(s, path) == s && impl.load(s, path) == s
  {
    AgentImpl(act, learn, s => s, s => [], (s, path) => s, (s, path) => s)
  }

  /** The default batch `learn`: single-transition `learn` on each
      experience of the trajectory, first to last. */
  function BatchLearn<S>(learn: (S, Experience) -> S, s: S, trajectory: seq<Experience>): (r: S)
    ensures trajectory == [] ==> r == s
    ensures |trajectory| == 1 ==> r == learn(s, trajectory[0])
    decreases |trajectory|
  {
    if trajectory == [] then s
    else BatchLearn(learn, learn(s, trajectory[0]), trajectory[1..])
  }

  /** Learning from an experience and then a trajectory. */
  lemma BatchLearnCons<S>(learn: (S, Experience) -> S, s: S, x: Experience, t: seq<Experience>)
    ensures BatchLearn(learn, s, [x] + t) == BatchLearn(learn, learn(s, x), t)
  {
    assert ([x] + t)[0] == x && ([x] + t)[1..] == t;
  }

  /** Learning from two trajectories one after the other is learning from
      their concatenation. */
  lemma {:induction false} BatchLearnAppend<S>(learn: (S, Experience) -> S, s: S, a: seq<Experience>, b: seq<Experience>)
    ensures BatchLearn(learn, s, a + b) == BatchLearn(learn, BatchLearn(learn, s, a), b)
    decreases |a|
  {
    if a == [] {
      assert a + b == b;
    } else {
      assert (a + b)[0] == a[0];
      assert (a + b)[1..] == a[1..] + b;
      BatchLearnAppend(learn, learn(s, a[0]), a[1..], b);
    }
  }

  /** Learning from a trajectory and then one more experience applies the
      single-transition `learn` last. */
  lemma BatchLearnSnoc<S>(learn: (S, Experience) -> S, s: S, a: seq<Experience>, x: Experience)
    ensures BatchLearn(learn, s, a + [x]) == learn(BatchLearn(learn, s, a), x)
  {
    BatchLearnAppend(learn, s, a, [x]);
  }

  /** An agent that does not learn is left as it is by any trajectory. */
  lemma {:induction false} BatchLearnIgnored<S>(learn: (S, Experience) -> S, s: S, trajectory: seq<Experience>)
    requires forall t, x :: learn(t, x) == t
    ensures BatchLearn(learn, s, trajectory) == s
    decreases |trajectory|
  {
    if trajectory != [] {
      BatchLearnIgnored(learn, learn(s, trajectory[0]), trajectory[1..]);
    }
  }
}

=== FILE: cartpole_env.dfy ===
/** The bookkeeping of `CartPoleEnv` around the physics engine: action
    clipping, the episode step counter, the termination test, the reward and
    info of a step, the observation and action spaces, and the release of
    resources in `close`. The physics step and the random initial pose are
    parameters; drawing is left out. */
module CartPoleEnv {
  import opened Agents

  /** `M_PI`, to the digits of its definition. */
  const Pi: real := 3.14159265358979323846

  /** The constructor's constants. */
  const DefaultMaxForce: real := 10.0
  const DefaultXThreshold: real := 2.4
  const DefaultThetaThreshold: real := 12.0 * Pi / 180.0
  const DefaultMaxEpisodeSteps: int := 500

  /** `getName`. */
  const Name: string := "CartPole-v1"

  /** `getObservationSpaceSize` and `getActionSpaceSize`. */
  const ObservationSpaceSize: int := 4
  const ActionSpaceSize: int := 1

  /** The simulator's generalised coordinates: cart position and pole
      angle, and their velocities. */
  datatype Pose = Pose(x: real, xDot: real, theta: real, thetaDot: real)

  /** The environment's fields. `model`, `data` and `window` say whether the
      MuJoCo model, the simulation data and the window (with the four
      visualisation structures allocated along with it) are held. */
  datatype CartPole = CartPole(
    maxForce: real, xThreshold: real, thetaThreshold: real,
    maxEpisodeSteps: int, currentStep: int, renderEnabled: bool,
    pose: Pose, model: bool, data: bool, window: bool)

  /** The constructor once the model has loaded (and, when rendering, the
      window has opened): default constants and counter 0. The pose the
      loaded model file starts in is not modelled; the all-zero pose stands
      in for it, and the episode loop resets the environment before its
      first step, which installs a drawn pose. */
  function New(render: bool): (e: CartPole)
    ensures e.currentStep == 0 && e.renderEnabled == render
    ensures e.model && e.data && e.window == render
    ensures e.maxForce == DefaultMaxForce && e.maxEpisodeSteps == DefaultMaxEpisodeSteps
  {
    CartPole(DefaultMaxForce, DefaultXThreshold, DefaultThetaThreshold, DefaultMaxEpisodeSteps,
             0, render, Pose(0.0, 0.0, 0.0, 0.0), true, true, render)
  }

  /** `getState`: the observation lists position, velocity, angle, angular
      velocity. */
  function GetState(p: Pose): (s: State)
    ensures |s| == ObservationSpaceSize
    ensures s[0] == p.x && s[1] == p.xDot && s[2] == p.theta && s[3] == p.thetaDot
  {
    [p.x, p.xDot, p.theta, p.thetaDot]
  }

  function RAbs(x: real): real
  {
    if x < 0.0 then -x else x
  }

  /** `isDone`: the cart or the pole is strictly beyond its threshold on
      either side, so the test depends only on the magnitudes of position
      and angle. */
  function IsDone(e: CartPole, p: Pose): (done: bool)
    ensures done <==> RAbs(p.x) > e.xThreshold || RAbs(p.theta) > e.thetaThreshold
  {
    p.x < -e.xThreshold || p.x > e.xThreshold
    || p.theta < -e.thetaThreshold || p.theta > e.thetaThreshold
  }

  /** The clamp of `step`. With a non-negative force limit the result lies
      in the action space, equals the action inside it and saturates
      outside it. */
  function Clip(e: CartPole, action: real): (a: real)
    ensures e.maxForce >= 0.0 ==> -e.maxForce <= a <= e.maxForce
    ensures -e.maxForce <= action <= e.maxForce ==> a == action
    ensures e.maxForce >= 0.0 && action > e.maxForce ==> a == e.maxForce
    ensures action < -e.maxForce ==> a == -e.maxForce
  {
    var upper := if e.maxForce < action then e.maxForce else action;
    if -e.maxForce > upper then -e.maxForce else upper
  }

  /** Clamping twice is clamping once. */
  lemma ClipIdempotent(e: CartPole, action: real)
    requires e.maxForce >= 0.0
    ensures Clip(e, Clip(e, action)) == Clip(e, action)
  {
  }

  /** `getActionSpaceLow` / `getActionSpaceHigh`. */
  /** `getActionSpaceLow` and `getActionSpaceHigh`: a symmetric interval
      that bounds every clamped action; with a non-negative force its
      bounds are themselves reachable. */
  function ActionLow(e: CartPole): (low: real)
    ensures low == -ActionHigh(e)
    ensures forall action :: low <= Clip(e, action)
    ensures e.maxForce >= 0.0 ==> Clip(e, low) == low
  {
    -e.maxForce
  }

  function ActionHigh(e: CartPole): (high: real)
    ensures e.maxForce >= 0.0 ==> forall action :: Clip(e, action) <= high
    ensures e.maxForce >= 0.0 ==> Clip(e, high) == high
  {
    e.maxForce
  }

  /** The clamp range is the declared action space, and its bounds are
      fixed points of the clamp. */
  lemma ClipIsActionSpace(e: CartPole, action: real)
    requires e.maxForce >= 0.0
    ensures ActionLow(e) <= Clip(e, action) <= ActionHigh(e)
    ensures Clip(e, ActionLow(e)) == ActionLow(e) && Clip(e, ActionHigh(e)) == ActionHigh(e)
  {
  }

  /** `reset`: the drawn pose and a zero step counter; nothing else changes. */
  function Reset(e: CartPole, initial: Pose): (r: (CartPole, State))
    ensures r.0.currentStep == 0 && r.0.pose == initial
    ensures r.0.(currentStep := e.currentStep, pose := e.pose) == e
    ensures r.1 == GetState(initial)
  {
    (e.(currentStep := 0, pose := initial), GetState(initial))
  }

  /** `computeReward` after the counter update: 1 while running or at the
      time limit, 0 for a failure. */
  function ComputeReward(e: CartPole, done: bool): (r: real)
    ensures r == 0.0 || r == 1.0
    ensures r == 0.0 <==> done && e.currentStep < e.maxEpisodeSteps
  {
    if !done then 1.0 else if e.currentStep >= e.maxEpisodeSteps then 1.0 else 0.0
  }

  /** `step`: clamp, advance the physics, then the counter is incremented
      only when the threshold test fails (the `||` short-circuits), and the
      step is done when the test holds or the counter reaches the limit. */
  function Step(e: CartPole, action: real, physics: (Pose, real) -> Pose): (r: (CartPole, StepResult))
    ensures var p := physics(e.pose, Clip(e, action));
      && r.0.pose == p && r.1.next == GetState(p)
      && r.0.currentStep == (if IsDone(e, p) then e.currentStep else e.currentStep + 1)
      && (r.1.done <==> IsDone(e, p) || r.0.currentStep >= e.maxEpisodeSteps)
    ensures r.0.(currentStep := e.currentStep, pose := e.pose) == e
    ensures !r.1.done ==> r.1.info == "" && r.1.reward == 1.0
    ensures r.1.done && r.0.currentStep >= e.maxEpisodeSteps ==> r.1.info == "TimeLimit" && r.1.reward == 1.0
    ensures r.1.done && r.0.currentStep < e.maxEpisodeSteps ==> r.1.info == "Terminated" && r.1.reward == 0.0
  {
    var p := physics(e.pose, Clip(e, action));
    var stopped := IsDone(e, p);
    var e1 := e.(pose := p, currentStep := if stopped then e.currentStep else e.currentStep + 1);
    var done := stopped || e1.currentStep >= e1.maxEpisodeSteps;
    var info := if done then (if e1.currentStep >= e1.maxEpisodeSteps then "TimeLimit" else "Terminated") else "";
    (e1, StepResult(GetState(p), ComputeReward(e1, done), done, info))
  }

  /** A step that does not end the episode advanced the counter, which is
      still below the limit; and the reward is 0 exactly for a failure. */
  lemma StepOutcome(e: CartPole, action: real, physics: (Pose, real) -> Pose)
    ensures var r := Step(e, action, physics);
      && (!r.1.done ==> r.0.currentStep == e.currentStep + 1 && r.0.currentStep < e.maxEpisodeSteps)
      && (r.1.reward == 0.0 <==> r.1.info == "Terminated")
      && (r.1.done <==> r.1.info != "")
  {
  }

  /** The environment run on a sequence of actions, first to last, without
      a reset in between. */
  function Rollout(e: CartPole, actions: seq<real>, physics: (Pose, real) -> Pose): (r: (CartPole, seq<StepResult>))
    ensures |r.1| == |actions|
    decreases |actions|
  {
    if actions == [] then (e, [])
    else
      var (e1, s) := Step(e, actions[0], physics);
      var (e2, rest) := Rollout(e1, actions[1..], physics);
      (e2, [s] + rest)
  }

  /** With the counter at `c` below the limit, one of the next
      `maxEpisodeSteps - c` steps is done, whatever the physics and the
      actions. */
  lemma {:induction false} DoneWithinRemaining(e: CartPole, actions: seq<real>, physics: (Pose, real) -> Pose)
    requires 0 <= e.currentStep < e.maxEpisodeSteps
    requires |actions| >= e.maxEpisodeSteps - e.currentStep
    ensures exists i :: 0 <= i < e.maxEpisodeSteps - e.currentStep && Rollout(e, actions, physics).1[i].done
    decreases e.maxEpisodeSteps - e.currentStep
  {
    var (e1, s) := Step(e, actions[0], physics);
    var results := Rollout(e, actions, physics).1;
    assert results[0] == s;
    if !s.done {
      StepOutcome(e, actions[0], physics);
      DoneWithinRemaining(e1, actions[1..], physics);
      var i :| 0 <= i < e1.maxEpisodeSteps - e1.currentStep && Rollout(e1, actions[1..], physics).1[i].done;
      assert results[i + 1] == Rollout(e1, actions[1..], physics).1[i];
    }
  }

  /** From a reset, the episode is done by step `max_episode_steps` at the
      latest. */
  lemma DoneWithinLimit(e: CartPole, initial: Pose, actions: seq<real>, physics: (Pose, real) -> Pose)
    requires e.maxEpisodeSteps >= 1
    requires |actions| >= e.maxEpisodeSteps
    ensures var started := Reset(e, initial).0;
      exists i :: 0 <= i < e.maxEpisodeSteps && Rollout(started, actions, physics).1[i].done
  {
    DoneWithinRemaining(Reset(e, initial).0, actions, physics);
  }

  /** One end of an observation-space interval. */
  datatype Bound = Finite(value: real) | Infinite(positive: bool)

  function Negate(b: Bound): Bound
  {
    match b
    case Finite(v) => Finite(-v)
    case Infinite(up) => Infinite(!up)
  }

  /** `x` lies at or below the bound `b`. */
  predicate AtMost(x: real, b: Bound)
  {
    match b
    case Finite(v) => x <= v
    case Infinite(up) => up
  }

  /** `x` lies at or above the bound `b`. */
  predicate AtLeast(x: real, b: Bound)
  {
    match b
    case Finite(v) => v <= x
    case Infinite(up) => !up
  }

  /** `getObservationSpaceLow`: the observation space is symmetric, each
      low bound the negated high bound. */
  function ObservationLow(e: CartPole): (low: seq<Bound>)
    ensures |low| == ObservationSpaceSize
    ensures forall i :: 0 <= i < |low| ==> low[i] == Negate(ObservationHigh(e)[i])
  {
    [Finite(-e.xThreshold * 2.0), Infinite(false), Finite(-e.thetaThreshold * 2.0), Infinite(false)]
  }

  /** `getObservationSpaceHigh`: twice the failure thresholds for
      position and angle, no bound on the velocities. */
  function ObservationHigh(e: CartPole): (high: seq<Bound>)
    ensures |high| == ObservationSpaceSize
    ensures forall i :: 0 <= i < |high| ==> (high[i].Infinite? <==> i == 1 || i == 3)
    ensures high[0] == Finite(2.0 * e.xThreshold) && high[2] == Finite(2.0 * e.thetaThreshold)
    ensures high[1] == Infinite(true) && high[3] == Infinite(true)
  {
    [Finite(e.xThreshold * 2.0), Infinite(true), Finite(e.thetaThreshold * 2.0), Infinite(true)]
  }

  /** An observation whose episode goes on lies inside the declared
      observation space, with room to spare. */
  lemma RunningObservationInSpace(e: CartPole, p: Pose)
    requires e.xThreshold >= 0.0 && e.thetaThreshold >= 0.0
    requires !IsDone(e, p)
    ensures var s := GetState(p);
      forall i :: 0 <= i < ObservationSpaceSize ==>
        AtLeast(s[i], ObservationLow(e)[i]) && AtMost(s[i], ObservationHigh(e)[i])
  {
  }

  /** `getObservationSpaceSize` is the length of every observation and of
      both bounds of the observation space; `getActionSpaceSize` counts the
      single force that `step` takes. */
  lemma SpaceSizes(e: CartPole, p: Pose)
    ensures |GetState(p)| == |ObservationLow(e)| == |ObservationHigh(e)| == ObservationSpaceSize == 4
    ensures ActionSpaceSize == 1
  {
  }

  /** `setRenderMode`: the flag and nothing else, not even the window. */
  function SetRenderMode(e: CartPole, render: bool): (r: CartPole)
    ensures r.renderEnabled == render
    ensures r.(renderEnabled := e.renderEnabled) == e
  {
    e.(renderEnabled := render)
  }

  /** What `close` releases: the rendering structures with the window, the
      simulation data, the model. */
  datatype Resource = Rendering | Data | Model

  /** `close` as written: the rendering structures are released only when
      rendering is currently enabled; data and model whenever held. */
  function CloseAsWritten(e: CartPole): (r: (CartPole, seq<Resource>))
    ensures !r.0.data && !r.0.model
    ensures r.0.window == (e.window && !e.renderEnabled)
    ensures r.0.(window := e.window, data := e.data, model := e.model) == e
    ensures (Rendering in r.1 <==> e.window && e.renderEnabled)
         && (Data in r.1 <==> e.data) && (Model in r.1 <==> e.model)
  {
    var rendering := if e.renderEnabled && e.window then [Rendering] else [];
    var data := if e.data then [Data] else [];
    var model := if e.model then [Model] else [];
    (e.(window := if e.renderEnabled then false else e.window, data := false, model := false),
     rendering + data + model)
  }

  /** `close` as written is idempotent: a second call releases nothing. */
  lemma CloseAsWrittenIdempotent(e: CartPole)
    ensures var once := CloseAsWritten(e).0;
      CloseAsWritten(once).1 == [] && CloseAsWritten(once).0 == once
  {
  }

  /** An environment constructed with rendering whose rendering is then
      switched off keeps its window through `close` and through the
      destructor's second `close`: the window is never released. */
  lemma CloseAsWrittenLeaksWindow()
    ensures var e := SetRenderMode(New(true), false);
      && CloseAsWritten(e).0.window
      && CloseAsWritten(CloseAsWritten(e).0).0.window
      && Rendering !in CloseAsWritten(e).1 + CloseAsWritten(CloseAsWritten(e).0).1
  {
  }

  /** `close` with the guard `cleanupRendering` itself uses: whatever is
      held is released, whatever the render flag says. */
  function Close(e: CartPole): (r: (CartPole, seq<Resource>))
    ensures !r.0.window && !r.0.data && !r.0.model
    ensures r.0.(window := e.window, data := e.data, model := e.model) == e
    ensures (Rendering in r.1 <==> e.window) && (Data in r.1 <==> e.data) && (Model in r.1 <==> e.model)
  {
    var rendering := if e.window then [Rendering] else [];
    var data := if e.data then [Data] else [];
    var model := if e.model then [Model] else [];
    (e.(window := false, data := false, model := false), rendering + data + model)
  }

  /** The corrected `close` releases everything once, is idempotent, and
      agrees with the written one whenever rendering is enabled or no
      window is held. */
  lemma CloseReleasesAll(e: CartPole)
    ensures var once := Close(e).0;
      Close(once).1 == [] && Close(once).0 == once
    ensures e.renderEnabled || !e.window ==> Close(e) == CloseAsWritten(e)
    ensures !Close(SetRenderMode(New(true), false)).0.window
  {
  }

  /** The environment as an implementation of the environment interface,
      with the physics step and the initial pose draw as parameters;
      drawing leaves the modelled state alone. */
  function Impl(physics: (Pose, real) -> Pose, draw: CartPole -> Pose): (impl: EnvImpl<CartPole>)
    ensures forall e :: impl.reset(e) == Reset(e, draw(e)) && impl.render(e) == e
    ensures forall e, a :: impl.step(e, a) == Step(e, a, physics)
  {
    EnvImpl(e => Reset(e, draw(e)), (e, a) => Step(e, a, physics), e => e)
  }
}

=== FILE: cartpole_episodes.dfy ===
/** Episodes of the harness run on the CartPole environment: the
    environment's own time limit ends every episode before the runner's step
    cap, and the rule-based agent pushes the cart towards the side the pole
    leans to. */
module CartPoleEpisodes {
  import opened Agents
  import opened Episode
  import opened CartPoleEnv
  import RuleBasedAgent

  /** The steps CartPole has left before its time limit. */
  function Remaining(e: CartPole): int
  {
    e.maxEpisodeSteps - e.currentStep
  }

  /** CartPole finishes within its remaining steps: a step that is not done
      counts one step and stays below the limit. */
  lemma FinishesWithinRemaining(physics: (Pose, real) -> Pose, draw: CartPole -> Pose)
    ensures FinishesWithin(Impl(physics, draw), Remaining)
  {
    var env := Impl(physics, draw);
    forall x, u | !env.step(x, u).1.done
      ensures 1 <= Remaining(env.step(x, u).0) == Remaining(x) - 1
    {
      StepOutcome(x, u, physics);
    }
  }

  /** An episode on CartPole whose step cap is at least the environment's
      `max_episode_steps` always ends terminated (fallen or timed out),
      after at most `max_episode_steps` steps. */
  lemma EpisodeEndsByEnvironment<S>(ag: AgentImpl<S>, physics: (Pose, real) -> Pose, draw: CartPole -> Pose,
                                    a: S, e: CartPole, maxSteps: int, render: bool)
    requires 1 <= e.maxEpisodeSteps <= maxSteps
    ensures var r := RunEpisode(ag, Impl(physics, draw), a, e, maxSteps, render);
      r.stats.terminated && 1 <= r.stats.steps <= e.maxEpisodeSteps
  {
    var env := Impl(physics, draw);
    var (e1, s0) := env.reset(e);
    assert (e1, s0) == Reset(e, draw(e));
    FinishesWithinRemaining(physics, draw);
    LoopEndsWithinBudget(ag, env, Remaining, a, e1, s0, 0, maxSteps, render, Initial);
    EpisodeOutcome(ag, env, a, e, maxSteps, render);
  }

  /** The default CartPole episode (`max_episode_steps` 500) run under the
      runner's default cap of 1000 steps always terminates. */
  lemma DefaultEpisodeTerminates<S>(ag: AgentImpl<S>, physics: (Pose, real) -> Pose, draw: CartPole -> Pose,
                                    a: S, render: bool)
    ensures var r := RunEpisode(ag, Impl(physics, draw), a, New(render), 1000, render);
      r.stats.terminated && r.stats.steps <= DefaultMaxEpisodeSteps
  {
    EpisodeEndsByEnvironment(ag, physics, draw, a, New(render), 1000, render);
  }

  /** On a CartPole observation the rule-based agent pushes with full force
      to the right exactly when the pole leans right (positive angle), and
      with full force to the left otherwise. */
  lemma RulePushesTowardsLean(agent: RuleBasedAgent.RuleAgent, p: Pose)
    ensures var (_, action) := RuleBasedAgent.Act(agent, GetState(p));
      && (p.theta > 0.0 ==> action == agent.maxForce)
      && (p.theta <= 0.0 ==> action == -agent.maxForce)
  {
  }

  /** The default rule-based agent's actions are inside the default
      environment's action space, so clipping never changes them. */
  lemma RuleActionsNeedNoClipping(agent: RuleBasedAgent.RuleAgent, state: State, render: bool)
    requires agent.maxForce == RuleBasedAgent.DefaultMaxForce
    ensures Clip(New(render), RuleBasedAgent.Act(agent, state).1) == RuleBasedAgent.Act(agent, state).1
  {
  }
}

=== FILE: cint.dfy ===
/** The C++ integer facts the harness relies on: the 32-bit `int` range and
    the truncating remainder operator. */
module CInt {

  const Int32Min: int := -0x8000_0000
  const Int32Max: int := 0x7FFF_FFFF

  /** A C++ `int` on the platforms the harness targets. */
  newtype int32 = x: int | -0x8000_0000 <= x < 0x8000_0000

  function Abs(x: int): nat { if x < 0 then -x else x }

  function Max(a: int, b: int): int { if a < b then b else a }

  function Min(a: int, b: int): int { if a < b then a else b }

  /** C++ `a / b`: the quotient truncated toward zero. */
  function CQuot(a: int, b: int): int
    requires b != 0
  {
    if (a < 0) == (b < 0) then Abs(a) / Abs(b) else -(Abs(a) / Abs(b))
  }

  /** C++ `a % b`: the quotient truncates toward zero, so the remainder takes
      the sign of the dividend (Dafny's own `%` is Euclidean). */
  function CRem(a: int, b: int): (r: int)
    requires b != 0
    ensures Abs(r) < Abs(b)
    ensures a >= 0 ==> r >= 0
    ensures a <= 0 ==> r <= 0
  {
    if a < 0 then -(Abs(a) % Abs(b)) else Abs(a) % Abs(b)
  }

  lemma NegMul(x: int, y: int)
    ensures (-x) * y == -(x * y) && x * (-y) == -(x * y)
  {
  }

  /** The C++ identity `(a / b) * b + a % b == a`. */
  lemma CDivision(a: int, b: int)
    requires b != 0
    ensures CQuot(a, b) * b + CRem(a, b) == a
  {
    var q, m := Abs(a) / Abs(b), Abs(a) % Abs(b);
    assert Abs(a) == q * Abs(b) + m;
    NegMul(q, Abs(b));
  }

  /** For a non-negative dividend the C++ divisibility test agrees with
      Dafny's, whatever the sign of the divisor. */
  lemma CRemZeroIffDivides(a: nat, b: int)
    requires b != 0
    ensures CRem(a, b) == 0 <==> a % Abs(b) == 0
  {
  }
}

=== FILE: config_examples.dfy ===
/** The settings `x = 5`, `y = "hi"`, `z = true` read from text, laid out one
    entry per line with comment lines between them, and written on a single
    line. The scanner is line based, so only the first layout gives the
    three entries. Key names and comment texts are left open: any keys the
    format can carry behave as `x`, `y` and `z` do. */
module ConfigExamples {
  import opened Results
  import opened CInt
  import opened Text
  import opened ConfigStore
  import opened ConfigText
  import opened ConfigRoundTrip

  /** A comment line's text after its indent. */
  predicate Comment(c: string)
  {
    && c != [] && Trimmed(c) && '\n' !in c
    && (c[0] == '#' || (|c| >= 2 && c[..2] == "//"))
  }

  /** An indented comment line is skipped. */
  lemma CommentSkipped(c: string)
    requires Comment(c)
    ensures ScanLine("  " + c) == Skip
  {
    assert "  " + c == Spaces(2) + c + Spaces(0);
    TrimOfPadded(2, c, 0);
  }

  /** Only '#' and "//" start a comment: a key that starts with a single
      '/' is bound like any other, and a line whose key is blank is
      malformed rather than skipped. */
  lemma SlashKeyBinds()
    ensures ScanLine("/a: 5") == Bind("/a", IntV(5))
    ensures ScanLine(": 5") == Undefined
  {
    SlashKeyLine();
    BlankKeyLine();
  }

  lemma SlashKeyLine()
    ensures ScanLine("/a: 5") == Bind("/a", IntV(5))
  {
    var line, q, w := "/a: 5", "/a", " 5";
    assert Trim(line) == q + ":" + w by {
      assert Trimmed(line);
      TrimTrimmed(line);
    }
    assert ':' !in q && q[..2] != "//" by {
      assert q[..2] == q && q[1] == 'a';
    }
    ScanLineSplit(line, q, w);
    SlashKeyPair();
  }

  lemma SlashKeyPair()
    ensures ScanPair("/a", " 5") == Bind("/a", IntV(5))
  {
    var q, w := "/a", " 5";
    assert Unquote(Trim(q)) == q by {
      TrimTrimmed(q);
      assert !Quoted(q);
    }
    assert DropComma(Trim(w)) == "5" by {
      assert w == Spaces(1) + "5" + Spaces(0);
      TrimOfPadded(1, "5", 0);
    }
    FiveValue();
  }

  lemma BlankKeyLine()
    ensures ScanLine(": 5") == Undefined
  {
    var line, w := ": 5", " 5";
    assert Trim(line) == [] + ":" + w by {
      assert Trimmed(line);
      TrimTrimmed(line);
    }
    ScanLineSplit(line, [], w);
    assert Trim([]) == [];
  }

  /** The value texts of the three entries. */
  lemma FiveValue()
    ensures Readable("5") && ParseValue("5") == IntV(5)
  {
    var fmt: real -> string := x => "";
    ParseValueOfText(IntV(5), fmt);
    assert ValueText(IntV(5), fmt) == "5";
  }

  lemma HiValue()
    ensures Readable("\"hi\"") && ParseValue("\"hi\"") == StrV("hi")
  {
    assert "\"" + "hi" + "\"" == "\"hi\"";
    QuotedIsString("hi");
  }

  lemma TrueValue()
    ensures Readable("true") && ParseValue("true") == BoolV(true)
  {
    var fmt: real -> string := x => "";
    ParseValueOfText(BoolV(true), fmt);
  }

  /** The lines of the multi-line layout, comments `c1` and `c2` included. */
  function LayoutLines(kx: string, ky: string, kz: string, c1: string, c2: string): seq<string>
  {
    ["{", "  " + c1, EntryText(kx, "5") + ",", "  " + c2,
     EntryText(ky, "\"hi\"") + ",", EntryText(kz, "true"), "}"]
  }

  /** The multi-line layout: each line followed by a line break. */
  function Layout(kx: string, ky: string, kz: string, c1: string, c2: string): string
  {
    "{\n" + ("  " + c1) + "\n" + (EntryText(kx, "5") + ",") + "\n" + ("  " + c2) + "\n"
      + (EntryText(ky, "\"hi\"") + ",") + "\n" + EntryText(kz, "true") + "\n}\n"
  }

  /** The keys the layout can carry. */
  predicate LayoutKeys(kx: string, ky: string, kz: string)
  {
    && ':' !in kx && '\n' !in kx && ':' !in ky && '\n' !in ky && ':' !in kz && '\n' !in kz
    && kx != ky && kx != kz && ky != kz
  }

  /** The layout is its lines, each followed by a line break. */
  lemma LayoutText(kx: string, ky: string, kz: string, c1: string, c2: string)
    ensures var l := LayoutLines(kx, ky, kz, c1, c2);
      Layout(kx, ky, kz, c1, c2)
      == l[0] + "\n" + (l[1] + "\n" + (l[2] + "\n" + (l[3] + "\n" + (l[4] + "\n" + (l[5] + "\n" + (l[6] + "\n"))))))
  {
  }

  lemma EntriesOneLine(kx: string, ky: string, kz: string)
    requires LayoutKeys(kx, ky, kz)
    ensures '\n' !in EntryText(kx, "5") + ","
    ensures '\n' !in EntryText(ky, "\"hi\"") + ","
    ensures '\n' !in EntryText(kz, "true")
  {
    EntryOneLine(kx, "5", ",");
    EntryOneLine(ky, "\"hi\"", ",");
    EntryOneLine(kz, "true", "");
    assert EntryText(kz, "true") + "" == EntryText(kz, "true");
  }

  lemma LayoutOneLineEach(kx: string, ky: string, kz: string, c1: string, c2: string)
    requires LayoutKeys(kx, ky, kz) && Comment(c1) && Comment(c2)
    ensures var l := LayoutLines(kx, ky, kz, c1, c2);
      && '\n' !in l[0] && '\n' !in l[1] && '\n' !in l[2] && '\n' !in l[3]
      && '\n' !in l[4] && '\n' !in l[5] && '\n' !in l[6]
  {
    var l := LayoutLines(kx, ky, kz, c1, c2);
    assert '\n' !in l[1] && '\n' !in l[3];
    EntriesOneLine(kx, ky, kz);
  }

  lemma LayoutSplit(kx: string, ky: string, kz: string, c1: string, c2: string)
    requires LayoutKeys(kx, ky, kz) && Comment(c1) && Comment(c2)
    ensures Lines(Layout(kx, ky, kz, c1, c2)) == LayoutLines(kx, ky, kz, c1, c2)
  {
    var l := LayoutLines(kx, ky, kz, c1, c2);
    LayoutOneLineEach(kx, ky, kz, c1, c2);
    LayoutText(kx, ky, kz, c1, c2);
    var t6 := l[6] + "\n";
    var t5 := l[5] + "\n" + t6;
    var t4 := l[4] + "\n" + t5;
    var t3 := l[3] + "\n" + t4;
    var t2 := l[2] + "\n" + t3;
    var t1 := l[1] + "\n" + t2;
    FrameLinesSkipped();
    LinesCons(l[5], t6);
    LinesCons(l[4], t5);
    LinesCons(l[3], t4);
    LinesCons(l[2], t3);
    LinesCons(l[1], t2);
    LinesCons(l[0], t1);
    assert [l[0], l[1], l[2], l[3], l[4], l[5], l[6]] == l;
  }

  lemma EntryScans(kx: string, ky: string, kz: string)
    requires LayoutKeys(kx, ky, kz)
    ensures ScanLine(EntryText(kx, "5") + ",") == Bind(kx, IntV(5))
    ensures ScanLine(EntryText(ky, "\"hi\"") + ",") == Bind(ky, StrV("hi"))
    ensures ScanLine(EntryText(kz, "true")) == Bind(kz, BoolV(true))
  {
    FiveValue();
    HiValue();
    TrueValue();
    ScanEntry(kx, "5", ",");
    ScanEntry(ky, "\"hi\"", ",");
    ScanEntry(kz, "true", "");
    assert EntryText(kz, "true") + "" == EntryText(kz, "true");
  }

  /** The settings the layout holds. */
  function Settings(kx: string, ky: string, kz: string): Config
  {
    Create(map[kx := IntV(5), ky := StrV("hi"), kz := BoolV(true)])
  }

  /** Each setting is read with its own alternative; the int read as a
      double is the default, as there is no conversion from int. */
  lemma SettingsReads(kx: string, ky: string, kz: string)
    requires kx != ky && kx != kz && ky != kz
    ensures GetInt(Settings(kx, ky, kz), kx, 0) == 5
    ensures GetString(Settings(kx, ky, kz), ky, "") == "hi"
    ensures GetBool(Settings(kx, ky, kz), kz, false)
    ensures GetReal(Settings(kx, ky, kz), kx, 0.0) == 0.0
  {
    var c := Settings(kx, ky, kz);
    assert c.values[kx] == IntV(5) && c.values[ky] == StrV("hi") && c.values[kz] == BoolV(true);
  }

  /** How the seven lines of the layout scan: brace and comment lines are
      skipped, the entry lines bind the three settings. */
  predicate ScansAsLayout(l: seq<string>, kx: string, ky: string, kz: string)
    requires |l| == 7
  {
    && ScanLine(l[0]) == Skip && ScanLine(l[1]) == Skip
    && ScanLine(l[3]) == Skip && ScanLine(l[6]) == Skip
    && ScanLine(l[2]) == Bind(kx, IntV(5))
    && ScanLine(l[4]) == Bind(ky, StrV("hi"))
    && ScanLine(l[5]) == Bind(kz, BoolV(true))
  }

  /** Seven lines scanned as the layout's are set the three settings in
      order. */
  lemma SevenLinesReading(l: seq<string>, kx: string, ky: string, kz: string)
    requires |l| == 7
    ensures ScansAsLayout(l, kx, ky, kz) ==> ParseLines(l, Empty()) == Ok(Settings(kx, ky, kz))
  {
    if ScansAsLayout(l, kx, ky, kz) {
      var a0 := Empty();
      var a1 := Set(a0, kx, IntV(5));
      var a2 := Set(a1, ky, StrV("hi"));
      var a3 := Set(a2, kz, BoolV(true));
      assert l[0..] == l;
      ParseSkipAt(l, 0, a0);
      ParseSkipAt(l, 1, a0);
      ParseBindAt(l, 2, a0, kx, IntV(5));
      ParseSkipAt(l, 3, a1);
      ParseBindAt(l, 4, a1, ky, StrV("hi"));
      ParseBindAt(l, 5, a2, kz, BoolV(true));
      ParseSkipAt(l, 6, a3);
      assert a3 == Settings(kx, ky, kz);
    }
  }

  /** The brace and comment lines of the layout are skipped. */
  lemma LayoutSkips(kx: string, ky: string, kz: string, c1: string, c2: string)
    requires Comment(c1) && Comment(c2)
    ensures var l := LayoutLines(kx, ky, kz, c1, c2);
      && ScanLine(l[0]) == Skip && ScanLine(l[1]) == Skip
      && ScanLine(l[3]) == Skip && ScanLine(l[6]) == Skip
  {
    var l := LayoutLines(kx, ky, kz, c1, c2);
    assert l[0] == "{" && l[6] == "}" && l[1] == "  " + c1 && l[3] == "  " + c2;
    FrameLinesSkipped();
    CommentSkipped(c1);
    CommentSkipped(c2);
  }

  /** The entry lines of the layout set their entries. */
  lemma LayoutBinds(kx: string, ky: string, kz: string, c1: string, c2: string)
    requires LayoutKeys(kx, ky, kz)
    ensures var l := LayoutLines(kx, ky, kz, c1, c2);
      && ScanLine(l[2]) == Bind(kx, IntV(5))
      && ScanLine(l[4]) == Bind(ky, StrV("hi"))
      && ScanLine(l[5]) == Bind(kz, BoolV(true))
  {
    var l := LayoutLines(kx, ky, kz, c1, c2);
    assert l[2] == EntryText(kx, "5") + "," && l[4] == EntryText(ky, "\"hi\"") + ",";
    assert l[5] == EntryText(kz, "true");
    EntryScans(kx, ky, kz);
  }

  /** Read one entry per line, comments and all, the three settings come
      back. */
  lemma LayoutReading(kx: string, ky: string, kz: string, c1: string, c2: string)
    requires LayoutKeys(kx, ky, kz) && Comment(c1) && Comment(c2)
    ensures Parse(Layout(kx, ky, kz, c1, c2)) == Ok(Settings(kx, ky, kz))
  {
    LayoutSplit(kx, ky, kz, c1, c2);
    LayoutSkips(kx, ky, kz, c1, c2);
    LayoutBinds(kx, ky, kz, c1, c2);
    SevenLinesReading(LayoutLines(kx, ky, kz, c1, c2), kx, ky, kz);
  }

  /** The same settings on one line: `{"k": 5, ...}`. */
  function OneLine(k: string, tail: string): string
  {
    "{\"" + k + "\": 5" + tail
  }

  /** `parseValue` of a value text that starts with 5 and goes on with
      something that is not a digit, a '.' or a closing quote. */
  lemma LeadingFive(tail: string)
    requires tail != [] && tail[0] == ',' && tail[|tail| - 1] == '}' && '.' !in tail
    ensures Trim("5" + tail) == "5" + tail
    ensures ParseValue("5" + tail) == IntV(5)
  {
    var v := "5" + tail;
    assert v[0] == '5' && v[|v| - 1] == '}';
    TrimTrimmed(v);
    assert SkipCSpace(v) == v;
    assert SignedBody(v) == (false, v);
    assert AllDigits("5");
    DigitPrefixOfDigits("5", tail);
    assert DigitPrefix(v) == "5";
    assert DigitsValue("5") == 5;
    assert Stoi(v) == Some(5);
    assert !Quoted(v) && v != "true" && v != "false";
    assert '.' !in v;
  }

  /** The one line is a key text, a ':' and a value text. */
  lemma OneLineText(k: string, tail: string)
    requires '\n' !in k && '\n' !in tail
    requires tail != [] && tail[|tail| - 1] == '}'
    ensures OneLine(k, tail) == ("{\"" + k + "\"") + ":" + (Spaces(1) + ("5" + tail) + Spaces(0))
    ensures Trimmed(OneLine(k, tail)) && OneLine(k, tail)[0] == '{'
    ensures Lines(OneLine(k, tail)) == [OneLine(k, tail)]
  {
    var text := OneLine(k, tail);
    assert text[|text| - 1] == '}';
    FieldsSingle(text, '\n');
  }

  /** The one line splits at the ':' after the first key. */
  lemma OneLineScan(k: string, tail: string)
    requires ':' !in k && '\n' !in k && '\n' !in tail && '.' !in tail
    requires tail != [] && tail[0] == ',' && tail[|tail| - 1] == '}'
    ensures ScanLine(OneLine(k, tail)) == Bind("{\"" + k + "\"", IntV(5))
  {
    var q := "{\"" + k + "\"";
    var v := "5" + tail;
    var w := Spaces(1) + v + Spaces(0);
    var text := OneLine(k, tail);
    assert Trim(text) == q + ":" + w by {
      OneLineText(k, tail);
      TrimTrimmed(text);
    }
    assert ':' !in q && q[0] == '{' && q[..2] != "//" by {
      assert q[0] == '{' && q[..2][0] == q[0];
    }
    ScanLineSplit(text, q, w);
    OneLinePair(k, tail);
  }

  /** The key and value texts of the one line. */
  lemma OneLinePair(k: string, tail: string)
    requires '.' !in tail
    requires tail != [] && tail[0] == ',' && tail[|tail| - 1] == '}'
    ensures ScanPair("{\"" + k + "\"", Spaces(1) + ("5" + tail) + Spaces(0)) == Bind("{\"" + k + "\"", IntV(5))
  {
    var q := "{\"" + k + "\"";
    var v := "5" + tail;
    var w := Spaces(1) + v + Spaces(0);
    assert Trim(q) == q by {
      assert q[0] == '{' && q[|q| - 1] == '"';
      TrimTrimmed(q);
    }
    LeadingFive(tail);
    assert Trim(w) == v by {
      TrimOfPadded(1, v, 0);
    }
    assert v[|v| - 1] == '}';
    assert DropComma(Trim(w)) == v;
    assert Unquote(q) == q by {
      assert !Quoted(q);
    }
    assert ScanPair(q, w) == Bind(q, ParseValue(v));
  }

  /** The key read from the one line is not the name asked for. */
  lemma BracedKeyMissing(k: string)
    ensures GetInt(Create(map["{\"" + k + "\"" := IntV(5)]), k, 0) == 0
  {
    assert k != "{\"" + k + "\"" by { assert |"{\"" + k + "\""| == |k| + 3; }
  }

  /** On one line everything after the first ':' is the value text: the key
      keeps its opening brace and both quotes (its first character is not a
      quote), and `stoi` reads the leading 5 of the rest, so the entry asked
      for by its own name is missing. */
  lemma OneLineReading(k: string, tail: string)
    requires ':' !in k && '\n' !in k && '\n' !in tail && '.' !in tail
    requires tail != [] && tail[0] == ',' && tail[|tail| - 1] == '}'
    ensures Parse(OneLine(k, tail)) == Ok(Create(map["{\"" + k + "\"" := IntV(5)]))
    ensures GetInt(Create(map["{\"" + k + "\"" := IntV(5)]), k, 0) == 0
  {
    var l := [OneLine(k, tail)];
    OneLineText(k, tail);
    OneLineScan(k, tail);
    ParseBindAt(l, 0, Empty(), "{\"" + k + "\"", IntV(5));
    assert l[0..] == l && l[1..] == [];
    BracedKeyMissing(k);
  }
}

=== FILE: config_roundtrip.dfy ===
/** What reading back the text `toJsonFile` writes gives: the int, bool and
    string entries come back unchanged, while a double may not. */
module ConfigRoundTrip {
  import opened Results
  import opened CInt
  import opened Text
  import opened Ordering
  import opened ConfigStore
  import opened ConfigText

  /** An entry that survives the text format: its key holds no ':' (the
      scanner splits at the first one) and no line break, it is not a
      double, and a string value holds no line break. */
  predicate Portable(k: string, v: ConfigValue)
  {
    && ':' !in k && '\n' !in k
    && !v.RealV?
    && (v.StrV? ==> '\n' !in v.s)
  }

  /** The written text of a value that the scanner reads as one value. */
  predicate Readable(vt: string)
  {
    vt != [] && Trimmed(vt) && '\n' !in vt && vt[|vt| - 1] != ','
  }

  lemma ValueTextReadable(v: ConfigValue, fmt: real -> string)
    requires !v.RealV? && (v.StrV? ==> '\n' !in v.s)
    ensures Readable(ValueText(v, fmt))
  {
    if v.IntV? {
      var t := IntText(v.i as int);
      if v.i < 0 {
        assert forall j :: 1 <= j < |t| ==> t[1..][j - 1] == t[j];
      }
      assert forall j :: 0 <= j < |t| ==> t[j] == '-' || IsDigit(t[j]);
    }
  }

  /** The decimal text of an int is trimmed and holds no '.'. */
  lemma IntTextShape(n: int32)
    ensures Trimmed(IntText(n as int)) && '.' !in IntText(n as int)
  {
    var t := IntText(n as int);
    assert t[0] == '-' || IsDigit(t[0]);
    if n < 0 {
      assert t[|t| - 1] == t[1..][|t| - 2];
      assert forall j :: 1 <= j < |t| ==> t[1..][j - 1] == t[j];
    }
  }

  /** `parseValue` reads the decimal text of an int back as that int. */
  lemma ParseIntText(n: int32)
    ensures Trim(IntText(n as int)) == IntText(n as int)
    ensures ParseValue(IntText(n as int)) == IntV(n)
  {
    var t := IntText(n as int);
    IntTextShape(n);
    TrimTrimmed(t);
    StoiOfIntText(n as int, []);
    assert t + [] == t;
  }

  /** `parseValue` inverts the writing of an int, a bool or a string. */
  lemma ParseValueOfText(v: ConfigValue, fmt: real -> string)
    requires !v.RealV?
    ensures Trim(ValueText(v, fmt)) == ValueText(v, fmt)
    ensures ParseValue(ValueText(v, fmt)) == v
  {
    if v.IntV? {
      ParseIntText(v.i);
    } else {
      TrimTrimmed(ValueText(v, fmt));
    }
  }

  /** Trimming leaves trimmed text alone. */
  lemma TrimTrimmed(t: string)
    requires Trimmed(t)
    ensures Trim(t) == t
  {
    assert t == Spaces(0) + t + Spaces(0);
    TrimOfPadded(0, t, 0);
  }

  /** Trimming a written entry line removes its two-space indent. */
  lemma EntryTrim(k: string, vt: string, suffix: string)
    requires Readable(vt)
    requires suffix == "" || suffix == ","
    ensures Trim(EntryText(k, vt) + suffix) == ("\"" + k + "\"") + ":" + (" " + vt + suffix)
  {
    var l := ("\"" + k + "\"") + ":" + (" " + vt + suffix);
    assert EntryText(k, vt) + suffix == Spaces(2) + l + Spaces(0);
    assert l[0] == '"';
    assert l[|l| - 1] == if suffix == "," then ',' else vt[|vt| - 1];
    TrimOfPadded(2, l, 0);
  }

  lemma TrimValuePart(vt: string, suffix: string)
    requires Readable(vt)
    requires suffix == "" || suffix == ","
    ensures Trim(" " + vt + suffix) == vt + suffix
  {
    var w := vt + suffix;
    assert " " + vt + suffix == " " + w == Spaces(1) + w + Spaces(0);
    assert w[|w| - 1] == if suffix == "," then ',' else vt[|vt| - 1];
    TrimOfPadded(1, w, 0);
  }

  /** The scan of the key and value text of an entry line. */
  lemma EntryPair(k: string, vt: string, suffix: string)
    requires Readable(vt)
    requires suffix == "" || suffix == ","
    ensures ScanPair("\"" + k + "\"", " " + vt + suffix) == Bind(k, ParseValue(vt))
  {
    var q := "\"" + k + "\"";
    TrimTrimmed(q);
    TrimValuePart(vt, suffix);
    TrimTrimmed(vt);
    assert Unquote(q) == k;
    var w := vt + suffix;
    if suffix == "," {
      assert w[..|w| - 1] == vt;
    } else {
      assert w == vt;
    }
  }

  /** One written entry line, with or without its trailing ',', binds its
      key to whatever `parseValue` makes of the value text. */
  lemma ScanEntry(k: string, vt: string, suffix: string)
    requires ':' !in k && Readable(vt)
    requires suffix == "" || suffix == ","
    ensures ScanLine(EntryText(k, vt) + suffix) == Bind(k, ParseValue(vt))
  {
    var q := "\"" + k + "\"";
    EntryTrim(k, vt, suffix);
    assert ':' !in q;
    ScanLineSplit(EntryText(k, vt) + suffix, q, " " + vt + suffix);
    EntryPair(k, vt, suffix);
  }

  /** The lines around the entries are skipped. */
  lemma FrameLinesSkipped()
    ensures ScanLine("{") == Skip && ScanLine("}") == Skip && ScanLine("") == Skip
    ensures Lines("}\n") == ["}"]
  {
    assert ScanLine("{") == Skip by {
      TrimOfPadded(0, "{", 0);
      assert Spaces(0) + "{" + Spaces(0) == "{";
    }
    assert ScanLine("}") == Skip by {
      TrimOfPadded(0, "}", 0);
      assert Spaces(0) + "}" + Spaces(0) == "}";
    }
    assert Lines("}\n") == ["}"] by {
      FieldsSingle("}", '\n');
      assert "}\n"[..1] == "}";
    }
  }

  /** `m` restricted to the keys listed in `ks`. */
  function Restrict(m: map<string, ConfigValue>, ks: seq<string>): (r: map<string, ConfigValue>)
    ensures forall k :: k in r <==> k in m && k in ks
  {
    map k | k in m && k in ks :: m[k]
  }

  lemma ParseBindLine(l: string, rest: seq<string>, acc: Config, k: string, v: ConfigValue)
    ensures ScanLine(l) == Bind(k, v) ==> ParseLines([l] + rest, acc) == ParseLines(rest, Set(acc, k, v))
  {
    assert ([l] + rest)[1..] == rest;
  }

  lemma ParseSkipLine(l: string, rest: seq<string>, acc: Config)
    requires ScanLine(l) == Skip
    ensures ParseLines([l] + rest, acc) == ParseLines(rest, acc)
  {
    assert ([l] + rest)[1..] == rest;
  }

  /** The same steps, for line `i` of a list read from there on. */
  lemma ParseBindAt(lines: seq<string>, i: nat, acc: Config, k: string, v: ConfigValue)
    requires i < |lines|
    ensures ScanLine(lines[i]) == Bind(k, v) ==>
      ParseLines(lines[i..], acc) == ParseLines(lines[i + 1..], Set(acc, k, v))
  {
    SuffixCons(lines, i);
    ParseBindLine(lines[i], lines[i + 1..], acc, k, v);
  }

  lemma ParseSkipAt(lines: seq<string>, i: nat, acc: Config)
    requires i < |lines| && ScanLine(lines[i]) == Skip
    ensures ParseLines(lines[i..], acc) == ParseLines(lines[i + 1..], acc)
  {
    SuffixCons(lines, i);
    ParseSkipLine(lines[i], lines[i + 1..], acc);
  }

  lemma ParseClosingBrace(acc: Config)
    ensures ParseLines(Lines("}\n"), acc) == Ok(acc)
  {
    FrameLinesSkipped();
    ParseSkipLine("}", [], acc);
  }

  /** A written entry line holds no line break. */
  lemma EntryOneLine(k: string, vt: string, suffix: string)
    requires '\n' !in k && '\n' !in vt
    requires suffix == "" || suffix == ","
    ensures '\n' !in EntryText(k, vt) + suffix
  {
  }

  /** The written line of a portable entry is one line that binds it. */
  lemma EntryBinds(k: string, v: ConfigValue, fmt: real -> string, suffix: string)
    requires Portable(k, v)
    requires suffix == "" || suffix == ","
    ensures '\n' !in EntryText(k, ValueText(v, fmt)) + suffix
    ensures ScanLine(EntryText(k, ValueText(v, fmt)) + suffix) == Bind(k, v)
  {
    var vt := ValueText(v, fmt);
    ValueTextReadable(v, fmt);
    EntryOneLine(k, vt, suffix);
    ScanEntry(k, vt, suffix);
    ParseValueOfText(v, fmt);
  }

  /** The text of one entry followed by the closing brace. */
  lemma LastEntryText(m: map<string, ConfigValue>, ks: seq<string>, fmt: real -> string)
    requires |ks| == 1 && ks[0] in m
    ensures EntriesText(m, ks, fmt) + "\n}\n"
      == EntryText(ks[0], ValueText(m[ks[0]], fmt)) + "\n" + "}\n"
  {
  }

  /** The text of several entries: the first line ends in ',' and the rest
      follows. */
  lemma NextEntryText(m: map<string, ConfigValue>, ks: seq<string>, fmt: real -> string)
    requires |ks| > 1
    requires forall i :: 0 <= i < |ks| ==> ks[i] in m
    ensures EntriesText(m, ks, fmt) + "\n}\n"
      == (EntryText(ks[0], ValueText(m[ks[0]], fmt)) + ",") + "\n" + (EntriesText(m, ks[1..], fmt) + "\n}\n")
  {
  }

  lemma RestrictSingle(m: map<string, ConfigValue>, ks: seq<string>, base: map<string, ConfigValue>)
    requires |ks| == 1 && ks[0] in m
    ensures base + Restrict(m, ks) == base[ks[0] := m[ks[0]]]
  {
    assert Restrict(m, ks) == map[ks[0] := m[ks[0]]];
  }

  lemma RestrictCons(m: map<string, ConfigValue>, ks: seq<string>, base: map<string, ConfigValue>)
    requires ks != [] && ks[0] in m
    ensures base[ks[0] := m[ks[0]]] + Restrict(m, ks[1..]) == base + Restrict(m, ks)
  {
    assert forall j :: j in ks <==> j == ks[0] || j in ks[1..];
  }

  /** The last entry line and the closing brace set that one entry. */
  lemma LastEntryScan(m: map<string, ConfigValue>, ks: seq<string>, acc: Config, fmt: real -> string)
    requires |ks| == 1 && ks[0] in m && Portable(ks[0], m[ks[0]])
    ensures ParseLines(Lines(EntriesText(m, ks, fmt) + "\n}\n"), acc)
      == Ok(Config(acc.values + Restrict(m, ks), acc.sections))
  {
    var k := ks[0];
    var line := EntryText(k, ValueText(m[k], fmt));
    EntryBinds(k, m[k], fmt, "");
    assert line + "" == line;
    LastEntryText(m, ks, fmt);
    LinesCons(line, "}\n");
    ParseBindLine(line, Lines("}\n"), acc, k, m[k]);
    ParseClosingBrace(Set(acc, k, m[k]));
    RestrictSingle(m, ks, acc.values);
  }

  /** A line that is not the last binds its entry and reading goes on with
      the next one. */
  lemma NextEntryScan(m: map<string, ConfigValue>, ks: seq<string>, acc: Config, fmt: real -> string)
    requires |ks| > 1
    requires forall i :: 0 <= i < |ks| ==> ks[i] in m
    requires Portable(ks[0], m[ks[0]])
    ensures ParseLines(Lines(EntriesText(m, ks, fmt) + "\n}\n"), acc)
      == ParseLines(Lines(EntriesText(m, ks[1..], fmt) + "\n}\n"), Set(acc, ks[0], m[ks[0]]))
  {
    var k := ks[0];
    var line := EntryText(k, ValueText(m[k], fmt));
    EntryBinds(k, m[k], fmt, ",");
    var rest := EntriesText(m, ks[1..], fmt) + "\n}\n";
    NextEntryText(m, ks, fmt);
    LinesCons(line + ",", rest);
    ParseBindLine(line + ",", Lines(rest), acc, k, m[k]);
  }

  /** Scanning the entry lines of `ks` and the closing brace sets exactly
      those entries. */
  lemma {:induction false} EntriesScan(m: map<string, ConfigValue>, ks: seq<string>, acc: Config, fmt: real -> string)
    requires ks != []
    requires forall i :: 0 <= i < |ks| ==> ks[i] in m && Portable(ks[i], m[ks[i]])
    ensures ParseLines(Lines(EntriesText(m, ks, fmt) + "\n}\n"), acc)
      == Ok(Config(acc.values + Restrict(m, ks), acc.sections))
    decreases |ks|
  {
    if |ks| == 1 {
      LastEntryScan(m, ks, acc, fmt);
    } else {
      NextEntryScan(m, ks, acc, fmt);
      EntriesScan(m, ks[1..], Set(acc, ks[0], m[ks[0]]), fmt);
      RestrictCons(m, ks, acc.values);
    }
  }

  /** Portable entries only. */
  predicate PortableValues(c: Config)
  {
    forall k :: k in c.values ==> Portable(k, c.values[k])
  }

  /** The written text: the opening brace line, then the entries and the
      closing brace. */
  lemma SerializeText(c: Config, fmt: real -> string)
    ensures Serialize(c, fmt)
      == "{" + "\n" + (EntriesText(c.values, SortedKeys(c.values.Keys), fmt) + "\n}\n")
  {
  }

  /** With no entries, only an empty line and the closing brace follow. */
  lemma NoEntriesScan(m: map<string, ConfigValue>, acc: Config, fmt: real -> string)
    ensures ParseLines(Lines(EntriesText(m, [], fmt) + "\n}\n"), acc) == Ok(acc)
  {
    assert EntriesText(m, [], fmt) + "\n}\n" == "" + "\n" + "}\n";
    LinesCons("", "}\n");
    FrameLinesSkipped();
    ParseSkipLine("", Lines("}\n"), acc);
    ParseClosingBrace(acc);
  }

  /** The opening brace line is skipped. */
  lemma OpeningBraceScan(rest: string, acc: Config)
    ensures ParseLines(Lines("{" + "\n" + rest), acc) == ParseLines(Lines(rest), acc)
  {
    LinesCons("{", rest);
    FrameLinesSkipped();
    ParseSkipLine("{", Lines(rest), acc);
  }

  lemma RestrictAll(m: map<string, ConfigValue>, ks: seq<string>)
    requires forall k :: k in m ==> k in ks
    ensures map[] + Restrict(m, ks) == m
  {
  }

  /** Reading back what `toJsonFile` writes restores every int, bool and
      string entry with its alternative; sections are not written, so none
      come back. */
  lemma RoundTrip(c: Config, fmt: real -> string)
    requires PortableValues(c)
    ensures Parse(Serialize(c, fmt)) == Ok(Config(c.values, map[]))
  {
    var ks := SortedKeys(c.values.Keys);
    var rest := EntriesText(c.values, ks, fmt) + "\n}\n";
    SerializeText(c, fmt);
    OpeningBraceScan(rest, Empty());
    if ks == [] {
      assert c.values == map[];
      NoEntriesScan(c.values, Empty(), fmt);
    } else {
      EntriesScan(c.values, ks, Empty(), fmt);
      RestrictAll(c.values, ks);
    }
  }

  /** A double need not come back as a double: when the stream writes 2.0 as
      "2", which has no '.', the text is read back as the int 2. */
  lemma RealMayReturnAsInt(k: string, fmt: real -> string)
    requires ':' !in k && '\n' !in k
    requires fmt(2.0) == "2"
    ensures Parse(Serialize(Create(map[k := RealV(2.0)]), fmt)) == Ok(Create(map[k := IntV(2)]))
  {
    var m := map[k := RealV(2.0)];
    var c := Create(m);
    var ks := SortedKeys(c.values.Keys);
    assert ks == [k];
    var line := EntryText(k, "2");
    SerializeText(c, fmt);
    LastEntryText(m, ks, fmt);
    OpeningBraceScan(line + "\n" + "}\n", Empty());
    ParseValueOfText(IntV(2), fmt);
    assert ValueText(IntV(2), fmt) == "2";
    assert Readable("2");
    ScanEntry(k, "2", "");
    assert line + "" == line;
    EntryOneLine(k, "2", "");
    LinesCons(line, "}\n");
    ParseBindLine(line, Lines("}\n"), Empty(), k, IntV(2));
    ParseClosingBrace(Set(Empty(), k, IntV(2)));
  }
}

=== FILE: config_store.dfy ===
/** The typed configuration store of include/config.h: a map from keys to
    tagged scalar values and a separate map from names to nested sections. */
module ConfigStore {
  import opened CInt

  /** `std::variant<int, double, std::string, bool>`. */
  datatype ConfigValue = IntV(i: int32) | RealV(x: real) | StrV(s: string) | BoolV(b: bool)

  /** Two values hold the same alternative of the variant. */
  predicate SameKind(a: ConfigValue, b: ConfigValue)
  {
    match a
    case IntV(_) => b.IntV?
    case RealV(_) => b.RealV?
    case StrV(_) => b.StrV?
    case BoolV(_) => b.BoolV?
  }

  datatype Config = Config(values: map<string, ConfigValue>, sections: map<string, Config>)

  /** `Config{}`: no values and no sections. */
  function Empty(): (c: Config)
    ensures forall k :: !Has(c, k) && !HasSection(c, k)
  {
    Config(map[], map[])
  }

  /** `Config::create(vals)`: the given values and no sections. */
  function Create(vals: map<string, ConfigValue>): (c: Config)
    ensures forall k :: Has(c, k) <==> k in vals
    ensures forall k :: !HasSection(c, k)
    ensures forall k, d :: k in vals && SameKind(vals[k], d) ==> Get(c, k, d) == vals[k]
  {
    Config(vals, map[])
  }

  predicate Has(c: Config, key: string) { key in c.values }

  predicate HasSection(c: Config, name: string) { name in c.sections }

  /** `get<T>(key, default)`, where `T` is the alternative `default` holds:
      the stored value when it holds that same alternative, otherwise the
      default. There is no conversion between alternatives. */
  function Get(c: Config, key: string, default: ConfigValue): (r: ConfigValue)
    ensures SameKind(r, default)
    ensures !Has(c, key) ==> r == default
    ensures Has(c, key) && SameKind(c.values[key], default) ==> r == c.values[key]
    ensures Has(c, key) && !SameKind(c.values[key], default) ==> r == default
  {
    if key in c.values && SameKind(c.values[key], default) then c.values[key] else default
  }

  /** `get<int>`. */
  function GetInt(c: Config, key: string, default: int32): int32
  {
    Get(c, key, IntV(default)).i
  }

  /** `get<double>`. */
  function GetReal(c: Config, key: string, default: real): real
  {
    Get(c, key, RealV(default)).x
  }

  /** `get<std::string>`. */
  function GetString(c: Config, key: string, default: string): string
  {
    Get(c, key, StrV(default)).s
  }

  /** `get<bool>`. */
  function GetBool(c: Config, key: string, default: bool): bool
  {
    Get(c, key, BoolV(default)).b
  }

  /** `getSection(name)`: the stored section, or an empty one. */
  function GetSection(c: Config, name: string): (r: Config)
    ensures HasSection(c, name) ==> r == c.sections[name]
    ensures !HasSection(c, name) ==> r.values == map[] && r.sections == map[]
  {
    if name in c.sections then c.sections[name] else Empty()
  }

  /** `set(key, value)`: stores or overwrites one value. */
  function Set(c: Config, key: string, value: ConfigValue): (r: Config)
    ensures Has(r, key)
    ensures forall k :: k != key ==> (Has(r, k) <==> Has(c, k))
    ensures r.sections == c.sections
  {
    Config(c.values[key := value], c.sections)
  }

  /** After `set(key, value)`, reading `key` with the alternative of `value`
      gives `value` (with another alternative, the default); every other key
      reads as before and is present exactly when it was. */
  lemma SetThenGet(c: Config, key: string, value: ConfigValue, k: string, d: ConfigValue)
    ensures Has(Set(c, key, value), k) <==> k == key || Has(c, k)
    ensures k == key ==> Get(Set(c, key, value), k, d) == (if SameKind(value, d) then value else d)
    ensures k != key ==> Get(Set(c, key, value), k, d) == Get(c, k, d)
  {
  }

  /** `setSection(name, config)`: stores or overwrites one section. */
  function SetSection(c: Config, name: string, section: Config): (r: Config)
    ensures HasSection(r, name) && GetSection(r, name) == section
    ensures forall n :: n != name ==> GetSection(r, n) == GetSection(c, n)
    ensures forall n :: n != name ==> (HasSection(r, n) <==> HasSection(c, n))
    ensures r.values == c.values
  {
    Config(c.values, c.sections[name := section])
  }

  /** Reading an absent key yields exactly the default, for every
      alternative. */
  lemma GetAbsentIsDefault(c: Config, key: string, i: int32, x: real, s: string, b: bool)
    requires !Has(c, key)
    ensures GetInt(c, key, i) == i && GetReal(c, key, x) == x
    ensures GetString(c, key, s) == s && GetBool(c, key, b) == b
  {
  }

  /** An integer is not read as a double: `get<double>` of a stored int
      yields the default, and so on for every pair of distinct alternatives. */
  lemma GetMismatchIsDefault(c: Config, key: string, d: ConfigValue)
    requires Has(c, key) && !SameKind(c.values[key], d)
    ensures Get(c, key, d) == d
  {
  }

  /** The worked case: an int 5 read as a double yields the default. */
  lemma IntFiveReadAsRealIsDefault(c: Config, key: string, d: real)
    requires Has(c, key) && c.values[key] == IntV(5)
    ensures GetReal(c, key, d) == d
    ensures GetInt(c, key, 0) == 5
  {
  }

  /** A value of the same alternative as `v` but different from it. */
  function Other(v: ConfigValue): (d: ConfigValue)
    ensures SameKind(v, d) && d != v
  {
    match v
    case IntV(n) => IntV(if n == 0 then 1 else 0)
    case RealV(x) => RealV(x + 1.0)
    case StrV(t) => StrV(t + "?")
    case BoolV(b) => BoolV(!b)
  }

  /** `has(key)` holds exactly when some `get` of the key does not fall
      back to its default. */
  lemma HasIsReadable(c: Config, key: string)
    ensures Has(c, key) <==> exists d :: Get(c, key, d) != d
  {
    if Has(c, key) {
      var d := Other(c.values[key]);
      assert Get(c, key, d) != d;
    }
  }

  /** `has` reports exactly the keys `set` so far and `hasSection` exactly
      the names `setSection` so far; neither setter touches the other. */
  lemma PresenceAfterSetters(c: Config, key: string, v: ConfigValue, name: string, section: Config, k: string)
    ensures Has(Set(c, key, v), k) <==> k == key || Has(c, k)
    ensures HasSection(Set(c, key, v), k) <==> HasSection(c, k)
    ensures HasSection(SetSection(c, name, section), k) <==> k == name || HasSection(c, k)
    ensures Has(SetSection(c, name, section), k) <==> Has(c, k)
  {
  }

  /** Values and sections are keyed separately: one name can be present in
      either map, both or neither. */
  lemma ValuesAndSectionsIndependent(name: string, v: ConfigValue)
    ensures Has(Set(Empty(), name, v), name) && !HasSection(Set(Empty(), name, v), name)
    ensures !Has(SetSection(Empty(), name, Empty()), name)
    ensures HasSection(SetSection(Empty(), name, Empty()), name)
    ensures var both := SetSection(Set(Empty(), name, v), name, Empty());
      Has(both, name) && HasSection(both, name)
    ensures !Has(Empty(), name) && !HasSection(Empty(), name)
  {
  }
}

=== FILE: config_text.dfy ===
/** The line-oriented text format of src/config.cpp: the space-only `trim`,
    the value classifier `parseValue`, the key/value line scanner of
    `fromJsonFile` and the text written by `toJsonFile`. The format looks
    like JSON but is not: it has no nesting, allows comments and is read one
    line at a time. */
module ConfigText {
  import opened Results
  import opened CInt
  import opened Text
  import opened Ordering
  import opened ConfigStore

  // ---------------------------------------------------------------------
  // trim

  predicate AllSpaces(s: string) { forall i :: 0 <= i < |s| ==> s[i] == ' ' }

  function Spaces(n: nat): (s: string)
    ensures |s| == n && AllSpaces(s)
  {
    seq(n, _ => ' ')
  }

  /** `find_first_not_of(' ')`, or `|s|` for npos. */
  function LeadingSpaces(s: string): (n: nat)
    ensures n <= |s| && AllSpaces(s[..n])
    ensures n == |s| || s[n] != ' '
  {
    if s != [] && s[0] == ' ' then 1 + LeadingSpaces(s[1..]) else 0
  }

  /** The number of spaces after `find_last_not_of(' ')`. */
  function TrailingSpaces(s: string): (n: nat)
    ensures n <= |s| && AllSpaces(s[|s| - n..])
    ensures n == |s| || s[|s| - n - 1] != ' '
  {
    if s != [] && s[|s| - 1] == ' ' then 1 + TrailingSpaces(s[..|s| - 1]) else 0
  }

  /** A trimmed text neither starts nor ends with a space. */
  predicate Trimmed(r: string)
  {
    r == [] || (r[0] != ' ' && r[|r| - 1] != ' ')
  }

  /** `trim`: removes the ' ' characters (and no other white space) at both
      ends. */
  function Trim(s: string): (r: string)
    ensures Trimmed(r)
    ensures r == [] <==> AllSpaces(s)
  {
    var first := LeadingSpaces(s);
    if first == |s| then []
    else
      var trailing := TrailingSpaces(s);
      assert trailing < |s| - first;
      s[first..|s| - trailing]
  }

  /** Trimming removes spaces only: the text is its trimmed form between two
      runs of spaces. */
  lemma TrimDecomposes(s: string) returns (i: nat, j: nat)
    ensures s == Spaces(i) + Trim(s) + Spaces(j)
  {
    i := LeadingSpaces(s);
    if i == |s| {
      j := 0;
      assert s == Spaces(i);
    } else {
      j := TrailingSpaces(s);
      var r := s[i..|s| - j];
      assert s == s[..i] + r + s[|s| - j..];
      assert s[..i] == Spaces(i);
      assert s[|s| - j..] == Spaces(j);
    }
  }

  /** Padding a trimmed text with spaces and trimming it gives it back: the
      characterisation of `Trim` fixes its result. */
  lemma TrimOfPadded(i: nat, r: string, j: nat)
    requires Trimmed(r)
    ensures Trim(Spaces(i) + r + Spaces(j)) == r
  {
    var s := Spaces(i) + r + Spaces(j);
    if r == [] {
      assert AllSpaces(s);
    } else {
      assert s == Spaces(i) + (r + Spaces(j));
      LeadingOfPadded(i, r + Spaces(j));
      TrailingOfPadded(Spaces(i) + r, j);
      assert s[i..|s| - j] == r;
    }
  }

  lemma {:induction false} LeadingOfPadded(i: nat, r: string)
    requires r != [] && r[0] != ' '
    ensures LeadingSpaces(Spaces(i) + r) == i
  {
    if i > 0 {
      assert (Spaces(i) + r)[1..] == Spaces(i - 1) + r;
      LeadingOfPadded(i - 1, r);
    }
  }

  lemma {:induction false} TrailingOfPadded(r: string, j: nat)
    requires r != [] && r[|r| - 1] != ' '
    ensures TrailingSpaces(r + Spaces(j)) == j
  {
    if j > 0 {
      var s := r + Spaces(j);
      assert s[..|s| - 1] == r + Spaces(j - 1);
      TrailingOfPadded(r, j - 1);
    }
  }

  /** `trim` is idempotent. */
  lemma TrimIdempotent(s: string)
    ensures Trim(Trim(s)) == Trim(s)
  {
    var r := Trim(s);
    assert Spaces(0) + r + Spaces(0) == r;
    TrimOfPadded(0, r, 0);
  }

  /** Only ' ' is removed: a tab survives trimming, and text made only of
      spaces becomes empty. */
  lemma TrimKeepsTabs(i: nat, j: nat)
    ensures Trim(Spaces(i) + "\t" + Spaces(j)) == "\t"
    ensures Trim(Spaces(i)) == ""
  {
    TrimOfPadded(i, "\t", j);
  }

  // ---------------------------------------------------------------------
  // std::stoi and std::stod

  /** `isspace` in the C locale, which `strtol`/`strtod` skip. */
  predicate IsCSpace(c: char)
  {
    c == ' ' || c == '\t' || c == '\n' || c == '\r' || c as int == 11 || c as int == 12
  }

  function SkipCSpace(s: string): (r: string)
    ensures |r| <= |s| && r == s[|s| - |r|..]
    ensures r == [] || !IsCSpace(r[0])
  {
    if s != [] && IsCSpace(s[0]) then SkipCSpace(s[1..]) else s
  }

  /** The text `strtol` reads digits from: after white space and one optional
      sign; the flag says whether that sign was '-'. */
  function SignedBody(s: string): (r: (bool, string))
    ensures |r.1| <= |s| && r.1 == s[|s| - |r.1|..]
  {
    var t := SkipCSpace(s);
    if t != [] && (t[0] == '+' || t[0] == '-') then (t[0] == '-', t[1..]) else (false, t)
  }

  /** `std::stoi`: white space, an optional sign and a non-empty digit
      prefix (what follows is ignored); fails with `invalid_argument` when no
      digit is found and with `out_of_range` outside the `int` range. */
  function Stoi(s: string): (r: Option<int32>)
    ensures r.Some? ==> DigitPrefix(SignedBody(s).1) != []
    ensures r.Some? ==> Abs(r.value as int) == DigitsValue(DigitPrefix(SignedBody(s).1))
    ensures r.Some? && r.value < 0 ==> SignedBody(s).0
    ensures DigitPrefix(SignedBody(s).1) != [] && DigitsValue(DigitPrefix(SignedBody(s).1)) <= Int32Max ==> r.Some?
    ensures var ds := DigitPrefix(SignedBody(s).1);
      var d: int := DigitsValue(ds);
      var v := if SignedBody(s).0 then -d else d;
      && (r.Some? <==> ds != [] && Int32Min <= v <= Int32Max)
      && (r.Some? ==> r.value as int == v)
  {
    var (neg, body) := SignedBody(s);
    var ds := DigitPrefix(body);
    if ds == [] then None
    else
      var v: int := if neg then -(DigitsValue(ds) as int) else DigitsValue(ds);
      if Int32Min <= v <= Int32Max then Some(v as int32) else None
  }

  function Pow10(n: nat): (p: nat)
    ensures p >= 1
  {
    if n == 0 then 1 else 10 * Pow10(n - 1)
  }

  /** The value of the digits `ip` before and `fp` after a decimal point. */
  function Decimal(ip: string, fp: string): (m: real)
    requires AllDigits(ip) && AllDigits(fp)
    ensures m >= 0.0
    ensures fp == [] ==> m == DigitsValue(ip) as real
  {
    var f := DigitsValue(fp) as real / Pow10(|fp|) as real;
    assert f >= 0.0;
    DigitsValue(ip) as real + f
  }

  /** `std::stod` on decimal text: white space, an optional sign, digits, an
      optional '.' and more digits, with at least one digit in all. */
  function Stod(s: string): (r: Option<real>)
    ensures r.None? ==> DigitPrefix(SignedBody(s).1) == []
    ensures r.Some? && r.value < 0.0 ==> SignedBody(s).0
    ensures var body := SignedBody(s).1;
      var ip := DigitPrefix(body);
      ip != [] && (|ip| == |body| || body[|ip|] != '.') ==> r.Some? && (r.value == DigitsValue(ip) as real || r.value == -(DigitsValue(ip) as real))
    ensures var body := SignedBody(s).1;
      var ip := DigitPrefix(body);
      var rest := body[|ip|..];
      var fp := if rest != [] && rest[0] == '.' then DigitPrefix(rest[1..]) else [];
      && (r.Some? <==> ip != [] || fp != [])
      && (r.Some? ==> r.value == if SignedBody(s).0 then -Decimal(ip, fp) else Decimal(ip, fp))
  {
    var (neg, body) := SignedBody(s);
    var ip := DigitPrefix(body);
    var rest := body[|ip|..];
    var fp := if rest != [] && rest[0] == '.' then DigitPrefix(rest[1..]) else [];
    if ip == [] && fp == [] then None
    else
      var m := Decimal(ip, fp);
      Some(if neg then -m else m)
  }

  predicate NoDigits(s: string) { forall i :: 0 <= i < |s| ==> !IsDigit(s[i]) }

  lemma DigitPrefixOfNoDigits(s: string)
    requires NoDigits(s)
    ensures DigitPrefix(s) == []
  {
  }

  /** Text without a single digit is neither an int nor a double. */
  lemma NoDigitsNoNumber(s: string)
    requires NoDigits(s)
    ensures Stoi(s) == None && Stod(s) == None
  {
    var body := SignedBody(s).1;
    NoDigitsSuffix(s, |s| - |body|);
    DigitPrefixOfNoDigits(body);
    var rest := body[|DigitPrefix(body)|..];
    assert rest == body;
    if rest != [] && rest[0] == '.' {
      NoDigitsSuffix(rest, 1);
      DigitPrefixOfNoDigits(rest[1..]);
    }
  }

  /** A suffix of text without digits has none either. */
  lemma NoDigitsSuffix(s: string, k: nat)
    requires NoDigits(s) && k <= |s|
    ensures NoDigits(s[k..])
  {
    forall i | 0 <= i < |s| - k ensures !IsDigit(s[k..][i]) {
      assert s[k..][i] == s[k + i];
    }
  }

  /** `stoi` reads the decimal text of an integer back, ignoring whatever
      non-digit text follows ("12ab" gives 12), and fails outside the `int`
      range. */
  lemma StoiOfIntText(n: int, t: string)
    requires t == [] || !IsDigit(t[0])
    ensures Stoi(IntText(n) + t) == if Int32Min <= n <= Int32Max then Some(n as int32) else None
  {
    var body := NatText(Abs(n)) + t;
    SignedBodyOfIntText(n, t);
    DigitPrefixOfDigits(NatText(Abs(n)), t);
    NatTextValue(Abs(n));
    assert DigitPrefix(body) == NatText(Abs(n));
    var v: int := if n < 0 then -(DigitsValue(NatText(Abs(n))) as int) else DigitsValue(NatText(Abs(n)));
    assert v == n;
  }

  lemma SignedBodyOfIntText(n: int, t: string)
    ensures SignedBody(IntText(n) + t) == (n < 0, NatText(Abs(n)) + t)
  {
    var s := IntText(n) + t;
    assert s[0] == IntText(n)[0];
    assert !IsCSpace(s[0]);
    assert SkipCSpace(s) == s;
    if n < 0 {
      assert s[0] == '-';
      assert s[1..] == NatText(-n) + t;
    } else {
      assert IsDigit(s[0]);
      assert s == NatText(n) + t;
    }
  }

  // ---------------------------------------------------------------------
  // parseValue

  /** Text that starts and ends with a double quote. */
  predicate Quoted(t: string)
  {
    t != [] && t[0] == '"' && t[|t| - 1] == '"'
  }

  /** Drops one pair of surrounding quotes, as `t.substr(1, t.length() - 2)`
      does when `t` starts and ends with '"'; a lone '"' becomes empty text
      (the length wraps to `npos`, which `substr` clamps). */
  function Unquote(t: string): (r: string)
    requires t != []
    ensures !Quoted(t) ==> r == t
    ensures Quoted(t) && |t| >= 2 ==> t == "\"" + r + "\"" && r == t[1..|t| - 1]
    ensures Quoted(t) && |t| == 1 ==> r == []
  {
    if Quoted(t) then (if |t| >= 2 then t[1..|t| - 1] else []) else t
  }

  /** Trimmed text that `parseValue` tries as a number: neither quoted nor
      a boolean word. */
  predicate Number(t: string)
  {
    !Quoted(t) && t != "true" && t != "false"
  }

  /** `parseValue`: quoted text is a string with its quotes removed, so
      "\"true\"" is a string; bare `true`/`false` are booleans; text with a
      '.' is tried as a double and other text as an int; text that fails to
      convert is kept, trimmed, as a string. The source reads the first
      character of the trimmed text, which is undefined for empty text, so
      the text must not be blank. */
  function ParseValue(value: string): (r: ConfigValue)
    requires Trim(value) != []
    ensures var t := Trim(value);
      && (r.BoolV? <==> t == "true" || t == "false")
      && (r.BoolV? ==> r.b == (t == "true"))
      && (r.IntV? ==> !Quoted(t) && '.' !in t && Stoi(t) == Some(r.i))
      && (r.RealV? ==> !Quoted(t) && '.' in t && Stod(t) == Some(r.x))
      && (Quoted(t) ==> r == StrV(Unquote(t)))
      && (r.StrV? && !Quoted(t) ==> r.s == t)
      && (Number(t) && '.' !in t && Stoi(t).Some? ==> r == IntV(Stoi(t).value))
      && (Number(t) && '.' in t && Stod(t).Some? ==> r == RealV(Stod(t).value))
      && (r.StrV? && !Quoted(t) ==> if '.' in t then Stod(t).None? else Stoi(t).None?)
  {
    var t := Trim(value);
    if Quoted(t) then StrV(Unquote(t))
    else if t == "true" then BoolV(true)
    else if t == "false" then BoolV(false)
    else if '.' in t then
      match Stod(t)
      case Some(x) => RealV(x)
      case None => StrV(t)
    else
      match Stoi(t)
      case Some(n) => IntV(n)
      case None => StrV(t)
  }

  /** Quoting wins over every other reading: "\"true\"" and "\"12\"" are
      strings. */
  lemma QuotedIsString(s: string)
    requires '"' !in s
    ensures ParseValue("\"" + s + "\"") == StrV(s)
  {
    var t := "\"" + s + "\"";
    TrimOfPadded(0, t, 0);
    assert Spaces(0) + t + Spaces(0) == t;
  }

  /** Decimal integer text holds no '.'. */
  lemma IntTextNoDot(n: int)
    ensures '.' !in IntText(n)
  {
    var s := IntText(n);
    if n < 0 {
      assert s == [s[0]] + s[1..];
    }
  }

  /** `parseValue` reads the leading integer of unquoted text without a
      '.', whatever non-digit text follows it. */
  lemma ParseValueIntPrefix(n: int32, t: string)
    requires t == [] || !IsDigit(t[0])
    requires '.' !in t
    requires t == [] || (t[|t| - 1] != ' ' && t[|t| - 1] != '"')
    ensures ParseValue(IntText(n as int) + t) == IntV(n)
  {
    var d := IntText(n as int);
    var v := d + t;
    assert v[0] == d[0] && (d[0] == '-' || IsDigit(d[0]));
    assert IsDigit(d[|d| - 1]) by {
      if n < 0 { assert d[|d| - 1] == d[1..][|d| - 2]; }
    }
    assert t == [] ==> v[|v| - 1] == d[|d| - 1];
    assert t != [] ==> v[|v| - 1] == t[|t| - 1];
    TrimOfPadded(0, v, 0);
    assert Spaces(0) + v + Spaces(0) == v;
    assert Trim(v) == v;
    IntTextNoDot(n as int);
    assert '.' !in v;
    StoiOfIntText(n as int, t);
    assert Number(v) && Stoi(v) == Some(n);
  }

  /** Text that starts with a digit has no white space or sign to skip. */
  lemma DigitStartUnsigned(v: string)
    requires v != [] && IsDigit(v[0])
    ensures SignedBody(v) == (false, v)
  {
    assert !IsCSpace(v[0]);
    assert SkipCSpace(v) == v;
  }

  /** Text from a digit to a digit or '.' is already trimmed. */
  lemma DigitTextTrimmed(v: string)
    requires v != [] && IsDigit(v[0]) && (IsDigit(v[|v| - 1]) || v[|v| - 1] == '.')
    ensures Trim(v) == v
  {
    TrimOfPadded(0, v, 0);
    assert Spaces(0) == [];
    assert Spaces(0) + v + Spaces(0) == v;
  }

  /** `std::stod` reads digits, a '.' and more digits as their decimal value. */
  lemma StodOfDecimal(ip: string, fp: string)
    requires ip != [] && AllDigits(ip) && AllDigits(fp)
    ensures Stod(ip + "." + fp) == Some(Decimal(ip, fp))
  {
    var v := ip + ("." + fp);
    assert v == ip + "." + fp;
    assert v[0] == ip[0];
    DigitStartUnsigned(v);
    DigitPrefixOfDigits(ip, "." + fp);
    assert v[|ip|..] == "." + fp && ("." + fp)[1..] == fp;
    DigitPrefixOfDigits(fp, []);
    assert fp + [] == fp;
  }

  /** `parseValue` reads digits, a '.' and more digits as the double they
      denote. */
  lemma ParseValueDecimal(ip: string, fp: string)
    requires ip != [] && AllDigits(ip) && AllDigits(fp)
    ensures ParseValue(ip + "." + fp) == RealV(Decimal(ip, fp))
  {
    var v := ip + "." + fp;
    assert v[0] == ip[0] && v[|ip|] == '.';
    assert v[|v| - 1] == '.' || IsDigit(v[|v| - 1]) by {
      if fp != [] { assert v[|v| - 1] == fp[|fp| - 1]; }
    }
    DigitTextTrimmed(v);
    assert '.' in v;
    assert Number(v) by { assert v[0] != '"' && v[0] != 't' && v[0] != 'f'; }
    StodOfDecimal(ip, fp);
  }

  /** Worked cases of the sign: "-5" is -5 for both conversions, and the
      least `int` reads back while one past the greatest does not. */
  lemma SignExamples()
    ensures Stoi("-5") == Some(-5)
    ensures Stod("-5") == Some(-5.0)
    ensures Stoi(IntText(Int32Min)) == Some(Int32Min as int32)
    ensures Stoi(IntText(Int32Max + 1)) == None
  {
    assert IntText(-5) == "-5" by { assert NatText(5) == "5"; }
    StoiOfIntText(-5, []);
    assert IntText(-5) + [] == "-5";
    StoiOfIntText(Int32Min, []);
    assert IntText(Int32Min) + [] == IntText(Int32Min);
    StoiOfIntText(Int32Max + 1, []);
    assert IntText(Int32Max + 1) + [] == IntText(Int32Max + 1);
  }

  /** Worked case: "12ab" is read as the int 12. */
  lemma IntPrefixExample()
    ensures ParseValue("12ab") == IntV(12)
  {
    var t: string := ['a', 'b'];
    assert IntText(12) + t == "12ab" by { assert IntText(12) == ['1', '2']; }
    ParseValueIntPrefix(12, t);
  }

  /** Worked case: "1.5" is read as the double 1.5. */
  lemma DecimalExample()
    ensures ParseValue("1.5") == RealV(1.5)
  {
    var ip: string, fp: string := ['1'], ['5'];
    assert AllDigits(ip) && AllDigits(fp);
    assert ip + "." + fp == "1.5";
    assert Decimal(ip, fp) == 1.5 by {
      assert DigitsValue(ip) == 1 && DigitsValue(fp) == 5 && Pow10(|fp|) == 10;
    }
    ParseValueDecimal(ip, fp);
  }

  // ---------------------------------------------------------------------
  // the line scanner of fromJsonFile

  /** What one line contributes to the configuration being read. `Undefined`
      stands for a line whose key or value is blank, where the source reads
      the first character of empty text. */
  datatype LineOutcome = Skip | Bind(key: string, value: ConfigValue) | Undefined

  /** A trimmed line that the scanner ignores before looking for ':'. */
  predicate Ignored(l: string)
  {
    l == [] || l[0] == '#' || (|l| >= 2 && l[..2] == "//") || l == "{" || l == "}"
  }

  /** Trimming keeps every character other than the outer spaces. */
  lemma TrimKeepsChar(s: string, c: char)
    requires c != ' '
    ensures c in Trim(s) <==> c in s
  {
    var i, j := TrimDecomposes(s);
    assert c !in Spaces(i) && c !in Spaces(j);
  }

  /** One line of the scanner: trim it; skip it when it is empty, a `#` or
      `//` comment, or a lone brace; otherwise split it at the first ':' into
      a trimmed key and a trimmed value, drop one trailing ',' from the value
      and trim again, strip one pair of quotes from the key and classify the
      value. A line without ':' is skipped. */
  function ScanLine(line: string): (r: LineOutcome)
    ensures r.Skip? <==> Ignored(Trim(line)) || ':' !in line
    ensures r.Bind? ==> ':' in line
  {
    var l := Trim(line);
    TrimKeepsChar(line, ':');
    if Ignored(l) then Skip
    else
      match Find(l, ':')
      case None => Skip
      case Some(p) => ScanPair(l[..p], l[p + 1..])
  }

  /** Text that does not start with a space loses only trailing spaces to
      trimming. */
  lemma TrimOfUnindented(w: string)
    requires w == [] || w[0] != ' '
    ensures |Trim(w)| <= |w| && w == Trim(w) + Spaces(|w| - |Trim(w)|)
  {
    var i, j := TrimDecomposes(w);
    assert w == Trim(w) + Spaces(j);
  }

  /** The value text after one trailing ',' is dropped and the rest trimmed
      again: what is left is trimmed, and together with the spaces before
      the comma and the comma itself it makes up the text. */
  function DropComma(v: string): (r: string)
    requires Trimmed(v)
    ensures Trimmed(r)
    ensures v == [] || v[|v| - 1] != ',' ==> r == v
    ensures v != [] && v[|v| - 1] == ',' ==> |r| < |v| && v == r + Spaces(|v| - 1 - |r|) + ","
  {
    if v != [] && v[|v| - 1] == ',' then
      var w := v[..|v| - 1];
      TrimOfUnindented(w);
      assert v == w + ",";
      Trim(w)
    else v
  }

  /** The rest of the scan once the line is split at its first ':' into key
      text and value text. A blank key or value is `Undefined`; otherwise the
      key, trimmed and without one pair of quotes, is bound to `parseValue`
      of the value, trimmed and without one trailing ','. */
  function ScanPair(keyText: string, valueText: string): (r: LineOutcome)
    ensures r.Undefined? <==> (
      || Trim(keyText) == []
      || AllSpaces(valueText)
      || (Trim(valueText)[|Trim(valueText)| - 1] == ',' && Trim(Trim(valueText)[..|Trim(valueText)| - 1]) == []))
    ensures r.Undefined? <==> Trim(keyText) == [] || DropComma(Trim(valueText)) == []
    ensures !r.Skip?
    ensures r.Bind? ==> && Trim(keyText) != [] && DropComma(Trim(valueText)) != []
                        && r == Bind(Unquote(Trim(keyText)), ParseValue(DropComma(Trim(valueText))))
  {
    var key := Trim(keyText);
    var value := DropComma(Trim(valueText));
    if key == [] || value == [] then Undefined
    else
      TrimOfPadded(0, value, 0);
      assert Spaces(0) + value + Spaces(0) == value;
      Bind(Unquote(key), ParseValue(value))
  }

  /** How a line is scanned whose trimmed text neither starts with '#' nor
      with "//": it is split at its first ':', whatever precedes it (a
      single '/', or nothing at all). */
  lemma ScanLineSplit(line: string, q: string, w: string)
    requires Trim(line) == q + ":" + w
    requires ':' !in q && (q == [] || q[0] != '#') && !(|q| >= 2 && q[..2] == "//")
    ensures ScanLine(line) == ScanPair(q, w)
  {
    var l := q + ":" + w;
    assert l != "{" && l != "}" by {
      assert l[|q|] == ':';
    }
    assert l[0] != '#' by {
      if q == [] { assert l[0] == ':'; } else { assert l[0] == q[0]; }
    }
    assert !(|l| >= 2 && l[..2] == "//") by {
      if |q| >= 2 { assert l[..2] == q[..2]; }
      else { assert l[|q|] == ':'; }
    }
    assert !Ignored(l);
    FindAt(l, ':', |q|);
    assert l[..|q|] == q && l[|q| + 1..] == w;
  }

  /** Why a text could not be read. */
  datatype ParseError = EmptyFront

  /** The scanner loop: every line in order, each binding overwriting any
      earlier binding of its key through `Config::set`. */
  function ParseLines(lines: seq<string>, acc: Config): (r: Result<Config, ParseError>)
    ensures r.Ok? ==> r.value.sections == acc.sections
  {
    if lines == [] then Ok(acc)
    else
      match ScanLine(lines[0])
      case Skip => ParseLines(lines[1..], acc)
      case Undefined => Err(EmptyFront)
      case Bind(k, v) => ParseLines(lines[1..], Set(acc, k, v))
  }

  /** `Config::fromJsonFile` on the text of the file: the result never has
      sections. */
  function Parse(text: string): (r: Result<Config, ParseError>)
    ensures r.Ok? ==> r.value.sections == map[]
  {
    ParseLines(Lines(text), Empty())
  }

  /** The binding the LAST line mentioning `k` gives it, read from the end of
      the file backwards: an independent description of "later lines
      overwrite earlier ones". */
  function LastBinding(lines: seq<string>, k: string): Option<ConfigValue>
  {
    if lines == [] then None
    else
      match ScanLine(lines[|lines| - 1])
      case Bind(k', v) =>
        if k' == k then Some(v) else LastBinding(lines[..|lines| - 1], k)
      case _ => LastBinding(lines[..|lines| - 1], k)
  }

  function LineBinding(line: string, k: string): Option<ConfigValue>
  {
    match ScanLine(line)
    case Bind(k', v) => if k' == k then Some(v) else None
    case _ => None
  }

  lemma {:induction false} LastBindingCons(l: string, rest: seq<string>, k: string)
    ensures LastBinding([l] + rest, k) ==
      (if LastBinding(rest, k).Some? then LastBinding(rest, k) else LineBinding(l, k))
    decreases |rest|
  {
    var s := [l] + rest;
    if rest == [] {
      assert s[..|s| - 1] == [];
    } else {
      assert s[..|s| - 1] == [l] + rest[..|rest| - 1];
      assert s[|s| - 1] == rest[|rest| - 1];
      LastBindingCons(l, rest[..|rest| - 1], k);
    }
  }

  /** Every line is free of blank keys and values. */
  predicate AllDefined(lines: seq<string>)
  {
    lines == [] || (Defined(lines[0]) && AllDefined(lines[1..]))
  }

  predicate Defined(line: string)
  {
    !ScanLine(line).Undefined?
  }

  /** `vals` is what the lines leave: the value of the last line binding
      each key, else the value held before the scan. */
  ghost predicate Overlays(lines: seq<string>, acc: map<string, ConfigValue>, vals: map<string, ConfigValue>)
  {
    forall k :: OverlaysAt(lines, acc, vals, k)
  }

  /** The scanner fails exactly when some line has a blank key or value. */
  lemma {:induction false} ParseLinesFails(lines: seq<string>, acc: Config)
    ensures ParseLines(lines, acc).Ok? <==> AllDefined(lines)
  {
    if lines != [] {
      match ScanLine(lines[0])
      case Skip => ParseLinesFails(lines[1..], acc);
      case Undefined =>
      case Bind(k0, v0) => ParseLinesFails(lines[1..], Set(acc, k0, v0));
    }
  }

  /** What the scan leaves under one key. */
  ghost predicate OverlaysAt(lines: seq<string>, acc: map<string, ConfigValue>, vals: map<string, ConfigValue>, k: string)
  {
    && (k in vals <==> LastBinding(lines, k).Some? || k in acc)
    && (k in vals ==> vals[k] == (if LastBinding(lines, k).Some? then LastBinding(lines, k).value else acc[k]))
  }

  lemma {:induction false} ParseLinesAt(lines: seq<string>, acc: Config, k: string)
    requires ParseLines(lines, acc).Ok?
    ensures OverlaysAt(lines, acc.values, ParseLines(lines, acc).value.values, k)
  {
    if lines != [] {
      var rest := lines[1..];
      var o := ScanLine(lines[0]);
      assert lines == [lines[0]] + rest;
      LastBindingCons(lines[0], rest, k);
      var next := if o.Bind? then Set(acc, o.key, o.value) else acc;
      assert ParseLines(lines, acc) == ParseLines(rest, next);
      assert LineBinding(lines[0], k) == if o.Bind? && o.key == k then Some(o.value) else None;
      ParseLinesAt(rest, next, k);
    }
  }

  /** When the scanner succeeds each key holds the value of the last line
      binding it, or its value before the scan when no line binds it. */
  lemma ParseLinesMeaning(lines: seq<string>, acc: Config)
    requires ParseLines(lines, acc).Ok?
    ensures Overlays(lines, acc.values, ParseLines(lines, acc).value.values)
  {
    forall k
      ensures OverlaysAt(lines, acc.values, ParseLines(lines, acc).value.values, k)
    {
      ParseLinesAt(lines, acc, k);
    }
  }

  // ---------------------------------------------------------------------
  // toJsonFile

  /** How `operator<<` writes one value: strings in double quotes with no
      escaping, booleans as words, ints in decimal, doubles through the
      stream's default formatting, which is given as `fmt`. */
  function ValueText(v: ConfigValue, fmt: real -> string): string
  {
    match v
    case StrV(s) => "\"" + s + "\""
    case BoolV(b) => if b then "true" else "false"
    case IntV(i) => IntText(i as int)
    case RealV(x) => fmt(x)
  }

  /** One written entry, before its separator. */
  function EntryText(key: string, valueText: string): string
  {
    "  \"" + key + "\": " + valueText
  }

  /** The entries of `ks`, separated by ",\n". */
  function EntriesText(m: map<string, ConfigValue>, ks: seq<string>, fmt: real -> string): string
    requires forall i :: 0 <= i < |ks| ==> ks[i] in m
  {
    if ks == [] then ""
    else if |ks| == 1 then EntryText(ks[0], ValueText(m[ks[0]], fmt))
    else EntryText(ks[0], ValueText(m[ks[0]], fmt)) + ",\n" + EntriesText(m, ks[1..], fmt)
  }

  /** `toJsonFile`'s text: the values only (sections are not written), in
      ascending key order, inside "{\n" and "\n}\n". */
  function Serialize(c: Config, fmt: real -> string): (text: string)
    ensures |text| >= 5 && text[..2] == "{\n" && text[|text| - 3..] == "\n}\n"
    ensures c.values == map[] ==> text == "{\n\n}\n"
  {
    var ks := SortedKeys(c.values.Keys);
    var body := EntriesText(c.values, ks, fmt);
    var text := "{\n" + body + "\n}\n";
    assert text[..2] == "{\n";
    assert text[|text| - 3..] == "\n}\n";
    text
  }
}

=== FILE: episode.dfy ===
/** `ExperimentRunner::runEpisode`: one episode of the agent in the
    environment, as a recursion over the step counter. The run also records
    what the C++ code only passes along: the experiences handed to `learn`,
    the info strings, and the sequence of calls made on agent and
    environment. */
module Episode {
  import opened CInt
  import opened Agents

  /** The per-episode statistics. */
  datatype EpisodeStats = EpisodeStats(
    episode: int, steps: int, totalReward: real, terminated: bool, reason: string, agentStats: Stats)

  /** A call the runner makes on the environment or the agent. */
  datatype Call = EnvReset | Render | Act | EnvStep | Learn | GetStats | AgentReset | SaveModel

  /** A finished run: the agent and environment afterwards, the statistics,
      every experience in order, the info of every step, and the calls. */
  datatype Run<S, E> = Run(
    agent: S, env: E, stats: EpisodeStats,
    trajectory: seq<Experience>, infos: seq<string>, calls: seq<Call>)

  /** The statistics before the first step. `episode` is left
      uninitialised by `runEpisode`; the model puts 0 there. */
  const Initial: EpisodeStats := EpisodeStats(0, 0, 0.0, false, "", [])

  /** The calls one step makes. */
  function StepCalls(render: bool): seq<Call>
  {
    (if render then [Render] else []) + [Act, EnvStep, Learn]
  }

  /** `block` repeated `n` times. */
  function Repeat(block: seq<Call>, n: nat): (r: seq<Call>)
    ensures |r| == n * |block|
  {
    if n == 0 then [] else block + Repeat(block, n - 1)
  }

  /** How often `c` occurs in `calls`. */
  function Count(calls: seq<Call>, c: Call): nat
  {
    if calls == [] then 0 else (if calls[0] == c then 1 else 0) + Count(calls[1..], c)
  }

  /** The sum of the rewards of a trajectory. */
  function RewardSum(t: seq<Experience>): real
  {
    if t == [] then 0.0 else t[0].reward + RewardSum(t[1..])
  }

  /** Each experience starts where the previous one ended, and the first
      where `start` is. */
  predicate Chained(start: State, t: seq<Experience>)
  {
    && (t != [] ==> t[0].state == start)
    && (forall i :: 0 < i < |t| ==> t[i].state == t[i - 1].next)
  }

  /** Only the last experience, if any, may be done. */
  predicate DoneOnlyAtEnd(t: seq<Experience>)
  {
    forall i :: 0 <= i < |t| - 1 ==> !t[i].done
  }

  /** The state of the loop at the head of iteration `step`: nothing has
      terminated yet, and `steps` counts the iterations done. */
  predicate Running(step: int, acc: EpisodeStats)
  {
    0 <= step && acc.steps == step && !acc.terminated && acc.reason == ""
  }

  /** What one iteration of the loop leaves: the agent after `learn`, the
      environment after `step`, the experience handed to `learn`, the
      step's result, and the statistics with its reward added. */
  datatype Stepped<S, E> = Stepped(agent: S, env: E, x: Experience, result: StepResult, acc: EpisodeStats)

  /** One iteration of the loop body: draw when rendering, `act` on the
      latest observation, `step` with the chosen action, and `learn` from
      the resulting experience. */
  function StepOnce<S, E>(ag: AgentImpl<S>, env: EnvImpl<E>, a: S, e: E, state: State,
                          step: int, render: bool, acc: EpisodeStats): (o: Stepped<S, E>)
    ensures var stepped := env.step(if render then env.render(e) else e, ag.act(a, state).1);
      o.env == stepped.0 && o.result == stepped.1
    ensures o.x == Experience(state, ag.act(a, state).1, o.result.reward, o.result.next, o.result.done)
    ensures o.agent == ag.learn(ag.act(a, state).0, o.x)
    ensures o.acc == acc.(totalReward := acc.totalReward + o.result.reward, steps := step + 1)
  {
    var e1 := if render then env.render(e) else e;
    var acted := ag.act(a, state);
    var stepped := env.step(e1, acted.1);
    var sr := stepped.1;
    var x := Experience(state, acted.1, sr.reward, sr.next, sr.done);
    Stepped(ag.learn(acted.0, x), stepped.0, x, sr, acc.(totalReward := acc.totalReward + sr.reward, steps := step + 1))
  }

  /** The `for` loop of `runEpisode` from iteration `step` on, with `state`
      the latest observation and `acc` the statistics so far. It stops after
      the first step reporting `done`, or at `maxSteps`. What it computes is
      stated by the `Loop...` lemmas below. */
  function Loop<S, E>(ag: AgentImpl<S>, env: EnvImpl<E>, a: S, e: E, state: State,
                      step: int, maxSteps: int, render: bool, acc: EpisodeStats): (r: Run<S, E>)
    requires Running(step, acc)
    ensures |r.infos| == |r.trajectory|
    ensures r.stats.episode == acc.episode && r.stats.agentStats == acc.agentStats
    decreases maxSteps - step
  {
    if step >= maxSteps then Run(a, e, acc, [], [], [])
    else
      var o := StepOnce(ag, env, a, e, state, step, render, acc);
      if o.result.done then
        Run(o.agent, o.env, o.acc.(terminated := true, reason := o.result.info), [o.x], [o.result.info], StepCalls(render))
      else
        var rest := Loop(ag, env, o.agent, o.env, o.result.next, step + 1, maxSteps, render, o.acc);
        Run(rest.agent, rest.env, rest.stats, [o.x] + rest.trajectory, [o.result.info] + rest.infos,
            StepCalls(render) + rest.calls)
  }

  /** The loop takes at most `maxSteps - step` steps, all of them when it
      does not terminate, and `steps` counts them. */
  lemma {:induction false} LoopCounts<S, E>(ag: AgentImpl<S>, env: EnvImpl<E>, a: S, e: E, state: State,
      step: int, maxSteps: int, render: bool, acc: EpisodeStats)
    requires Running(step, acc)
    ensures var r := Loop(ag, env, a, e, state, step, maxSteps, render, acc);
      var n := |r.trajectory|;
      && n <= Max(maxSteps - step, 0)
      && r.stats.steps == step + n
      && (!r.stats.terminated ==> n == Max(maxSteps - step, 0))
    decreases maxSteps - step
  {
    var r := Loop(ag, env, a, e, state, step, maxSteps, render, acc);
    if step < maxSteps {
      var o := StepOnce(ag, env, a, e, state, step, render, acc);
      if !o.result.done {
        var rest := Loop(ag, env, o.agent, o.env, o.result.next, step + 1, maxSteps, render, o.acc);
        LoopCounts(ag, env, o.agent, o.env, o.result.next, step + 1, maxSteps, render, o.acc);
        assert |r.trajectory| == 1 + |rest.trajectory| && r.stats.steps == rest.stats.steps && r.stats.terminated == rest.stats.terminated;
      } else {
        assert |r.trajectory| == 1 && r.stats.steps == step + 1 && r.stats.terminated;
      }
    }
  }

  /** The loop stops at the first `done` step: only the last step may be
      done. */
  lemma {:induction false} LoopEnds<S, E>(ag: AgentImpl<S>, env: EnvImpl<E>, a: S, e: E, state: State,
      step: int, maxSteps: int, render: bool, acc: EpisodeStats)
    requires Running(step, acc)
    ensures DoneOnlyAtEnd(Loop(ag, env, a, e, state, step, maxSteps, render, acc).trajectory)
    decreases maxSteps - step
  {
    var r := Loop(ag, env, a, e, state, step, maxSteps, render, acc);
    if step < maxSteps {
      var o := StepOnce(ag, env, a, e, state, step, render, acc);
      if !o.result.done {
        var rest := Loop(ag, env, o.agent, o.env, o.result.next, step + 1, maxSteps, render, o.acc);
        LoopEnds(ag, env, o.agent, o.env, o.result.next, step + 1, maxSteps, render, o.acc);
        assert r.trajectory == [o.x] + rest.trajectory;
        DoneOnlyAtEndCons(o.x, rest.trajectory);
      }
    }
  }

  /** The episode terminated exactly when its last step is done. */
  lemma {:induction false} LoopTerminates<S, E>(ag: AgentImpl<S>, env: EnvImpl<E>, a: S, e: E, state: State,
      step: int, maxSteps: int, render: bool, acc: EpisodeStats)
    requires Running(step, acc)
    ensures var r := Loop(ag, env, a, e, state, step, maxSteps, render, acc);
      r.stats.terminated <==> |r.trajectory| > 0 && r.trajectory[|r.trajectory| - 1].done
    decreases maxSteps - step
  {
    var r := Loop(ag, env, a, e, state, step, maxSteps, render, acc);
    if step < maxSteps {
      var o := StepOnce(ag, env, a, e, state, step, render, acc);
      if !o.result.done {
        var rest := Loop(ag, env, o.agent, o.env, o.result.next, step + 1, maxSteps, render, o.acc);
        LoopTerminates(ag, env, o.agent, o.env, o.result.next, step + 1, maxSteps, render, o.acc);
        assert r.trajectory == [o.x] + rest.trajectory && r.stats.terminated == rest.stats.terminated;
        LastOfCons(o.x, rest.trajectory);
      } else {
        assert r.trajectory == [o.x] && r.stats.terminated;
        assert r.trajectory[|r.trajectory| - 1].done;
      }
    }
  }

  /** An environment that, from state `x`, finishes within `budget(x)`
      steps: drawing leaves the budget alone, and a step that is not done
      uses up one unit and leaves at least one. */
  ghost predicate FinishesWithin<E(!new)>(env: EnvImpl<E>, budget: E -> int)
  {
    && (forall x :: budget(env.render(x)) == budget(x))
    && (forall x, u :: !env.step(x, u).1.done ==> 1 <= budget(env.step(x, u).0) == budget(x) - 1)
  }

  /** Against such an environment, a loop whose cap leaves room for the
      whole budget ends terminated, within the budget. */
  lemma {:induction false} LoopEndsWithinBudget<S, E(!new)>(ag: AgentImpl<S>, env: EnvImpl<E>, budget: E -> int, a: S, e: E,
      state: State, step: int, maxSteps: int, render: bool, acc: EpisodeStats)
    requires Running(step, acc) && FinishesWithin(env, budget)
    requires 1 <= budget(e) <= maxSteps - step
    ensures var r := Loop(ag, env, a, e, state, step, maxSteps, render, acc);
      r.stats.terminated && r.stats.steps <= step + budget(e)
    decreases maxSteps - step
  {
    var r := Loop(ag, env, a, e, state, step, maxSteps, render, acc);
    var o := StepOnce(ag, env, a, e, state, step, render, acc);
    assert budget(if render then env.render(e) else e) == budget(e);
    if !o.result.done {
      LoopEndsWithinBudget(ag, env, budget, o.agent, o.env, o.result.next, step + 1, maxSteps, render, o.acc);
      var rest := Loop(ag, env, o.agent, o.env, o.result.next, step + 1, maxSteps, render, o.acc);
      assert r.stats.terminated == rest.stats.terminated && r.stats.steps == rest.stats.steps;
    }
  }

  /** The last element of `[x] + t` is `x` when `t` is empty and the last
      of `t` otherwise. */
  lemma LastOfCons<X>(x: X, t: seq<X>)
    ensures |[x] + t| == |t| + 1
    ensures ([x] + t)[|t|] == if t == [] then x else t[|t| - 1]
  {
  }

  /** A step that is not done in front of a trajectory keeps the last
      step last. */
  lemma DoneOnlyAtEndCons(x: Experience, t: seq<Experience>)
    requires !x.done
    ensures DoneOnlyAtEnd(t) ==> DoneOnlyAtEnd([x] + t)
    ensures t != [] ==> ([x] + t)[|t|] == t[|t| - 1]
    ensures t == [] ==> !([x] + t)[0].done
  {
    var u := [x] + t;
    if DoneOnlyAtEnd(t) {
      forall i | 0 <= i < |u| - 1
        ensures !u[i].done
      {
        if i > 0 { assert u[i] == t[i - 1]; }
      }
    }
  }

  /** The reason is the info of the last step when the episode terminated,
      and empty otherwise. */
  lemma {:induction false} LoopReason<S, E>(ag: AgentImpl<S>, env: EnvImpl<E>, a: S, e: E, state: State,
      step: int, maxSteps: int, render: bool, acc: EpisodeStats)
    requires Running(step, acc)
    ensures var r := Loop(ag, env, a, e, state, step, maxSteps, render, acc);
      && (r.stats.terminated ==> |r.infos| > 0 && r.stats.reason == r.infos[|r.infos| - 1])
      && (!r.stats.terminated ==> r.stats.reason == "")
    decreases maxSteps - step
  {
    var r := Loop(ag, env, a, e, state, step, maxSteps, render, acc);
    if step < maxSteps {
      var o := StepOnce(ag, env, a, e, state, step, render, acc);
      if !o.result.done {
        var rest := Loop(ag, env, o.agent, o.env, o.result.next, step + 1, maxSteps, render, o.acc);
        LoopReason(ag, env, o.agent, o.env, o.result.next, step + 1, maxSteps, render, o.acc);
        assert r.infos == [o.result.info] + rest.infos && r.stats.terminated == rest.stats.terminated && r.stats.reason == rest.stats.reason;
        LastOfCons(o.result.info, rest.infos);
      } else {
        assert r.infos == [o.result.info] && r.stats.terminated && r.stats.reason == o.result.info;
      }
    }
  }

  /** The loop adds the rewards of its steps to the running total. */
  lemma {:induction false} LoopRewards<S, E>(ag: AgentImpl<S>, env: EnvImpl<E>, a: S, e: E, state: State,
      step: int, maxSteps: int, render: bool, acc: EpisodeStats)
    requires Running(step, acc)
    ensures var r := Loop(ag, env, a, e, state, step, maxSteps, render, acc);
      r.stats.totalReward == acc.totalReward + RewardSum(r.trajectory)
    decreases maxSteps - step
  {
    var r := Loop(ag, env, a, e, state, step, maxSteps, render, acc);
    if step < maxSteps {
      var o := StepOnce(ag, env, a, e, state, step, render, acc);
      if !o.result.done {
        var rest := Loop(ag, env, o.agent, o.env, o.result.next, step + 1, maxSteps, render, o.acc);
        LoopRewards(ag, env, o.agent, o.env, o.result.next, step + 1, maxSteps, render, o.acc);
        assert r.trajectory == [o.x] + rest.trajectory && r.stats.totalReward == rest.stats.totalReward;
        assert RewardSum(r.trajectory) == o.x.reward + RewardSum(rest.trajectory) by {
          assert r.trajectory[1..] == rest.trajectory;
        }
      } else {
        assert r.trajectory == [o.x] && r.stats.totalReward == acc.totalReward + o.x.reward;
        assert RewardSum([o.x]) == o.x.reward by { assert [o.x][1..] == []; }
      }
    }
  }

  /** Each experience starts at the observation the previous one ended
      with, the first at the loop's starting observation. */
  lemma {:induction false} LoopChains<S, E>(ag: AgentImpl<S>, env: EnvImpl<E>, a: S, e: E, state: State,
      step: int, maxSteps: int, render: bool, acc: EpisodeStats)
    requires Running(step, acc)
    ensures var r := Loop(ag, env, a, e, state, step, maxSteps, render, acc);
      Chained(state, r.trajectory)
    decreases maxSteps - step
  {
    var r := Loop(ag, env, a, e, state, step, maxSteps, render, acc);
    if step < maxSteps {
      var o := StepOnce(ag, env, a, e, state, step, render, acc);
      if !o.result.done {
        var rest := Loop(ag, env, o.agent, o.env, o.result.next, step + 1, maxSteps, render, o.acc);
        LoopChains(ag, env, o.agent, o.env, o.result.next, step + 1, maxSteps, render, o.acc);
        assert r.trajectory == [o.x] + rest.trajectory;
        ChainedCons(state, o.x, rest.trajectory);
      } else {
        assert r.trajectory == [o.x];
      }
    }
  }

  /** An experience from `start` to the start of a chained trajectory
      extends it. */
  lemma ChainedCons(start: State, x: Experience, t: seq<Experience>)
    requires x.state == start && Chained(x.next, t)
    ensures Chained(start, [x] + t)
  {
    var u := [x] + t;
    forall i | 0 < i < |u|
      ensures u[i].state == u[i - 1].next
    {
      assert u[i] == t[i - 1];
      if i > 1 { assert u[i - 1] == t[i - 2]; }
    }
  }

  /** Each step makes the calls of one step, in order, and nothing else. */
  lemma {:induction false} LoopCalls<S, E>(ag: AgentImpl<S>, env: EnvImpl<E>, a: S, e: E, state: State,
                                           step: int, maxSteps: int, render: bool, acc: EpisodeStats)
    requires Running(step, acc)
    ensures var r := Loop(ag, env, a, e, state, step, maxSteps, render, acc);
      r.calls == Repeat(StepCalls(render), |r.trajectory|)
    decreases maxSteps - step
  {
    var r := Loop(ag, env, a, e, state, step, maxSteps, render, acc);
    if step < maxSteps {
      var o := StepOnce(ag, env, a, e, state, step, render, acc);
      if !o.result.done {
        var rest := Loop(ag, env, o.agent, o.env, o.result.next, step + 1, maxSteps, render, o.acc);
        LoopCalls(ag, env, o.agent, o.env, o.result.next, step + 1, maxSteps, render, o.acc);
        assert r.trajectory == [o.x] + rest.trajectory && r.calls == StepCalls(render) + rest.calls;
      } else {
        assert r.trajectory == [o.x] && r.calls == StepCalls(render);
        assert Repeat(StepCalls(render), 1) == StepCalls(render) + [];
      }
    }
  }

  /** `runEpisode(max_steps, render)`: reset the environment, loop, then
      collect the agent's statistics. */
  function RunEpisode<S, E>(ag: AgentImpl<S>, env: EnvImpl<E>, a: S, e: E, maxSteps: int, render: bool): (r: Run<S, E>)
    ensures |r.infos| == |r.trajectory|
    ensures r.stats.agentStats == ag.stats(r.agent)
  {
    var started := env.reset(e);
    var e1, s0 := started.0, started.1;
    var l := Loop(ag, env, a, e1, s0, 0, maxSteps, render, Initial);
    l.(stats := l.stats.(agentStats := ag.stats(l.agent)), calls := [EnvReset] + l.calls + [GetStats])
  }

  /** What an episode reports: at most `max(max_steps, 0)` steps; the total
      reward is the sum of the steps' rewards; the experiences are chained
      from the reset observation; the episode ends at the first `done`
      step, whose info is the reason, or else at the cap with an empty
      reason; and the calls are the reset, one block per step, and the
      statistics. */
  lemma EpisodeOutcome<S, E>(ag: AgentImpl<S>, env: EnvImpl<E>, a: S, e: E, maxSteps: int, render: bool)
    ensures var r := RunEpisode(ag, env, a, e, maxSteps, render);
      var n := |r.trajectory|;
      && r.stats.steps == n && n <= Max(maxSteps, 0)
      && r.stats.totalReward == RewardSum(r.trajectory)
      && Chained(env.reset(e).1, r.trajectory)
      && DoneOnlyAtEnd(r.trajectory)
      && (r.stats.terminated <==> n > 0 && r.trajectory[n - 1].done)
      && (r.stats.terminated ==> r.stats.reason == r.infos[n - 1])
      && (!r.stats.terminated ==> n == Max(maxSteps, 0) && r.stats.reason == "")
      && r.calls == [EnvReset] + Repeat(StepCalls(render), n) + [GetStats]
  {
    var started := env.reset(e);
    var e1, s0 := started.0, started.1;
    LoopCounts(ag, env, a, e1, s0, 0, maxSteps, render, Initial);
    LoopEnds(ag, env, a, e1, s0, 0, maxSteps, render, Initial);
    LoopTerminates(ag, env, a, e1, s0, 0, maxSteps, render, Initial);
    LoopReason(ag, env, a, e1, s0, 0, maxSteps, render, Initial);
    LoopRewards(ag, env, a, e1, s0, 0, maxSteps, render, Initial);
    LoopChains(ag, env, a, e1, s0, 0, maxSteps, render, Initial);
    LoopCalls(ag, env, a, e1, s0, 0, maxSteps, render, Initial);
  }

  /** With a non-positive cap nothing happens between the reset and the
      statistics: zero steps, zero reward, not terminated, no reason. */
  lemma NoStepsWithoutCap<S, E>(ag: AgentImpl<S>, env: EnvImpl<E>, a: S, e: E, maxSteps: int, render: bool)
    requires maxSteps <= 0
    ensures var r := RunEpisode(ag, env, a, e, maxSteps, render);
      && r.agent == a && r.trajectory == []
      && r.stats == EpisodeStats(0, 0, 0.0, false, "", ag.stats(a))
      && r.calls == [EnvReset, GetStats]
  {
  }

  lemma {:induction false} CountAppend(a: seq<Call>, b: seq<Call>, c: Call)
    ensures Count(a + b, c) == Count(a, c) + Count(b, c)
    decreases |a|
  {
    if a == [] {
      assert a + b == b;
    } else {
      assert (a + b)[0] == a[0] && (a + b)[1..] == a[1..] + b;
      CountAppend(a[1..], b, c);
    }
  }

  lemma {:induction false} CountRepeat(block: seq<Call>, n: nat, c: Call)
    ensures Count(Repeat(block, n), c) == n * Count(block, c)
  {
    if n > 0 {
      CountAppend(block, Repeat(block, n - 1), c);
      CountRepeat(block, n - 1, c);
      assert n * Count(block, c) == Count(block, c) + (n - 1) * Count(block, c);
    }
  }

  /** The calls of one step, counted by kind. */
  lemma StepCallsCount(render: bool)
    ensures Count(StepCalls(render), Act) == 1 && Count(StepCalls(render), EnvStep) == 1
    ensures Count(StepCalls(render), Learn) == 1 && Count(StepCalls(render), Render) == (if render then 1 else 0)
    ensures Count(StepCalls(render), EnvReset) == 0 && Count(StepCalls(render), GetStats) == 0
  {
    var tail: seq<Call> := [Act, EnvStep, Learn];
    assert tail[1..] == [EnvStep, Learn] && tail[1..][1..] == [Learn] && tail[1..][1..][1..] == [];
    if render {
      assert StepCalls(render)[1..] == tail;
    } else {
      assert StepCalls(render) == tail;
    }
  }

  /** The calls of an episode of `n` steps, counted by kind. */
  lemma EpisodeCallsCount(render: bool, n: nat, c: Call)
    ensures Count([EnvReset] + Repeat(StepCalls(render), n) + [GetStats], c)
         == (if c == EnvReset || c == GetStats then 1 else 0) + n * Count(StepCalls(render), c)
  {
    var steps := Repeat(StepCalls(render), n);
    CountAppend([EnvReset] + steps, [GetStats], c);
    CountAppend([EnvReset], steps, c);
    CountRepeat(StepCalls(render), n, c);
    assert [EnvReset][1..] == [] && [GetStats][1..] == [];
  }

  /** `act`, `step` and `learn` are each called once per step, `render`
      once per step when rendering and never otherwise, and the
      environment is reset once. */
  lemma CallCounts<S, E>(ag: AgentImpl<S>, env: EnvImpl<E>, a: S, e: E, maxSteps: int, render: bool)
    ensures var r := RunEpisode(ag, env, a, e, maxSteps, render);
      && Count(r.calls, Act) == r.stats.steps
      && Count(r.calls, EnvStep) == r.stats.steps
      && Count(r.calls, Learn) == r.stats.steps
      && Count(r.calls, Render) == (if render then r.stats.steps else 0)
      && Count(r.calls, EnvReset) == 1 && Count(r.calls, GetStats) == 1
  {
    var r := RunEpisode(ag, env, a, e, maxSteps, render);
    var n := r.stats.steps;
    EpisodeOutcome(ag, env, a, e, maxSteps, render);
    StepCallsCount(render);
    EpisodeCallsCount(render, n, Act);
    EpisodeCallsCount(render, n, EnvStep);
    EpisodeCallsCount(render, n, Learn);
    EpisodeCallsCount(render, n, Render);
    EpisodeCallsCount(render, n, EnvReset);
    EpisodeCallsCount(render, n, GetStats);
  }

  /** When `act` does not change the agent, the agent after the loop is
      the default batch `learn` applied to the loop's trajectory. */
  lemma {:induction false} LoopLearnsTrajectory<S, E>(ag: AgentImpl<S>, env: EnvImpl<E>, a: S, e: E, state: State,
                                                       step: int, maxSteps: int, render: bool, acc: EpisodeStats)
    requires Running(step, acc)
    requires forall s, o :: ag.act(s, o).0 == s
    ensures var r := Loop(ag, env, a, e, state, step, maxSteps, render, acc);
      r.agent == BatchLearn(ag.learn, a, r.trajectory)
    decreases maxSteps - step
  {
    var r := Loop(ag, env, a, e, state, step, maxSteps, render, acc);
    if step < maxSteps {
      var o := StepOnce(ag, env, a, e, state, step, render, acc);
      if o.result.done {
        assert r.agent == o.agent && r.trajectory == [o.x];
      } else {
        var rest := Loop(ag, env, o.agent, o.env, o.result.next, step + 1, maxSteps, render, o.acc);
        assert r.agent == rest.agent && r.trajectory == [o.x] + rest.trajectory;
        LoopLearnsTrajectory(ag, env, o.agent, o.env, o.result.next, step + 1, maxSteps, render, o.acc);
        assert o.agent == ag.learn(a, o.x);
        BatchLearnCons(ag.learn, a, o.x, rest.trajectory);
      }
    } else {
      assert r.agent == a && r.trajectory == [];
    }
  }

  /** An episode of an agent whose `act` keeps its state leaves the agent
      as the default batch `learn` on the episode's experiences would. */
  lemma EpisodeLearnsTrajectory<S, E>(ag: AgentImpl<S>, env: EnvImpl<E>, a: S, e: E, maxSteps: int, render: bool)
    requires forall s, o :: ag.act(s, o).0 == s
    ensures var r := RunEpisode(ag, env, a, e, maxSteps, render);
      r.agent == BatchLearn(ag.learn, a, r.trajectory)
  {
    var started := env.reset(e);
    var e1, s0 := started.0, started.1;
    LoopLearnsTrajectory(ag, env, a, e1, s0, 0, maxSteps, render, Initial);
  }
}

=== FILE: experiment.dfy ===
/** `ExperimentRunner::runExperiment` and `runExperimentFromConfig`: the
    episodes of an experiment with their numbering, render and log cadence,
    the agent reset between episodes, and what is produced at the end. */
module Experiment {
  import opened CInt
  import opened Results
  import opened Agents
  import opened Episode
  import opened ExperimentStats
  import ConfigStore
  import ConfigText

  /** `ExperimentConfig`. */
  datatype ExperimentConfig = ExperimentConfig(
    numEpisodes: int32, maxStepsPerEpisode: int32, render: bool, renderFrequency: int32,
    logFrequency: int32, logFile: string, saveModel: bool, modelSavePath: string)

  /** The member initialisers of `ExperimentConfig`. */
  const Defaults: ExperimentConfig :=
    ExperimentConfig(1000, 1000, false, 10, 100, "experiment.log", false, "model.bin")

  /** Why an experiment has no defined outcome: `reserve` of a negative
      count throws `length_error`; a zero frequency makes `%` divide by
      zero. */
  datatype ExperimentError = LengthError | DivisionByZero

  /** The frequencies the first episode divides by are non-zero. */
  predicate Frequencies(cfg: ExperimentConfig)
  {
    cfg.logFrequency != 0 && (cfg.render ==> cfg.renderFrequency != 0)
  }

  /** Episode `i` (from 0) is drawn: `render && i % render_frequency == 0`,
      the remainder only taken when rendering. A zero frequency never gets
      here: `RunExperiment` turns it into `DivisionByZero` first. */
  predicate Renders(cfg: ExperimentConfig, i: int)
  {
    cfg.render && cfg.renderFrequency != 0 && CRem(i, cfg.renderFrequency as int) == 0
  }

  /** Episode `i` (from 0) is reported: `(i + 1) % log_frequency == 0`; as
      for `Renders`, a zero frequency is an error before any episode. */
  predicate Reports(cfg: ExperimentConfig, i: int)
  {
    cfg.logFrequency != 0 && CRem(i + 1, cfg.logFrequency as int) == 0
  }

  /** The progress report printed after an episode: the window of the
      moving average and its value. */
  datatype Report = Report(window: int, movingAverage: real)

  /** The episodes from `i` on: the agent and environment afterwards, the
      statistics of all episodes so far, and for each episode run here
      whether it was drawn and what was reported; the calls made. */
  datatype Episodes<S, E> = Episodes(
    agent: S, env: E, all: seq<EpisodeStats>, rendered: seq<bool>, reports: seq<Option<Report>>, calls: seq<Call>)

  /** The `for` loop of `runExperiment` from episode `i` on, with `before`
      the statistics of the episodes before it. */
  function RunEpisodes<S, E>(ag: AgentImpl<S>, env: EnvImpl<E>, cfg: ExperimentConfig, a: S, e: E,
                             i: int, before: seq<EpisodeStats>): (r: Episodes<S, E>)
    requires 0 <= i <= cfg.numEpisodes as int && |before| == i
    ensures |r.all| == cfg.numEpisodes as int
    ensures |r.rendered| == |r.reports| == cfg.numEpisodes as int - i
    decreases cfg.numEpisodes as int - i
  {
    if i == cfg.numEpisodes as int then Episodes(a, e, before, [], [], [])
    else
      var render := Renders(cfg, i);
      var ep := RunEpisode(ag, env, a, e, cfg.maxStepsPerEpisode as int, render);
      var stats := ep.stats.(episode := i + 1);
      var all := before + [stats];
      var window := Min(100, i + 1);
      var report := if Reports(cfg, i) then Some(Report(window, MovingAverage(all, window))) else None;
      var rest := RunEpisodes(ag, env, cfg, ag.reset(ep.agent), ep.env, i + 1, all);
      Episodes(rest.agent, rest.env, rest.all, [render] + rest.rendered, [report] + rest.reports,
               ep.calls + [AgentReset] + rest.calls)
  }

  /** The run keeps the earlier statistics and numbers the new episodes
      `i + 1` to `num_episodes`. */
  lemma {:induction false} EpisodesNumbered<S, E>(ag: AgentImpl<S>, env: EnvImpl<E>, cfg: ExperimentConfig, a: S, e: E,
                                                   i: int, before: seq<EpisodeStats>)
    requires 0 <= i <= cfg.numEpisodes as int && |before| == i
    ensures var r := RunEpisodes(ag, env, cfg, a, e, i, before);
      && r.all[..i] == before
      && forall j :: i <= j < |r.all| ==> r.all[j].episode == j + 1
    decreases cfg.numEpisodes as int - i
  {
    var r := RunEpisodes(ag, env, cfg, a, e, i, before);
    if i < cfg.numEpisodes as int {
      var render := Renders(cfg, i);
      var ep := RunEpisode(ag, env, a, e, cfg.maxStepsPerEpisode as int, render);
      var all := before + [ep.stats.(episode := i + 1)];
      EpisodesNumbered(ag, env, cfg, ag.reset(ep.agent), ep.env, i + 1, all);
      assert r.all == RunEpisodes(ag, env, cfg, ag.reset(ep.agent), ep.env, i + 1, all).all;
      assert r.all[..i + 1] == all;
      assert r.all[..i] == all[..i];
      forall j | i <= j < |r.all|
        ensures r.all[j].episode == j + 1
      {
        if j == i {
          assert r.all[i] == r.all[..i + 1][i] == all[i];
        }
      }
    }
  }

  /** `rendered[j]` is the render decision for episode `i + j`. */
  predicate DrawnFrom(cfg: ExperimentConfig, i: int, rendered: seq<bool>)
  {
    forall j :: 0 <= j < |rendered| ==> rendered[j] == Renders(cfg, i + j)
  }

  /** Episode `i + j` was drawn exactly when the render test holds for
      it. */
  lemma {:induction false} EpisodesRendered<S, E>(ag: AgentImpl<S>, env: EnvImpl<E>, cfg: ExperimentConfig, a: S, e: E,
                                                  i: int, before: seq<EpisodeStats>)
    requires 0 <= i <= cfg.numEpisodes as int && |before| == i
    ensures DrawnFrom(cfg, i, RunEpisodes(ag, env, cfg, a, e, i, before).rendered)
    decreases cfg.numEpisodes as int - i
  {
    var r := RunEpisodes(ag, env, cfg, a, e, i, before);
    if i < cfg.numEpisodes as int {
      var render := Renders(cfg, i);
      var ep := RunEpisode(ag, env, a, e, cfg.maxStepsPerEpisode as int, render);
      var all := before + [ep.stats.(episode := i + 1)];
      var rest := RunEpisodes(ag, env, cfg, ag.reset(ep.agent), ep.env, i + 1, all);
      EpisodesRendered(ag, env, cfg, ag.reset(ep.agent), ep.env, i + 1, all);
      assert r.rendered == [render] + rest.rendered;
      forall j | 0 <= j < |r.rendered|
        ensures r.rendered[j] == Renders(cfg, i + j)
      {
        if j > 0 {
          var k := j - 1;
          assert 0 <= k < |rest.rendered|;
          assert r.rendered[j] == rest.rendered[k];
          assert rest.rendered[k] == Renders(cfg, i + 1 + k);
          assert i + 1 + k == i + j;
        }
      }
    }
  }

  /** `reports[j]` is the report after episode `i + j`: present exactly
      when the log test holds, with the window `min(100, episodes so far)`
      and the moving average over the statistics `all` of the episodes so
      far. */
  predicate ReportedFrom(cfg: ExperimentConfig, i: int, all: seq<EpisodeStats>, reports: seq<Option<Report>>)
  {
    forall j :: 0 <= j < |reports| ==>
      && (reports[j].Some? <==> Reports(cfg, i + j))
      && (reports[j].Some? ==>
            && 0 <= i + j + 1 <= |all|
            && reports[j].value == Report(Min(100, i + j + 1), MovingAverage(all[..i + j + 1], Min(100, i + j + 1))))
  }

  /** Episode `i + j` was reported exactly when the log test holds for it;
      a report carries the window `min(100, episodes so far)` and the
      moving average over the statistics so far. */
  lemma {:induction false} EpisodesReported<S, E>(ag: AgentImpl<S>, env: EnvImpl<E>, cfg: ExperimentConfig, a: S, e: E,
                                                  i: int, before: seq<EpisodeStats>)
    requires 0 <= i <= cfg.numEpisodes as int && |before| == i
    ensures var r := RunEpisodes(ag, env, cfg, a, e, i, before);
      ReportedFrom(cfg, i, r.all, r.reports)
    decreases cfg.numEpisodes as int - i
  {
    var r := RunEpisodes(ag, env, cfg, a, e, i, before);
    if i < cfg.numEpisodes as int {
      var render := Renders(cfg, i);
      var ep := RunEpisode(ag, env, a, e, cfg.maxStepsPerEpisode as int, render);
      var all := before + [ep.stats.(episode := i + 1)];
      var rest := RunEpisodes(ag, env, cfg, ag.reset(ep.agent), ep.env, i + 1, all);
      EpisodesReported(ag, env, cfg, ag.reset(ep.agent), ep.env, i + 1, all);
      EpisodesNumbered(ag, env, cfg, ag.reset(ep.agent), ep.env, i + 1, all);
      assert r.all == rest.all && r.reports == [r.reports[0]] + rest.reports;
      assert r.all[..i + 1] == all;
      ReportedCons(cfg, i, r.all, r.reports[0], rest.reports);
    }
  }

  /** The reports from episode `i` on are the one after episode `i`
      followed by those from episode `i + 1` on. */
  lemma ReportedCons(cfg: ExperimentConfig, i: int, all: seq<EpisodeStats>, first: Option<Report>,
                     rest: seq<Option<Report>>)
    requires ReportedFrom(cfg, i + 1, all, rest) && ReportedFrom(cfg, i, all, [first])
    ensures ReportedFrom(cfg, i, all, [first] + rest)
  {
    var reports := [first] + rest;
    forall j | 1 <= j < |reports|
      ensures reports[j] == rest[j - 1] && i + j == (i + 1) + (j - 1)
    {
    }
  }

  /** The state after `reset` is applied `n` times. */
  function ResetTimes<S>(reset: S -> S, s: S, n: nat): S
    decreases n
  {
    if n == 0 then s else ResetTimes(reset, reset(s), n - 1)
  }

  /** The agent a run leaves behind. After an episode the agent is reset
      before the next one starts, so a run that played an episode leaves an
      agent that `reset` returned; and an agent whose `act` keeps its state
      and whose `learn` does nothing ends the run reset once per episode
      played. */
  lemma {:induction false} EpisodesAgent<S(!new), E>(ag: AgentImpl<S>, env: EnvImpl<E>, cfg: ExperimentConfig, a: S, e: E,
                                                i: int, before: seq<EpisodeStats>)
    requires 0 <= i <= cfg.numEpisodes as int && |before| == i
    ensures var r := RunEpisodes(ag, env, cfg, a, e, i, before);
      && (i < cfg.numEpisodes as int ==> exists s :: r.agent == ag.reset(s))
      && (((forall s, o :: ag.act(s, o).0 == s) && (forall s, x :: ag.learn(s, x) == s)) ==> r.agent == ResetTimes(ag.reset, a, cfg.numEpisodes as int - i))
    decreases cfg.numEpisodes as int - i
  {
    if i < cfg.numEpisodes as int {
      var render := Renders(cfg, i);
      var ep := RunEpisode(ag, env, a, e, cfg.maxStepsPerEpisode as int, render);
      var all := before + [ep.stats.(episode := i + 1)];
      var rest := RunEpisodes(ag, env, cfg, ag.reset(ep.agent), ep.env, i + 1, all);
      EpisodesAgent(ag, env, cfg, ag.reset(ep.agent), ep.env, i + 1, all);
      var r := RunEpisodes(ag, env, cfg, a, e, i, before);
      assert r.agent == rest.agent;
      if i + 1 == cfg.numEpisodes as int {
        assert r.agent == ag.reset(ep.agent);
      } else {
        var s0 :| rest.agent == ag.reset(s0);
        assert r.agent == ag.reset(s0);
      }
      if (forall s, o :: ag.act(s, o).0 == s) && (forall s, x :: ag.learn(s, x) == s) {
        EpisodeLearnsTrajectory(ag, env, a, e, cfg.maxStepsPerEpisode as int, render);
        BatchLearnIgnored(ag.learn, a, ep.trajectory);
      }
    }
  }

  /** The calls on the agent's `reset` and the environment's `reset`: one
      of each per episode. */
  lemma {:induction false} EpisodesResets<S, E>(ag: AgentImpl<S>, env: EnvImpl<E>, cfg: ExperimentConfig, a: S, e: E,
                                                 i: int, before: seq<EpisodeStats>)
    requires 0 <= i <= cfg.numEpisodes as int && |before| == i
    ensures var r := RunEpisodes(ag, env, cfg, a, e, i, before);
      && Count(r.calls, AgentReset) == cfg.numEpisodes as int - i
      && Count(r.calls, EnvReset) == cfg.numEpisodes as int - i
    decreases cfg.numEpisodes as int - i
  {
    if i < cfg.numEpisodes as int {
      var render := Renders(cfg, i);
      var ep := RunEpisode(ag, env, a, e, cfg.maxStepsPerEpisode as int, render);
      var all := before + [ep.stats.(episode := i + 1)];
      var rest := RunEpisodes(ag, env, cfg, ag.reset(ep.agent), ep.env, i + 1, all);
      EpisodesResets(ag, env, cfg, ag.reset(ep.agent), ep.env, i + 1, all);
      EpisodeCallCountsResets(ag, env, a, e, cfg.maxStepsPerEpisode as int, render);
      CountAppend(ep.calls + [AgentReset], rest.calls, AgentReset);
      CountAppend(ep.calls, [AgentReset], AgentReset);
      CountAppend(ep.calls + [AgentReset], rest.calls, EnvReset);
      CountAppend(ep.calls, [AgentReset], EnvReset);
      assert [AgentReset][1..] == [];
    }
  }

  /** One episode resets the environment once and never the agent. */
  lemma EpisodeCallCountsResets<S, E>(ag: AgentImpl<S>, env: EnvImpl<E>, a: S, e: E, maxSteps: int, render: bool)
    ensures var r := RunEpisode(ag, env, a, e, maxSteps, render);
      Count(r.calls, EnvReset) == 1 && Count(r.calls, AgentReset) == 0
  {
    var r := RunEpisode(ag, env, a, e, maxSteps, render);
    EpisodeOutcome(ag, env, a, e, maxSteps, render);
    CallCounts(ag, env, a, e, maxSteps, render);
    StepCallsCount(render);
    EpisodeCallsCount(render, r.stats.steps, AgentReset);
    assert Count(StepCalls(render), AgentReset) == 0 by {
      var tail: seq<Call> := [Act, EnvStep, Learn];
      assert tail[1..] == [EnvStep, Learn] && tail[1..][1..] == [Learn] && tail[1..][1..][1..] == [];
      if render { assert StepCalls(render)[1..] == tail; } else { assert StepCalls(render) == tail; }
    }
  }

  /** Every episode of the run keeps to the step cap, and runs to it when
      it does not terminate. */
  lemma {:induction false} EpisodesCapped<S, E>(ag: AgentImpl<S>, env: EnvImpl<E>, cfg: ExperimentConfig, a: S, e: E,
                                                 i: int, before: seq<EpisodeStats>)
    requires 0 <= i <= cfg.numEpisodes as int && |before| == i
    ensures var r := RunEpisodes(ag, env, cfg, a, e, i, before);
      forall j :: i <= j < |r.all| ==>
        && 0 <= r.all[j].steps <= Max(cfg.maxStepsPerEpisode as int, 0)
        && (!r.all[j].terminated ==> r.all[j].steps == Max(cfg.maxStepsPerEpisode as int, 0))
    decreases cfg.numEpisodes as int - i
  {
    if i < cfg.numEpisodes as int {
      var r := RunEpisodes(ag, env, cfg, a, e, i, before);
      var render := Renders(cfg, i);
      var ep := RunEpisode(ag, env, a, e, cfg.maxStepsPerEpisode as int, render);
      var all := before + [ep.stats.(episode := i + 1)];
      EpisodeOutcome(ag, env, a, e, cfg.maxStepsPerEpisode as int, render);
      EpisodesCapped(ag, env, cfg, ag.reset(ep.agent), ep.env, i + 1, all);
      EpisodesNumbered(ag, env, cfg, ag.reset(ep.agent), ep.env, i + 1, all);
      assert r.all[i] == all[i];
    }
  }

  /** What an experiment produces: the agent and environment afterwards,
      one statistics record per episode, the render and report decisions,
      the summary, the log text when a log file is named, whether the
      model was saved, and the calls made. */
  datatype Outcome<S, E> = Outcome(
    agent: S, env: E, stats: seq<EpisodeStats>, rendered: seq<bool>, reports: seq<Option<Report>>,
    summary: Option<Summary>, log: Option<string>, saved: bool, calls: seq<Call>)

  /** `runExperiment(config)`, with `fmt` the stream formatting of the
      reward column. */
  function RunExperiment<S, E>(ag: AgentImpl<S>, env: EnvImpl<E>, cfg: ExperimentConfig, a: S, e: E,
                               fmt: real -> string): (r: Result<Outcome<S, E>, ExperimentError>)
    ensures r.Err? <==> cfg.numEpisodes < 0 || (cfg.numEpisodes > 0 && !Frequencies(cfg))
    ensures r.Err? ==> (r.error == LengthError <==> cfg.numEpisodes < 0)
    ensures r.Ok? ==> |r.value.stats| == cfg.numEpisodes as int
    ensures r.Ok? ==> (r.value.summary.None? <==> cfg.numEpisodes == 0)
    ensures r.Ok? ==> (r.value.log.Some? <==> cfg.logFile != "")
    ensures r.Ok? ==> (r.value.saved <==> cfg.saveModel && cfg.modelSavePath != "")
  {
    if cfg.numEpisodes < 0 then Err(LengthError)
    else if cfg.numEpisodes > 0 && !Frequencies(cfg) then Err(DivisionByZero)
    else
      var run := RunEpisodes(ag, env, cfg, a, e, 0, []);
      var save := cfg.saveModel && cfg.modelSavePath != "";
      Ok(Outcome(
        if save then ag.save(run.agent, cfg.modelSavePath) else run.agent,
        run.env, run.all, run.rendered, run.reports, Summarize(run.all),
        if cfg.logFile != "" then Some(LogText(run.all, fmt)) else None,
        save, run.calls + (if save then [SaveModel] else [])))
  }

  /** A successful experiment numbers its episodes 1 to `num_episodes`,
      keeps every episode to the step cap, and logs exactly the episodes'
      statistics. */
  lemma ExperimentEpisodes<S, E>(ag: AgentImpl<S>, env: EnvImpl<E>, cfg: ExperimentConfig, a: S, e: E, fmt: real -> string)
    requires RunExperiment(ag, env, cfg, a, e, fmt).Ok?
    ensures var o := RunExperiment(ag, env, cfg, a, e, fmt).value;
      && (forall j :: 0 <= j < |o.stats| ==> o.stats[j].episode == j + 1)
      && (forall j :: 0 <= j < |o.stats| ==> 0 <= o.stats[j].steps <= Max(cfg.maxStepsPerEpisode as int, 0))
      && (o.log.Some? ==> o.log.value == LogText(o.stats, fmt))
  {
    EpisodesNumbered(ag, env, cfg, a, e, 0, []);
    EpisodesCapped(ag, env, cfg, a, e, 0, []);
  }

  /** A successful experiment with episodes reports mean steps between 0
      and the step cap. */
  lemma ExperimentAverageSteps<S, E>(ag: AgentImpl<S>, env: EnvImpl<E>, cfg: ExperimentConfig, a: S, e: E, fmt: real -> string)
    requires RunExperiment(ag, env, cfg, a, e, fmt).Ok? && cfg.numEpisodes > 0
    ensures var o := RunExperiment(ag, env, cfg, a, e, fmt).value;
      o.summary.Some? && 0.0 <= o.summary.value.averageSteps <= Max(cfg.maxStepsPerEpisode as int, 0) as real
  {
    ExperimentEpisodes(ag, env, cfg, a, e, fmt);
    var o := RunExperiment(ag, env, cfg, a, e, fmt).value;
    AverageStepsBounds(o.stats, Max(cfg.maxStepsPerEpisode as int, 0));
  }

  /** A successful experiment draws and reports on the configured
      cadence, with the moving average over the episodes so far. */
  lemma ExperimentCadence<S, E>(ag: AgentImpl<S>, env: EnvImpl<E>, cfg: ExperimentConfig, a: S, e: E, fmt: real -> string)
    requires RunExperiment(ag, env, cfg, a, e, fmt).Ok?
    ensures var o := RunExperiment(ag, env, cfg, a, e, fmt).value;
      DrawnFrom(cfg, 0, o.rendered) && ReportedFrom(cfg, 0, o.stats, o.reports)
  {
    EpisodesRendered(ag, env, cfg, a, e, 0, []);
    EpisodesReported(ag, env, cfg, a, e, 0, []);
  }

  /** A successful experiment resets the environment at the start of every
      episode and the agent after every episode; an agent whose `act` keeps its
      state and whose `learn` does nothing is handed to `saveModel`, or returned, reset once per
      episode. */
  lemma ExperimentResets<S(!new), E>(ag: AgentImpl<S>, env: EnvImpl<E>, cfg: ExperimentConfig, a: S, e: E, fmt: real -> string)
    requires RunExperiment(ag, env, cfg, a, e, fmt).Ok?
    ensures var o := RunExperiment(ag, env, cfg, a, e, fmt).value;
      && Count(o.calls, AgentReset) == |o.stats| && Count(o.calls, EnvReset) == |o.stats|
      && (!o.saved && |o.stats| > 0 ==> exists s :: o.agent == ag.reset(s))
      && (((forall s, o :: ag.act(s, o).0 == s) && (forall s, x :: ag.learn(s, x) == s)) ==>
            var final := ResetTimes(ag.reset, a, |o.stats|);
            o.agent == if o.saved then ag.save(final, cfg.modelSavePath) else final)
  {
    var run := RunEpisodes(ag, env, cfg, a, e, 0, []);
    EpisodesResets(ag, env, cfg, a, e, 0, []);
    var save := cfg.saveModel && cfg.modelSavePath != "";
    var tail: seq<Call> := if save then [SaveModel] else [];
    CountAppend(run.calls, tail, AgentReset);
    CountAppend(run.calls, tail, EnvReset);
    if save { assert tail[1..] == []; }
    EpisodesAgent(ag, env, cfg, a, e, 0, []);
  }

  /** The configuration `runExperimentFromConfig` reads: each key of the
      right kind overrides its default, anything else keeps it. */
  function FromConfig(c: ConfigStore.Config): (cfg: ExperimentConfig)
    ensures ReadsInt(c, "num_episodes", Defaults.numEpisodes, cfg.numEpisodes)
    ensures ReadsInt(c, "max_steps_per_episode", Defaults.maxStepsPerEpisode, cfg.maxStepsPerEpisode)
    ensures ReadsBool(c, "render", Defaults.render, cfg.render)
    ensures ReadsInt(c, "render_frequency", Defaults.renderFrequency, cfg.renderFrequency)
    ensures ReadsInt(c, "log_frequency", Defaults.logFrequency, cfg.logFrequency)
    ensures ReadsString(c, "log_file", Defaults.logFile, cfg.logFile)
    ensures ReadsBool(c, "save_model", Defaults.saveModel, cfg.saveModel)
    ensures ReadsString(c, "model_save_path", Defaults.modelSavePath, cfg.modelSavePath)
  {
    ExperimentConfig(
      ConfigStore.GetInt(c, "num_episodes", 1000),
      ConfigStore.GetInt(c, "max_steps_per_episode", 1000),
      ConfigStore.GetBool(c, "render", false),
      ConfigStore.GetInt(c, "render_frequency", 10),
      ConfigStore.GetInt(c, "log_frequency", 100),
      ConfigStore.GetString(c, "log_file", "experiment.log"),
      ConfigStore.GetBool(c, "save_model", false),
      ConfigStore.GetString(c, "model_save_path", "model.bin"))
  }

  /** `field` is the integer stored under `key`, or `default` when there is
      none. */
  predicate ReadsInt(c: ConfigStore.Config, key: string, default: int32, field: int32)
  {
    if key in c.values && c.values[key].IntV? then field == c.values[key].i else field == default
  }

  predicate ReadsBool(c: ConfigStore.Config, key: string, default: bool, field: bool)
  {
    if key in c.values && c.values[key].BoolV? then field == c.values[key].b else field == default
  }

  predicate ReadsString(c: ConfigStore.Config, key: string, default: string, field: string)
  {
    if key in c.values && c.values[key].StrV? then field == c.values[key].s else field == default
  }

  /** The defaults `runExperimentFromConfig` passes are the member
      initialisers of `ExperimentConfig`: an empty file gives them all. */
  lemma EmptyConfigGivesDefaults()
    ensures FromConfig(ConfigStore.Empty()) == Defaults
  {
  }

  /** `runExperimentFromConfig`: the configuration text is parsed, and an
      unparseable text has no defined outcome; otherwise the experiment
      runs on what was read. */
  function RunFromText<S, E>(ag: AgentImpl<S>, env: EnvImpl<E>, text: string, a: S, e: E,
                             fmt: real -> string): (r: Option<Result<Outcome<S, E>, ExperimentError>>)
    ensures r.None? <==> ConfigText.Parse(text).Err?
    ensures r.Some? ==> r.value == RunExperiment(ag, env, FromConfig(ConfigText.Parse(text).value), a, e, fmt)
  {
    match ConfigText.Parse(text)
    case Err(_) => None
    case Ok(c) => Some(RunExperiment(ag, env, FromConfig(c), a, e, fmt))
  }
}

=== FILE: experiment_scenarios.dfy ===
/** End-to-end behaviour of the experiment on a stub environment whose
    every step ends the episode with reward 1. */
module ExperimentScenarios {
  import opened CInt
  import opened Results
  import opened Agents
  import opened Episode
  import opened ExperimentStats
  import opened Experiment

  /** An environment whose state never changes and whose first step is
      done, with reward 1. */
  function OneStepEnv<E(!new)>(): (env: EnvImpl<E>)
    ensures forall x, u :: env.step(x, u).1.done && env.step(x, u).1.reward == 1.0
  {
    EnvImpl(x => (x, [0.0]), (x, u) => (x, StepResult([0.0], 1.0, true, "Terminated")), x => x)
  }

  /** Against it any agent's episode, under any positive step cap, is one
      terminated step worth 1. */
  lemma OneStepEpisode<S, E(!new)>(ag: AgentImpl<S>, a: S, e: E, maxSteps: int, render: bool)
    requires maxSteps >= 1
    ensures var r := RunEpisode(ag, OneStepEnv(), a, e, maxSteps, render);
      r.stats.steps == 1 && r.stats.totalReward == 1.0 && r.stats.terminated
  {
  }

  /** Every episode of a run against it is one terminated step worth 1. */
  lemma {:induction false} OneStepEpisodes<S, E(!new)>(ag: AgentImpl<S>, cfg: ExperimentConfig, a: S, e: E,
                                                 i: int, before: seq<EpisodeStats>)
    requires 0 <= i <= cfg.numEpisodes as int && |before| == i
    requires cfg.maxStepsPerEpisode >= 1
    ensures var r := RunEpisodes(ag, OneStepEnv(), cfg, a, e, i, before);
      forall j :: i <= j < |r.all| ==> r.all[j].steps == 1 && r.all[j].totalReward == 1.0 && r.all[j].terminated
    decreases cfg.numEpisodes as int - i
  {
    if i < cfg.numEpisodes as int {
      var env := OneStepEnv<E>();
      var r := RunEpisodes(ag, env, cfg, a, e, i, before);
      var render := Renders(cfg, i);
      var ep := RunEpisode(ag, env, a, e, cfg.maxStepsPerEpisode as int, render);
      var all := before + [ep.stats.(episode := i + 1)];
      OneStepEpisode(ag, a, e, cfg.maxStepsPerEpisode as int, render);
      OneStepEpisodes(ag, cfg, ag.reset(ep.agent), ep.env, i + 1, all);
      EpisodesNumbered(ag, env, cfg, ag.reset(ep.agent), ep.env, i + 1, all);
      assert r.all[i] == all[i];
    }
  }

  /** Three episodes under a cap of 10 against the stub: three statistics
      records, numbered 1 to 3, each one terminated step worth 1, and every
      episode terminated in the summary. */
  lemma ThreeOneStepEpisodes<S, E(!new)>(ag: AgentImpl<S>, a: S, e: E, fmt: real -> string)
    ensures var cfg := Defaults.(numEpisodes := 3, maxStepsPerEpisode := 10);
      var r := RunExperiment(ag, OneStepEnv(), cfg, a, e, fmt);
      && r.Ok? && |r.value.stats| == 3
      && (forall j :: 0 <= j < 3 ==>
            && r.value.stats[j].episode == j + 1
            && r.value.stats[j].steps == 1
            && r.value.stats[j].totalReward == 1.0
            && r.value.stats[j].terminated)
      && r.value.summary.Some? && r.value.summary.value.terminationRate == 1.0
  {
    var cfg := Defaults.(numEpisodes := 3, maxStepsPerEpisode := 10);
    var env := OneStepEnv<E>();
    OneStepEpisodes(ag, cfg, a, e, 0, []);
    ExperimentEpisodes(ag, env, cfg, a, e, fmt);
    var o := RunExperiment(ag, env, cfg, a, e, fmt).value;
    TerminationRate(o.stats);
  }
}

=== FILE: experiment_stats.dfy ===
/** The reporting arithmetic of `ExperimentRunner`: the trailing moving
    average of episode rewards, the end-of-run summary, and the CSV text of
    `logStats`. Numbers are exact reals; the double formatting of the
    reward column is a parameter. */
module ExperimentStats {
  import opened CInt
  import opened Results
  import opened Text
  import opened Episode
  import ConfigText

  /** The sum of a sequence of reals, last element last. */
  function Sum(xs: seq<real>): real
  {
    if xs == [] then 0.0 else Sum(xs[..|xs| - 1]) + xs[|xs| - 1]
  }

  /** The arithmetic mean, 0 for no values. */
  function Mean(xs: seq<real>): real
  {
    if xs == [] then 0.0 else Sum(xs) / (|xs| as real)
  }

  /** The total rewards of the episodes, in order. */
  function Rewards(stats: seq<EpisodeStats>): (r: seq<real>)
    ensures |r| == |stats|
    ensures forall i :: 0 <= i < |stats| ==> r[i] == stats[i].totalReward
  {
    seq(|stats|, i requires 0 <= i < |stats| => stats[i].totalReward)
  }

  /** The reference meaning of `calculateMovingAverage(stats, window)`: the
      mean of the last `window` rewards, of all when there are fewer, and 0
      when `window` is not positive. */
  function MovingAverage(stats: seq<EpisodeStats>, window: int): real
  {
    var k := if window <= 0 then 0 else Min(window, |stats|);
    Mean(Rewards(stats)[|stats| - k..])
  }

  /** Appending one value to a sum adds it. */
  lemma SumSnoc(xs: seq<real>, x: real)
    ensures Sum(xs + [x]) == Sum(xs) + x
  {
    assert (xs + [x])[..|xs|] == xs;
  }

  /** `calculateMovingAverage` as written: 0 for no episodes; otherwise
      the loop from `max(0, size - window)` to the end, divided by the
      count, or 0 when the count is 0. */
  method CalculateMovingAverage(stats: seq<EpisodeStats>, window: int) returns (avg: real)
    ensures avg == MovingAverage(stats, window)
  {
    if |stats| == 0 {
      return 0.0;
    }
    var start := Max(0, |stats| - window);
    var sum := 0.0;
    var count := 0;
    var i := start;
    ghost var rewards := Rewards(stats);
    if start >= |stats| {
      assert rewards[|stats| - 0..] == [];
      return 0.0;
    }
    while i < |stats|
      invariant start <= i <= |stats|
      invariant count == i - start
      invariant sum == Sum(rewards[start..i])
    {
      assert rewards[start..i + 1] == rewards[start..i] + [rewards[i]];
      SumSnoc(rewards[start..i], rewards[i]);
      sum := sum + stats[i].totalReward;
      count := count + 1;
      i := i + 1;
    }
    assert rewards[start..i] == rewards[|stats| - Min(window, |stats|)..];
    avg := if count > 0 then sum / (count as real) else 0.0;
  }

  /** A sum of values between `lo` and `hi` lies between `n * lo` and
      `n * hi`. */
  lemma {:induction false} SumBounds(xs: seq<real>, lo: real, hi: real)
    requires forall i :: 0 <= i < |xs| ==> lo <= xs[i] <= hi
    ensures (|xs| as real) * lo <= Sum(xs) <= (|xs| as real) * hi
    decreases |xs|
  {
    if xs != [] {
      SumBounds(xs[..|xs| - 1], lo, hi);
    }
  }

  /** The mean of values between `lo` and `hi` lies between them. */
  lemma MeanBounds(xs: seq<real>, lo: real, hi: real)
    requires xs != []
    requires forall i :: 0 <= i < |xs| ==> lo <= xs[i] <= hi
    ensures lo <= Mean(xs) <= hi
  {
    SumBounds(xs, lo, hi);
    var n := |xs| as real;
    assert n * lo <= Sum(xs) <= n * hi;
    assert lo == (n * lo) / n && hi == (n * hi) / n;
  }

  /** When every episode's reward lies between `lo` and `hi`, so does any
      moving average over them with a positive window. */
  lemma MovingAverageBounds(stats: seq<EpisodeStats>, window: int, lo: real, hi: real)
    requires stats != [] && window >= 1
    requires forall i :: 0 <= i < |stats| ==> lo <= stats[i].totalReward <= hi
    ensures lo <= MovingAverage(stats, window) <= hi
  {
    var k := Min(window, |stats|);
    var tail := Rewards(stats)[|stats| - k..];
    forall i | 0 <= i < |tail|
      ensures lo <= tail[i] <= hi
    {
      assert tail[i] == stats[|stats| - k + i].totalReward;
    }
    MeanBounds(tail, lo, hi);
  }

  /** With a window of at least the number of episodes, the moving
      average is the mean of every reward so far. */
  lemma MovingAverageWholeRun(stats: seq<EpisodeStats>, window: int)
    requires window >= |stats|
    ensures MovingAverage(stats, window) == Mean(Rewards(stats))
  {
    if stats != [] {
      assert Rewards(stats)[0..] == Rewards(stats);
    }
  }

  /** What `printSummary` reports. */
  datatype Summary = Summary(episodes: int, averageReward: real, averageSteps: real, terminationRate: real)

  /** The total steps of the episodes. */
  function StepsSum(stats: seq<EpisodeStats>): int
  {
    if stats == [] then 0 else StepsSum(stats[..|stats| - 1]) + stats[|stats| - 1].steps
  }

  /** The number of terminated episodes. */
  function TerminatedCount(stats: seq<EpisodeStats>): nat
  {
    if stats == [] then 0
    else TerminatedCount(stats[..|stats| - 1]) + (if stats[|stats| - 1].terminated then 1 else 0)
  }

  /** `printSummary`: nothing for an empty run; otherwise the number of
      episodes, the mean reward, the mean steps and the share of terminated
      episodes. */
  function Summarize(stats: seq<EpisodeStats>): (s: Option<Summary>)
    ensures s.None? <==> stats == []
    ensures s.Some? ==> s.value.episodes == |stats| && s.value.averageReward == Mean(Rewards(stats))
    ensures s.Some? ==> s.value.averageSteps == (StepsSum(stats) as real) / (|stats| as real)
    ensures s.Some? ==> s.value.terminationRate == (TerminatedCount(stats) as real) / (|stats| as real)
  {
    if stats == [] then None
    else
      var n := |stats| as real;
      Some(Summary(|stats|, Sum(Rewards(stats)) / n, (StepsSum(stats) as real) / n,
                   (TerminatedCount(stats) as real) / n))
  }

  /** Step counts between 0 and `cap` add up to between 0 and `n * cap`,
      and to `n * cap` exactly when every episode ran to the cap. */
  lemma {:induction false} StepsSumBounds(stats: seq<EpisodeStats>, cap: int)
    requires forall i :: 0 <= i < |stats| ==> 0 <= stats[i].steps <= cap
    ensures 0 <= StepsSum(stats) <= |stats| * cap
    ensures StepsSum(stats) == |stats| * cap <==> forall i :: 0 <= i < |stats| ==> stats[i].steps == cap
    decreases |stats|
  {
    if stats != [] {
      var init := stats[..|stats| - 1];
      assert forall i :: 0 <= i < |init| ==> init[i] == stats[i];
      StepsSumBounds(init, cap);
      assert |stats| * cap == |init| * cap + cap;
    }
  }

  /** When every episode keeps to a step cap, the mean steps lie between 0
      and the cap, and equal the cap exactly when every episode ran to it. */
  lemma AverageStepsBounds(stats: seq<EpisodeStats>, cap: int)
    requires stats != []
    requires forall i :: 0 <= i < |stats| ==> 0 <= stats[i].steps <= cap
    ensures var avg := Summarize(stats).value.averageSteps;
      && 0.0 <= avg <= cap as real
      && (avg == cap as real <==> forall i :: 0 <= i < |stats| ==> stats[i].steps == cap)
  {
    var n, t, c := |stats| as real, StepsSum(stats) as real, cap as real;
    assert 0.0 <= t <= n * c && (t == n * c <==> forall i :: 0 <= i < |stats| ==> stats[i].steps == cap) by {
      StepsSumBounds(stats, cap);
      assert (|stats| * cap) as real == n * c;
    }
    Quotient(t, n, c);
    assert Summarize(stats).value.averageSteps == t / n;
  }

  /** A total between 0 and `n * c` over `n > 0` parts averages between 0
      and `c`, and to `c` exactly at the top. */
  lemma Quotient(t: real, n: real, c: real)
    requires n > 0.0 && 0.0 <= t <= n * c
    ensures 0.0 <= t / n <= c
    ensures t / n == c <==> t == n * c
  {
    var q := t / n;
    assert q * n == t;
    if q < 0.0 { PositiveProduct(-q, n); }
    if q > c { PositiveProduct(q - c, n); }
    if q < c && t == n * c { PositiveProduct(c - q, n); }
  }

  /** Terminated episodes are counted once each, and all of them exactly
      when every episode terminated, none exactly when none did. */
  lemma {:induction false} TerminatedCountRange(stats: seq<EpisodeStats>)
    ensures TerminatedCount(stats) <= |stats|
    ensures TerminatedCount(stats) == |stats| <==> forall i :: 0 <= i < |stats| ==> stats[i].terminated
    ensures TerminatedCount(stats) == 0 <==> forall i :: 0 <= i < |stats| ==> !stats[i].terminated
    decreases |stats|
  {
    if stats != [] {
      var init := stats[..|stats| - 1];
      TerminatedCountRange(init);
      assert forall i :: 0 <= i < |init| ==> init[i] == stats[i];
    }
  }

  /** The termination rate is a share: between 0 and 1, 1 exactly when
      every episode terminated and 0 exactly when none did. */
  lemma TerminationRate(stats: seq<EpisodeStats>)
    requires stats != []
    ensures var rate := Summarize(stats).value.terminationRate;
      && 0.0 <= rate <= 1.0
      && (rate == 1.0 <==> forall i :: 0 <= i < |stats| ==> stats[i].terminated)
      && (rate == 0.0 <==> forall i :: 0 <= i < |stats| ==> !stats[i].terminated)
  {
    TerminatedCountRange(stats);
    Share(TerminatedCount(stats) as real, |stats| as real);
  }

  /** A part of a positive whole divided by the whole is a share. */
  lemma Share(t: real, n: real)
    requires 0.0 <= t <= n && n > 0.0
    ensures 0.0 <= t / n <= 1.0
    ensures t / n == 1.0 <==> t == n
    ensures t / n == 0.0 <==> t == 0.0
  {
    var q := t / n;
    assert q * n == t;
    if q < 0.0 { PositiveProduct(-q, n); }
    if q > 1.0 { PositiveProduct(q - 1.0, n); }
  }

  lemma PositiveProduct(a: real, b: real)
    requires a > 0.0 && b > 0.0
    ensures a * b > 0.0
  {
  }

  /** Fields separated by ','. */
  function Join(fields: seq<string>): string
    requires fields != []
    decreases |fields|
  {
    if |fields| == 1 then fields[0] else fields[0] + [','] + Join(fields[1..])
  }

  /** A piece of text the CSV row can carry without breaking its shape. */
  predicate Plain(t: string)
  {
    ',' !in t && '\n' !in t
  }

  /** Joined fields that hold no separator split back into the same
      fields, and the joined text holds no line end. */
  lemma {:induction false} JoinFields(fields: seq<string>)
    requires fields != []
    requires forall i :: 0 <= i < |fields| ==> Plain(fields[i])
    ensures Fields(Join(fields), ',') == fields
    ensures '\n' !in Join(fields)
    decreases |fields|
  {
    if |fields| == 1 {
      FieldsSingle(fields[0], ',');
    } else {
      JoinFields(fields[1..]);
      FieldsCons(fields[0], ',', Join(fields[1..]));
    }
  }

  /** The fields of the CSV row of one episode. */
  function LogCells(s: EpisodeStats, fmt: real -> string): (cells: seq<string>)
    ensures |cells| == 5
  {
    [IntText(s.episode), IntText(s.steps), fmt(s.totalReward), if s.terminated then "true" else "false", s.reason]
  }

  /** The CSV row of one episode, without its line end. */
  function LogRow(s: EpisodeStats, fmt: real -> string): string
  {
    Join(LogCells(s, fmt))
  }

  /** The rows of `stats`, each followed by a line end. */
  function LogRows(stats: seq<EpisodeStats>, fmt: real -> string): string
  {
    if stats == [] then "" else LogRow(stats[0], fmt) + "\n" + LogRows(stats[1..], fmt)
  }

  /** The column names of the CSV log. */
  const LogColumns: seq<string> := ["episode", "steps", "total_reward", "terminated", "termination_reason"]

  /** The header line of the CSV log. */
  function LogHeader(): string
  {
    Join(LogColumns)
  }

  /** What `logStats` writes: the header, then one row per episode. */
  function LogText(stats: seq<EpisodeStats>, fmt: real -> string): (text: string)
    ensures |text| > |LogHeader()| && text[..|LogHeader()| + 1] == LogHeader() + "\n"
    ensures text == LogHeader() + "\n" <==> stats == []
  {
    var head := LogHeader() + "\n";
    var text := head + LogRows(stats, fmt);
    assert text[..|head|] == head;
    assert stats != [] ==> |LogRows(stats, fmt)| > 0;
    text
  }

  /** Decimal integer text holds neither separator. */
  lemma IntTextPlain(n: int)
    ensures Plain(IntText(n))
  {
    var t := IntText(n);
    if n >= 0 {
      assert forall i :: 0 <= i < |t| ==> IsDigit(t[i]);
    } else {
      assert forall i :: 1 <= i < |t| ==> t[1..][i - 1] == t[i] && IsDigit(t[i]);
    }
  }

  /** A row whose reward text and reason hold neither separator splits
      back into its five fields and is a single line. */
  lemma LogRowFields(s: EpisodeStats, fmt: real -> string)
    requires Plain(fmt(s.totalReward)) && Plain(s.reason)
    ensures Fields(LogRow(s, fmt), ',') == LogCells(s, fmt)
    ensures '\n' !in LogRow(s, fmt)
  {
    IntTextPlain(s.episode);
    IntTextPlain(s.steps);
    var cells := LogCells(s, fmt);
    assert Plain(cells[3]) by {
      if s.terminated {
        assert cells[3] == ['t', 'r', 'u', 'e'];
      } else {
        assert cells[3] == ['f', 'a', 'l', 's', 'e'];
      }
    }
    JoinFields(cells);
  }

  /** Episode numbers within the `int` range read back from the first
      field. */
  lemma LogEpisodeReadsBack(s: EpisodeStats)
    requires Int32Min <= s.episode <= Int32Max
    ensures ConfigText.Stoi(IntText(s.episode)) == Some(s.episode as int32)
  {
    assert IntText(s.episode) + [] == IntText(s.episode);
    ConfigText.StoiOfIntText(s.episode, []);
  }

  /** The free-text fields of every row hold no separator. */
  predicate PlainRows(stats: seq<EpisodeStats>, fmt: real -> string)
  {
    forall i :: 0 <= i < |stats| ==> Plain(fmt(stats[i].totalReward)) && Plain(stats[i].reason)
  }

  /** One row in front of the others is one more line in front. */
  lemma LogRowsCons(stats: seq<EpisodeStats>, fmt: real -> string)
    requires stats != [] && PlainRows(stats, fmt)
    ensures Lines(LogRows(stats, fmt)) == [LogRow(stats[0], fmt)] + Lines(LogRows(stats[1..], fmt))
    ensures PlainRows(stats[1..], fmt)
  {
    var row := LogRow(stats[0], fmt);
    assert '\n' !in row by {
      LogRowFields(stats[0], fmt);
    }
    assert LogRows(stats, fmt) == row + "\n" + LogRows(stats[1..], fmt);
    LinesCons(row, LogRows(stats[1..], fmt));
    forall i | 0 <= i < |stats| - 1
      ensures Plain(fmt(stats[1..][i].totalReward)) && Plain(stats[1..][i].reason)
    {
      assert stats[1..][i] == stats[i + 1];
    }
  }

  /** Rows whose free-text fields hold no separator are read back by
      `getline` one per episode. */
  lemma {:induction false} LogRowsLines(stats: seq<EpisodeStats>, fmt: real -> string)
    requires PlainRows(stats, fmt)
    ensures |Lines(LogRows(stats, fmt))| == |stats|
    ensures forall i :: 0 <= i < |stats| ==> Lines(LogRows(stats, fmt))[i] == LogRow(stats[i], fmt)
    decreases |stats|
  {
    if stats != [] {
      LogRowsCons(stats, fmt);
      LogRowsLines(stats[1..], fmt);
      var ls := Lines(LogRows(stats, fmt));
      forall i | 1 <= i < |stats|
        ensures ls[i] == LogRow(stats[i], fmt)
      {
        assert ls[i] == Lines(LogRows(stats[1..], fmt))[i - 1];
        assert stats[1..][i - 1] == stats[i];
      }
    }
  }

  /** The header splits back into the column names and is one line. */
  lemma HeaderFields()
    ensures Fields(LogHeader(), ',') == LogColumns
    ensures '\n' !in LogHeader()
  {
    assert Plain("episode") && Plain("steps") && Plain("total_reward");
    assert Plain("terminated") && Plain("termination_reason");
    JoinFields(LogColumns);
  }

  /** A single-line header followed by rows reads back as the header and
      one line per episode. */
  lemma LinesUnderHeader(header: string, stats: seq<EpisodeStats>, fmt: real -> string)
    requires '\n' !in header && PlainRows(stats, fmt)
    ensures var ls := Lines(header + "\n" + LogRows(stats, fmt));
      && |ls| == |stats| + 1 && ls[0] == header
      && forall i :: 0 <= i < |stats| ==> ls[i + 1] == LogRow(stats[i], fmt)
  {
    LinesCons(header, LogRows(stats, fmt));
    LogRowsLines(stats, fmt);
    RowsUnderHeader(Lines(header + "\n" + LogRows(stats, fmt)), header, Lines(LogRows(stats, fmt)), stats, fmt);
  }

  /** The lines `[header] + rows` hold the header and then the rows. */
  lemma RowsUnderHeader(ls: seq<string>, header: string, rows: seq<string>, stats: seq<EpisodeStats>, fmt: real -> string)
    requires ls == [header] + rows && |rows| == |stats|
    requires forall i :: 0 <= i < |stats| ==> rows[i] == LogRow(stats[i], fmt)
    ensures |ls| == |stats| + 1 && ls[0] == header
    ensures forall i :: 0 <= i < |stats| ==> ls[i + 1] == LogRow(stats[i], fmt)
  {
    forall i | 0 <= i < |stats|
      ensures ls[i + 1] == LogRow(stats[i], fmt)
    {
      assert ls[i + 1] == rows[i];
    }
  }

  /** The log reads back as the header and one line per episode. */
  lemma LogLines(stats: seq<EpisodeStats>, fmt: real -> string)
    requires PlainRows(stats, fmt)
    ensures var ls := Lines(LogText(stats, fmt));
      && |ls| == |stats| + 1 && ls[0] == LogHeader()
      && forall i :: 0 <= i < |stats| ==> ls[i + 1] == LogRow(stats[i], fmt)
  {
    HeaderFields();
    LinesUnderHeader(LogHeader(), stats, fmt);
  }

  /** Each line of the log splits into the column names or into its
      episode's five fields. */
  lemma LogShape(stats: seq<EpisodeStats>, fmt: real -> string)
    requires PlainRows(stats, fmt)
    ensures var ls := Lines(LogText(stats, fmt));
      && |ls| == |stats| + 1 && Fields(ls[0], ',') == LogColumns
      && forall i :: 0 <= i < |stats| ==> Fields(ls[i + 1], ',') == LogCells(stats[i], fmt)
  {
    LogLines(stats, fmt);
    HeaderFields();
    forall i | 0 <= i < |stats|
      ensures Fields(LogRow(stats[i], fmt), ',') == LogCells(stats[i], fmt)
    {
      LogRowFields(stats[i], fmt);
    }
  }
}

=== FILE: factories.dfy ===
/** `EnvironmentFactory` and `AgentFactory`: two registries that differ only
    in the word their messages start with. */
module Factories {
  import opened Results
  import ConfigStore
  import opened Registry

  /** The environment factory before any registration. */
  function EnvironmentFactory<T>(): (r: Registry<T>)
    ensures r.family == "Environment" && Available(r) == []
  {
    Fresh("Environment")
  }

  /** The agent factory before any registration. */
  function AgentFactory<T>(): (r: Registry<T>)
    ensures r.family == "Agent" && Available(r) == []
  {
    Fresh("Agent")
  }

  /** Asking the environment factory for an unknown name throws with the
      message "Environment '<name>' is not registered". */
  lemma UnknownEnvironment<T>(name: string, config: ConfigStore.Config)
    ensures Create(EnvironmentFactory<T>(), name, config)
         == Err("Environment '" + name + "' is not registered")
  {
    assert "Environment" + " '" == "Environment '";
  }

  /** Registering the same agent name twice throws with the message
      "Agent '<name>' is already registered". */
  lemma DuplicateAgent<T>(name: string, first: ConfigStore.Config -> T, second: ConfigStore.Config -> T)
    ensures var once := Register(AgentFactory<T>(), name, first);
      && once.failure == None
      && Register(once.registry, name, second).failure
         == Some("Agent '" + name + "' is already registered")
  {
    assert "Agent" + " '" == "Agent '";
  }

  /** The factories keep their bindings apart: a name registered with one
      is unknown to the other. */
  lemma FactoriesIndependent<T, U>(name: string, env: ConfigStore.Config -> T, config: ConfigStore.Config)
    ensures var envs := Register(EnvironmentFactory<T>(), name, env).registry;
      && IsRegistered(envs, name)
      && Create(AgentFactory<U>(), name, config) == Err("Agent '" + name + "' is not registered")
  {
    assert "Agent" + " '" == "Agent '";
  }
}

=== FILE: ordering.dfy ===
/** The key order of `std::map<std::string, _>`: lexicographic comparison of
    character codes, and the ascending key listing that iterating such a map
    produces. */
module Ordering {

  /** `a < b` as `std::string` compares them. */
  predicate StrLt(a: string, b: string)
    decreases |a|
  {
    if a == [] then b != []
    else if b == [] then false
    else if a[0] != b[0] then a[0] < b[0]
    else StrLt(a[1..], b[1..])
  }

  lemma {:induction false} StrLtIrreflexive(a: string)
    ensures !StrLt(a, a)
    decreases |a|
  {
    if a != [] {
      StrLtIrreflexive(a[1..]);
    }
  }

  lemma {:induction false} StrLtTransitive(a: string, b: string, c: string)
    requires StrLt(a, b) && StrLt(b, c)
    ensures StrLt(a, c)
    decreases |a|
  {
    if a != [] && b != [] && c != [] && a[0] == b[0] && b[0] == c[0] {
      StrLtTransitive(a[1..], b[1..], c[1..]);
    }
  }

  lemma {:induction false} StrLtTotal(a: string, b: string)
    requires a != b
    ensures StrLt(a, b) || StrLt(b, a)
    decreases |a|
  {
    if a != [] && b != [] && a[0] == b[0] {
      assert a == [a[0]] + a[1..] && b == [b[0]] + b[1..];
      StrLtTotal(a[1..], b[1..]);
    }
  }

  lemma StrLtAsymmetric(a: string, b: string)
    requires StrLt(a, b)
    ensures !StrLt(b, a)
  {
    if StrLt(b, a) {
      StrLtTransitive(a, b, a);
      StrLtIrreflexive(a);
    }
  }

  /** `m` precedes every other member of `s`. */
  predicate IsLeast(m: string, s: set<string>)
  {
    m in s && forall x :: x in s && x != m ==> StrLt(m, x)
  }

  lemma {:induction false} LeastExists(s: set<string>)
    requires s != {}
    ensures exists m :: IsLeast(m, s)
    decreases |s|
  {
    var x :| x in s;
    if s - {x} == {} {
      assert s == {x};
      assert IsLeast(x, s);
    } else {
      LeastExists(s - {x});
      var m :| IsLeast(m, s - {x});
      if StrLt(x, m) {
        forall y | y in s && y != x
          ensures StrLt(x, y)
        {
          if y != m {
            StrLtTransitive(x, m, y);
          }
        }
        assert IsLeast(x, s);
      } else {
        StrLtTotal(x, m);
        assert IsLeast(m, s);
      }
    }
  }

  lemma LeastUnique(s: set<string>)
    ensures forall m1, m2 :: IsLeast(m1, s) && IsLeast(m2, s) ==> m1 == m2
  {
    forall m1, m2 | IsLeast(m1, s) && IsLeast(m2, s)
      ensures m1 == m2
    {
      if m1 != m2 {
        StrLtAsymmetric(m1, m2);
      }
    }
  }

  /** Strictly ascending: every earlier element precedes every later one, so
      no element appears twice. */
  predicate StrictlyAscending(r: seq<string>)
  {
    forall i, j :: 0 <= i < j < |r| ==> StrLt(r[i], r[j])
  }

  /** The members of `s` in ascending order, as a `std::map` iterates its
      keys. */
  function SortedKeys(s: set<string>): (r: seq<string>)
    ensures |r| == |s|
    ensures forall k :: k in s <==> k in r
    ensures StrictlyAscending(r)
    decreases |s|
  {
    if s == {} then []
    else
      LeastExists(s);
      LeastUnique(s);
      var m :| IsLeast(m, s);
      var rest := SortedKeys(s - {m});
      assert forall k :: k in rest ==> StrLt(m, k);
      [m] + rest
  }
}

=== FILE: registry.dfy ===
/** The name to constructor registry behind `EnvironmentFactory` and
    `AgentFactory`: an add-only map from names to creators, with two failure
    outcomes, a duplicate registration and an unknown name. The two factories
    are the same code with a different family word in their messages, so one
    generic registry covers both; the process-wide singleton becomes an
    explicit value. */
module Registry {
  import opened Results
  import opened Ordering
  import opened ConfigStore

  /** A registry of creators of `T`; `family` is the word its messages start
      with ("Environment" or "Agent"). */
  datatype Registry<T> = Registry(family: string, entries: map<string, Config -> T>)

  /** The result of a registration: the registry afterwards, and the message
      of the exception when one is thrown. */
  datatype Registered<T> = Registered(registry: Registry<T>, failure: Option<string>)

  /** The text of the exception for a name registered twice. */
  function AlreadyRegistered(family: string, name: string): string
  {
    family + " '" + name + "' is already registered"
  }

  /** The text of the exception for a name never registered. */
  function NotRegistered(family: string, name: string): string
  {
    family + " '" + name + "' is not registered"
  }

  /** A registry with no names, as before the first registration. */
  function Fresh<T>(family: string): (r: Registry<T>)
    ensures r.family == family && r.entries == map[]
  {
    Registry(family, map[])
  }

  /** `isEnvironmentRegistered` / `isAgentRegistered`. */
  predicate IsRegistered<T>(r: Registry<T>, name: string)
  {
    name in r.entries
  }

  /** `registerEnvironment` / `registerAgent`: an unbound name is bound to
      the creator and nothing else changes; a bound name throws and the
      registry is left as it was. */
  function Register<T>(r: Registry<T>, name: string, creator: Config -> T): (o: Registered<T>)
    ensures o.failure.None? <==> !IsRegistered(r, name)
    ensures o.failure.Some? ==> o.registry == r && o.failure.value == AlreadyRegistered(r.family, name)
    ensures o.failure.None? ==> (
      && o.registry.family == r.family
      && IsRegistered(o.registry, name) && o.registry.entries[name] == creator
      && (forall n :: n != name ==> (IsRegistered(o.registry, n) <==> IsRegistered(r, n)))
      && (forall n :: n != name && n in r.entries ==> n in o.registry.entries && o.registry.entries[n] == r.entries[n]))
  {
    if name in r.entries then Registered(r, Some(AlreadyRegistered(r.family, name)))
    else Registered(Registry(r.family, r.entries[name := creator]), None)
  }

  /** `create`: the creator bound to `name` applied to `config`, or the
      "not registered" exception. The registry is only read. */
  function Create<T>(r: Registry<T>, name: string, config: Config): (res: Result<T, string>)
    ensures res.Err? <==> !IsRegistered(r, name)
    ensures res.Err? ==> res.error == NotRegistered(r.family, name)
    ensures res.Ok? ==> res.value == r.entries[name](config)
  {
    if name in r.entries then Ok(r.entries[name](config))
    else Err(NotRegistered(r.family, name))
  }

  /** `getAvailableEnvironments` / `getAvailableAgents`: every bound name
      once, in the ascending order of the underlying `std::map`. */
  function Available<T>(r: Registry<T>): (names: seq<string>)
    ensures |names| == |r.entries|
    ensures forall n :: n in names <==> IsRegistered(r, n)
    ensures StrictlyAscending(names)
  {
    SortedKeys(r.entries.Keys)
  }

  /** `clear`: every binding is dropped. */
  function Clear<T>(r: Registry<T>): (c: Registry<T>)
    ensures c.family == r.family
    ensures forall n :: !IsRegistered(c, n)
  {
    Registry(r.family, map[])
  }

  /** The three views of the registry agree: a name is registered exactly
      when it is listed and exactly when `create` of it succeeds. */
  lemma RegisteredListedCreatable<T>(r: Registry<T>, name: string, config: Config)
    ensures IsRegistered(r, name) <==> name in Available(r)
    ensures IsRegistered(r, name) <==> Create(r, name, config).Ok?
  {
  }

  /** A name just registered creates with its creator. */
  lemma RegisterThenCreate<T>(r: Registry<T>, name: string, creator: Config -> T, config: Config)
    requires !IsRegistered(r, name)
    ensures Create(Register(r, name, creator).registry, name, config) == Ok(creator(config))
  {
  }

  /** Registration is not idempotent: the second registration of a name
      throws, whichever creator it brings, and keeps the first binding. */
  lemma RegisterTwiceFails<T>(r: Registry<T>, name: string, first: Config -> T, second: Config -> T)
    requires !IsRegistered(r, name)
    ensures var once := Register(r, name, first).registry;
      && Register(once, name, second).failure == Some(AlreadyRegistered(r.family, name))
      && Register(once, name, second).registry == once
      && once.entries[name] == first
  {
  }

  /** Registering a new name adds exactly that name to the listing. */
  lemma RegisterGrowsListing<T>(r: Registry<T>, name: string, creator: Config -> T)
    requires !IsRegistered(r, name)
    ensures var names := Available(Register(r, name, creator).registry);
      && |names| == |Available(r)| + 1
      && (forall n :: n in names <==> n == name || n in Available(r))
  {
  }

  /** After `clear` nothing is listed and every `create` throws. */
  lemma ClearedCreatesNothing<T>(r: Registry<T>, name: string, config: Config)
    ensures Available(Clear(r)) == []
    ensures Create(Clear(r), name, config) == Err(NotRegistered(r.family, name))
  {
  }
}

=== FILE: results.dfy ===
/** Failure-carrying datatypes shared by the whole model. */
module Results {

  /** A value that may be absent (a failed conversion, a missing key). */
  datatype Option<+T> = None | Some(value: T)

  /** The outcome of an operation that the original reports by throwing or
      that it leaves undefined: either a value or a named error. */
  datatype Result<+T, +E> = Ok(value: T) | Err(error: E)
}

=== FILE: rule_based_agent.dfy ===
/** `RuleBasedAgent`: a bang-bang controller that pushes the cart with full
    force towards the side the pole leans to, counting its decisions. */
module RuleBasedAgent {
  import opened Agents

  /** The constructor's default force magnitude. */
  const DefaultMaxForce: real := 10.0

  /** The agent's fields; the counters are C `int`s, modelled unbounded. */
  datatype RuleAgent = RuleAgent(maxForce: real, total: int, last: real, left: int, right: int)

  /** Every counted action went one way or the other. */
  predicate Balanced(a: RuleAgent)
  {
    a.total == a.left + a.right
  }

  /** The constructor: all counters and the last action start at zero. */
  function New(maxForce: real): (a: RuleAgent)
    ensures a.maxForce == maxForce
    ensures a.total == 0 && a.left == 0 && a.right == 0 && a.last == 0.0
    ensures Balanced(a)
  {
    RuleAgent(maxForce, 0, 0.0, 0, 0)
  }

  /** A state the agent can read: it has at least the four CartPole entries. */
  predicate Valid(state: State)
  {
    |state| >= 4
  }

  /** The pole angle of a valid state leans right. */
  predicate LeansRight(state: State)
  {
    Valid(state) && state[2] > 0.0
  }

  /** `act`: a short state gives action 0 and counts nothing; otherwise the
      full force to the right when the pole angle is positive and to the
      left when it is zero or negative, counted on that side and in the
      total. The returned action is always the stored `last_action`. */
  function Act(a: RuleAgent, state: State): (r: (RuleAgent, real))
    ensures r.1 == r.0.last
    ensures r.0.maxForce == a.maxForce
    ensures !Valid(state) ==> r.1 == 0.0 && r.0 == a.(last := 0.0)
    ensures LeansRight(state) ==>
      r.1 == a.maxForce && r.0.right == a.right + 1 && r.0.left == a.left && r.0.total == a.total + 1
    ensures Valid(state) && !LeansRight(state) ==>
      r.1 == -a.maxForce && r.0.left == a.left + 1 && r.0.right == a.right && r.0.total == a.total + 1
    ensures r.1 == 0.0 || r.1 == a.maxForce || r.1 == -a.maxForce
    ensures Balanced(a) ==> Balanced(r.0)
  {
    if |state| < 4 then
      var b := a.(last := 0.0);
      (b, b.last)
    else if state[2] > 0.0 then
      var b := a.(last := a.maxForce, right := a.right + 1, total := a.total + 1);
      (b, b.last)
    else
      var b := a.(last := -a.maxForce, left := a.left + 1, total := a.total + 1);
      (b, b.last)
  }

  /** `learn`: the rules never change. */
  function Learn(a: RuleAgent, e: Experience): (r: RuleAgent)
    ensures r == a
  {
    a
  }

  /** `getStats`: five named figures, in this order, each the field it
      names, the counters converted to doubles. */
  function GetStats(a: RuleAgent): (s: Stats)
    ensures |s| == 5
    ensures s[0].0 == "total_actions" && s[1].0 == "last_action" && s[2].0 == "left_actions"
         && s[3].0 == "right_actions" && s[4].0 == "max_force"
    ensures s[0].1 == a.total as real && s[2].1 == a.left as real && s[3].1 == a.right as real
    ensures Balanced(a) ==> s[0].1 == s[2].1 + s[3].1
    ensures s[1].1 == a.last && s[4].1 == a.maxForce
  {
    [("total_actions", a.total as real), ("last_action", a.last), ("left_actions", a.left as real),
     ("right_actions", a.right as real), ("max_force", a.maxForce)]
  }

  /** The agent as an implementation of the agent interface: `reset`,
      `saveModel` and `loadModel` are the base class's, so the counters
      carry over from one episode to the next. */
  function Impl(): (impl: AgentImpl<RuleAgent>)
    ensures forall a, s :: impl.act(a, s) == Act(a, s)
    ensures forall a, e :: impl.learn(a, e) == a
    ensures forall a :: impl.reset(a) == a && impl.stats(a) == GetStats(a)
  {
    WithDefaults(Act, Learn).(stats := GetStats)
  }

  /** The agent acting on a sequence of states, first to last: the agent
      afterwards and the actions it returned. */
  function Run(a: RuleAgent, states: seq<State>): (r: (RuleAgent, seq<real>))
    ensures |r.1| == |states|
    decreases |states|
  {
    if states == [] then (a, [])
    else
      var (b, x) := Act(a, states[0]);
      var (c, xs) := Run(b, states[1..]);
      (c, [x] + xs)
  }

  /** How many of the states lean right: the reference count of right pushes. */
  function RightCount(states: seq<State>): nat
  {
    if states == [] then 0 else (if LeansRight(states[0]) then 1 else 0) + RightCount(states[1..])
  }

  /** How many of the states are valid and do not lean right: the
      reference count of left pushes. */
  function LeftCount(states: seq<State>): nat
  {
    if states == [] then 0
    else (if Valid(states[0]) && !LeansRight(states[0]) then 1 else 0) + LeftCount(states[1..])
  }

  /** How many of the states are valid: the reference count of all pushes. */
  function ValidCount(states: seq<State>): nat
  {
    if states == [] then 0 else (if Valid(states[0]) then 1 else 0) + ValidCount(states[1..])
  }

  /** The counters after any run add the reference counts of its states to
      the counters before it, and the force is never changed. */
  lemma {:induction false} RunCounts(a: RuleAgent, states: seq<State>)
    ensures Run(a, states).0.right == a.right + RightCount(states)
    ensures Run(a, states).0.left == a.left + LeftCount(states)
    ensures Run(a, states).0.total == a.total + ValidCount(states)
    ensures Run(a, states).0.maxForce == a.maxForce
    decreases |states|
  {
    if states != [] {
      RunCounts(Act(a, states[0]).0, states[1..]);
    }
  }

  /** Every state is counted at most once: valid states split into left and
      right pushes. */
  lemma {:induction false} CountsSplit(states: seq<State>)
    ensures ValidCount(states) == LeftCount(states) + RightCount(states)
    ensures ValidCount(states) <= |states|
    decreases |states|
  {
    if states != [] {
      CountsSplit(states[1..]);
    }
  }

  /** From construction on, `total_actions == left_actions + right_actions`
      whatever the agent sees, and the counts are those of the states. */
  lemma CountersBalanced(maxForce: real, states: seq<State>)
    ensures var b := Run(New(maxForce), states).0;
      && Balanced(b)
      && b.right == RightCount(states) && b.left == LeftCount(states) && b.total == ValidCount(states)
  {
    RunCounts(New(maxForce), states);
    CountsSplit(states);
  }

  /** After a run from construction, the reported counters are the
      reference counts of the states seen, and the total is the sum of the
      left and right figures. */
  lemma ReportedCounts(maxForce: real, states: seq<State>)
    ensures var s := GetStats(Run(New(maxForce), states).0);
      && s[0].1 == ValidCount(states) as real
      && s[2].1 == LeftCount(states) as real
      && s[3].1 == RightCount(states) as real
      && s[0].1 == s[2].1 + s[3].1
      && s[4].1 == maxForce
  {
    CountersBalanced(maxForce, states);
    RunCounts(New(maxForce), states);
  }

  /** Every returned action is one of 0, `max_force` and `-max_force`, and
      the last one is what `last_action` holds afterwards. */
  lemma {:induction false} RunActions(a: RuleAgent, states: seq<State>)
    ensures var r := Run(a, states);
      forall i :: 0 <= i < |r.1| ==> r.1[i] == 0.0 || r.1[i] == a.maxForce || r.1[i] == -a.maxForce
    ensures states != [] ==> Run(a, states).0.last == Run(a, states).1[|states| - 1]
    decreases |states|
  {
    if states != [] {
      var b := Act(a, states[0]).0;
      RunActions(b, states[1..]);
    }
  }

  /** Learning from any trajectory leaves the agent as it was. */
  lemma LearnsNothing(a: RuleAgent, trajectory: seq<Experience>)
    ensures BatchLearn(Learn, a, trajectory) == a
  {
    BatchLearnIgnored(Learn, a, trajectory);
  }
}

=== FILE: text.dfy ===
/** Character-level text facts shared by the configuration parser and the
    experiment log: decimal digits, the decimal text of an integer as a C++
    output stream writes it, and line splitting as `std::getline` does it. */
module Text {
  import opened Results

  predicate IsDigit(c: char) { '0' <= c <= '9' }

  predicate AllDigits(s: string) { forall i :: 0 <= i < |s| ==> IsDigit(s[i]) }

  function DigitChar(d: nat): (c: char)
    requires d < 10
    ensures IsDigit(c)
  {
    (48 + d) as char
  }

  function DigitValue(c: char): (d: nat)
    requires IsDigit(c)
    ensures d < 10
  {
    c as int - 48
  }

  /** The value of a run of decimal digits, most significant first. */
  function DigitsValue(s: string): nat
    requires AllDigits(s)
  {
    if s == [] then 0 else DigitsValue(s[..|s| - 1]) * 10 + DigitValue(s[|s| - 1])
  }

  /** Decimal text of a natural number, without leading zeros. */
  function NatText(n: nat): (s: string)
    ensures |s| > 0 && AllDigits(s)
    ensures s[0] != '0' || n == 0
    decreases n
  {
    if n < 10 then [DigitChar(n)] else NatText(n / 10) + [DigitChar(n % 10)]
  }

  /** Decimal text of an integer as `operator<<` writes an `int`. */
  function IntText(n: int): (s: string)
    ensures |s| > 0
    ensures n < 0 <==> s[0] == '-'
    ensures n >= 0 ==> AllDigits(s)
    ensures n < 0 ==> AllDigits(s[1..])
  {
    if n < 0 then "-" + NatText(-n) else NatText(n)
  }

  /** Reading back the decimal text of `n` gives `n`. */
  lemma {:induction false} NatTextValue(n: nat)
    ensures DigitsValue(NatText(n)) == n
    decreases n
  {
    if n >= 10 {
      var s := NatText(n);
      NatTextValue(n / 10);
      assert s[..|s| - 1] == NatText(n / 10);
      assert DigitValue(s[|s| - 1]) == n % 10;
    }
  }

  /** The longest prefix of `s` made of digits. */
  function DigitPrefix(s: string): (p: string)
    ensures |p| <= |s| && p == s[..|p|]
    ensures AllDigits(p)
    ensures |p| == |s| || !IsDigit(s[|p|])
  {
    if s != [] && IsDigit(s[0]) then [s[0]] + DigitPrefix(s[1..]) else []
  }

  /** The digit run of a decimal text followed by a non-digit is that text. */
  lemma {:induction false} DigitPrefixOfDigits(d: string, t: string)
    requires AllDigits(d)
    requires t == [] || !IsDigit(t[0])
    ensures DigitPrefix(d + t) == d
  {
    if d != [] {
      assert (d + t)[1..] == d[1..] + t;
      DigitPrefixOfDigits(d[1..], t);
    }
  }

  /** Index of the first occurrence of `c` in `s`, as `std::string::find`. */
  function Find(s: string, c: char): (r: Option<nat>)
    ensures r.None? ==> forall j :: 0 <= j < |s| ==> s[j] != c
    ensures r.Some? ==> r.value < |s| && s[r.value] == c
    ensures r.Some? ==> forall j :: 0 <= j < r.value ==> s[j] != c
  {
    if s == [] then None
    else if s[0] == c then Some(0)
    else match Find(s[1..], c)
      case None => None
      case Some(i) => Some(i + 1)
  }

  /** `Find` reports the first occurrence. */
  lemma FindAt(s: string, c: char, p: nat)
    requires p < |s| && s[p] == c
    requires forall j :: 0 <= j < p ==> s[j] != c
    ensures Find(s, c) == Some(p)
  {
  }

  /** The pieces of `s` between occurrences of `sep`: always at least one,
      none holding the separator. */
  function Fields(s: string, sep: char): (r: seq<string>)
    ensures |r| >= 1
    ensures forall k :: 0 <= k < |r| ==> sep !in r[k]
    decreases |s|
  {
    match Find(s, sep)
    case None => [s]
    case Some(i) => [s[..i]] + Fields(s[i + 1..], sep)
  }

  /** Pieces put back together with the separator between them. */
  function Unsplit(pieces: seq<string>, sep: char): string
    requires pieces != []
    decreases |pieces|
  {
    if |pieces| == 1 then pieces[0] else pieces[0] + [sep] + Unsplit(pieces[1..], sep)
  }

  /** Splitting loses nothing: the pieces joined by the separator are the
      text. */
  lemma {:induction false} FieldsUnsplit(s: string, sep: char)
    ensures Unsplit(Fields(s, sep), sep) == s
    decreases |s|
  {
    match Find(s, sep)
    case None =>
    case Some(i) =>
      var rest := Fields(s[i + 1..], sep);
      var f := [s[..i]] + rest;
      assert Fields(s, sep) == f;
      assert f[0] == s[..i] && f[1..] == rest && |f| > 1;
      FieldsUnsplit(s[i + 1..], sep);
      assert Unsplit(f, sep) == s[..i] + [sep] + s[i + 1..];
      assert s == s[..i] + [sep] + s[i + 1..];
  }

  /** Splitting text whose first piece holds no separator. */
  lemma FieldsCons(a: string, sep: char, b: string)
    requires sep !in a
    ensures Fields(a + [sep] + b, sep) == [a] + Fields(b, sep)
  {
    var s := a + [sep] + b;
    assert s[|a|] == sep;
    assert s[..|a|] == a;
    assert s[|a| + 1..] == b;
  }

  lemma FieldsSingle(a: string, sep: char)
    requires sep !in a
    ensures Fields(a, sep) == [a]
  {
  }

  /** The lines `std::getline` extracts from `text`: pieces between '\n',
      where a final '\n' does not start one more (empty) line. */
  function Lines(text: string): (r: seq<string>)
    ensures r == [] <==> text == []
    ensures forall k :: 0 <= k < |r| ==> '\n' !in r[k]
  {
    if text == [] then []
    else if text[|text| - 1] == '\n' then Fields(text[..|text| - 1], '\n')
    else Fields(text, '\n')
  }

  /** Reading lines loses nothing but the final line end: the lines joined
      by '\n' are the text, up to one '\n' at its end. */
  lemma LinesUnsplit(text: string)
    requires text != []
    ensures var body := if text[|text| - 1] == '\n' then text[..|text| - 1] else text;
      Unsplit(Lines(text), '\n') == body
  {
    var body := if text[|text| - 1] == '\n' then text[..|text| - 1] else text;
    FieldsUnsplit(body, '\n');
  }

  /** A line followed by '\n' is extracted whole, and reading continues
      after it. */
  lemma LinesCons(a: string, b: string)
    requires '\n' !in a
    ensures Lines(a + "\n" + b) == [a] + Lines(b)
  {
    var s := a + "\n" + b;
    if b == [] {
      assert s[..|s| - 1] == a;
      FieldsSingle(a, '\n');
    } else if b[|b| - 1] == '\n' {
      assert s[..|s| - 1] == a + "\n" + b[..|b| - 1];
      FieldsCons(a, '\n', b[..|b| - 1]);
    } else {
      FieldsCons(a, '\n', b);
    }
  }

  /** A suffix of a sequence is its first element followed by the rest. */
  lemma SuffixCons<X>(s: seq<X>, i: nat)
    requires i < |s|
    ensures s[i..] == [s[i]] + s[i + 1..]
  {
  }
}
